=== FILE: README.md ===
# fastlem-web: nearest-node preview, node store and terrain inputs

This project is a Dafny model of the core of fastlem-web, a browser editor for
terrain-generation sites ("nodes"). A node has a position, an erodibility and an
ocean flag. The editor keeps the nodes in a list. It previews them as a
nearest-node raster (the "Voronoi preview"). That raster is built by a
multi-source priority flood over a grid of `ceil(width / 2) x ceil(height / 2)`
cells. The editor then composites the raster onto the canvas as RGBA pixels.

A Rust crate builds the same raster a second time. It also turns the nodes into
the sites handed to the terrain generator: the nodes are scaled into a
200 km box and nodes are added along the box's boundary. The crate lists the
ocean nodes as outlets, and answers altitude lookups with a -1 sentinel. A
standalone Rust renderer colours a terrain through a piecewise-linear ramp and
packs it as RGBA bytes. A Python script linearly rescales the erodibility of
every record in a node file.

Modules:

- `Grid`: cells, the 4-neighbourhood, the row-major flat index and ceiling division.
- `NodeModel`: the `Node` type of rust/src/node.rs.
  - `parse_nodes` scaling;
  - `Lerpable`;
  - `From<Node> for Point`.
- `PixelQueue`: the queue entry, with its two orders.
  - The editor's comparator: distance, then node index.
  - The crate's reversed `Ord`: distance only.
  - The queue entries that may leave the queue next under each.
- `VoronoiFlood`: the flood, written once and shared by both callers.
  - It is parameterised by the seed cells and the queue order.
  - Dequeueing picks any entry the queue may hand out next. This covers
    `BinaryHeap`'s unspecified order among equal entries.
  - The loop body is `Step`, and neighbours are queued by `PushNeighbours`.
  - `visited` is an array updated in place.
- `Preview`: `set_nearest_node_buffer`, with the crate's saturating `as u32` seed cells.
- `Bridge`: the wasm entry points of src/rust/src/lib.rs.
- `Renderer`: rust/src/lib.rs, namely the colormap loop, the eight fixed boundary nodes, the pixel loop and RGBA packing.
- `Compositor`: the colour rule of `drawImage` and the pixels each cell's block writes.
  - The canvas is a `Uint8ClampedArray`, grouped as one 4-byte pixel per slot.
  - A write past its end is dropped.
- `Editor`: the `Nodes` store and `EditorCanvas` classes of src/main.ts.
  - Events arrive as method calls with canvas coordinates.
  - A drawn frame is returned as a value.
- `RescaleErodibility`: scripts/rescale_erodibility.py over JSON-like values, with Python's exceptions as error values.

The flood's contract is not "every cell gets its globally nearest node", because
the code does not promise that. It states what the loop actually guarantees:
- every cell gets a valid node index;
- every cell is joined to its owner's seed by a path of cells with the same owner;
- every seed cell is held by a node seeded on the same cell, or by a node whose
  position lies exactly on that cell's corner;
- on the editor's queue, that holding node has an index no larger than the seed's own node.

## Model

| member | source | states |
|---|---|---|
| Grid.CellCount | src/main.ts:244-245 | The raster size `ceil(length / pixelScale)` is the least n with `n * pixelScale >= length` |
| NodeModel.LerpRealEnds | rust/src/node.rs:23-25 | Field interpolation gives `a` at t = 0 and `b` at t = 1 |
| NodeModel.LerpBetween | rust/src/node.rs:23-25 | For t in [0, 1] the interpolated field lies between the two end values, whichever is larger |
| NodeModel.LerpReversed | rust/src/node.rs:20-35 | Interpolating from `other` to `self` at 1 - t gives the same position and erodibility as from `self` to `other` at t. The ocean flag agrees too, except at exactly t = 0.5, where each direction takes the flag of its second node |
| NodeModel.LerpEndpoints | rust/src/node.rs:20-35 | Interpolation at t = 0 and t = 1 returns the two nodes themselves |
| NodeModel.LerpErodibilityBetween | rust/src/node.rs:25 | For t in [0, 1] the interpolated erodibility lies between the two nodes' erodibilities |
| NodeModel.ToPointOfLerp | rust/src/node.rs:14-18 | Converting to a point keeps x and y exactly and commutes with interpolation |
| NodeModel.ParseNodes | rust/src/node.rs:37-50 | Length and order are kept; x and y are multiplied by the two scales; erodibility and ocean flag are copied |
| NodeModel.ParseNodesUnitScale | src/rust/src/lib.rs:24 | Parsing at scale 1.0 leaves every node unchanged |
| NodeModel.ParseNodesAt | rust/src/node.rs:40-47 | Element i of the parsed list is input node i with its position scaled |
| NodeModel.ParseNodesRoundTrip | rust/src/node.rs:42-47 | Parsing with non-zero scales and then with their reciprocals gives back the original list |
| PixelQueue.TsComparatorIsLexicographic | src/main.ts:310-317 | The comparator is negative exactly when `a` has the smaller distance, or an equal distance and a smaller node index; it is zero only for equal distance and index; it is antisymmetric |
| PixelQueue.CmpIsReversedDistance | src/rust/src/preview.rs:10-20 | `cmp` is Greater exactly when `a` is nearer, Less exactly when it is farther and Equal exactly at equal distance, so the max-heap pops the nearest entry |
| PixelQueue.CmpIgnoresNodeIndex | src/rust/src/preview.rs:10-20 | Changing the node indices never changes the comparison: there is no index tie-break |
| PixelQueue.PixelEqDisagreesWithCmp | src/rust/src/preview.rs:28-32 | Some two entries are `==` under `PartialEq` and yet compare Less under `Ord` |
| PixelQueue.MinIndex | src/main.ts:341 | A non-empty queue always has an entry it may hand out next, under either order |
| PixelQueue.NextIsNearest | src/rust/src/preview.rs:61 | The entry handed out has the least distance in the queue; under the editor's order it also has the least index among the entries at that distance |
| VoronoiFlood.SqDist | src/main.ts:361-363 | The queued distance, from the cell corner `cell * scale` to the node, is never negative |
| VoronoiFlood.PushNeighbours | src/main.ts:347-370 | The queue only grows, by at most four entries; each new entry is an in-grid 4-neighbour of the popped cell with the popped node index and its squared corner distance to that node; every in-grid neighbour is queued |
| VoronoiFlood.NonSeedCellHasOwnerNeighbour | src/main.ts:340-372 | In a finished buffer, a cell that is not its owner's seed has a 4-neighbour with the same owner |
| VoronoiFlood.SeedQueue | src/main.ts:319-326 | One entry per node, in node order, at the node's seed cell with distance 0 |
| VoronoiFlood.Step | src/main.ts:341-370 | One dequeue keeps the flood invariant. A cell is claimed at most once, by the first entry dequeued for it, and later entries for it are discarded. Each step claims a new cell or shortens the queue, so the loop terminates |
| VoronoiFlood.Flood | src/rust/src/preview.rs:59-95 | With at least one node and every seed inside the grid, the result is a nearest-node buffer: height rows of width entries, each a valid node index, each cell joined to its owner's seed by a same-owner 4-path, each seed cell held as described above |
| Grid.ClosedSetCoversGrid | src/main.ts:340-371 | A set of cells that is closed under in-grid neighbours and holds one cell holds the whole grid; this is why the flood reaches every cell |
| Preview.RustSeeds | src/rust/src/preview.rs:50-57 | One seed per node, in order, at the saturating u32 cast of `ceil(x / s)`, `ceil(y / s)` |
| Preview.RustSeedInGrid | src/rust/src/preview.rs:52-53 | For a node at any position, its seed is inside the buffer exactly when the buffer is non-empty and `x, y <= (cells - 1) * s` on each axis; a negative coordinate saturates to row or column 0 |
| Preview.SetNearestNodeBuffer | src/rust/src/preview.rs:36-96 | No nodes give an empty buffer; otherwise the result is the distance-only flood from the crate's seeds |
| Bridge.FlattenRowMajor | src/rust/src/lib.rs:25-28 | Flattening `height` rows of `width` entries gives `width * height` entries, with cell (x, y) at `x + y * width` |
| Bridge.NearestNodeBuffer | src/rust/src/lib.rs:17-29 | No nodes give an empty output; otherwise `width * height` entries that are the flattened flood of the nodes, parsed at unit scale |
| Bridge.ImageScaleIsotropic | src/rust/src/lib.rs:61-64 | The bounding box is `SURFACE_DIST` wide with the image's aspect ratio, and both axes get the scale `SURFACE_DIST / width` that maps the image's far corner onto the box's |
| Bridge.PerimeterPoints | src/rust/src/lib.rs:72-91 | Exactly `4 * edge_node` points, edge by edge |
| Bridge.PerimeterCorners | src/rust/src/lib.rs:82-88 | Corner i is the first point of edge i, at index `i * edge_node` |
| Bridge.PerimeterOnBoundary | src/rust/src/lib.rs:85-89 | Every perimeter point lies on the boundary of the box |
| Bridge.NearestIndex | src/rust/src/lib.rs:93-98 | `min_by` picks a node at minimum squared distance, and the first such node |
| Bridge.FirstNearestUnique | src/rust/src/lib.rs:93-98 | There is only one first-nearest node, so the copied attributes are determined |
| Bridge.PerimeterNodes | src/rust/src/lib.rs:92-105 | One node per point, at that point, copying erodibility and ocean flag from a first-nearest input node; points need at least one input node |
| Bridge.GeneratorNodes | src/rust/src/lib.rs:66-108 | The input nodes scaled into the box come first, in order. They are followed by `4 * edge_node` nodes, the perimeter nodes of that prefix: the k-th sits at the k-th perimeter point, on the box's boundary, and copies erodibility and ocean flag from the first prefix node nearest to it |
| Bridge.Outlets | src/rust/src/lib.rs:128-133 | Strictly ascending indices of ocean nodes, and every ocean node's index is included |
| Bridge.OutletsUnique | rust/src/lib.rs:116-121 | Any ascending list holding exactly the ocean-node indices is the outlet list |
| Bridge.GetAltitude | src/rust/src/lib.rs:39-50 | The result is -1.0 exactly when the terrain has no altitude at the scaled site or has -1.0 there; any other result is the terrain's altitude at that site |
| Bridge.GetAltitudeAtNodeSite | src/rust/src/lib.rs:166 | Looking up the altitude at an editor node's position reads the terrain at the site that node was given |
| Renderer.AsU8 | rust/src/lib.rs:199-204 | The `as u8` cast gives a byte, and for values in [0, 255) the integer part |
| Renderer.StopsWellFormed | rust/src/lib.rs:174-182 | Six control points with strictly increasing weights and three channels each, all in [15, 255] |
| Renderer.Colormap | rust/src/lib.rs:184-211 | The colormap loop computes the ramp colour |
| Renderer.RampClamps | rust/src/lib.rs:186-191 | `prop >= 1` gives [15, 60, 15] and `prop <= 0` gives [50, 130, 200] |
| Renderer.BracketExistsUnique | rust/src/lib.rs:193-194 | For 0 < prop < 1 exactly one bracket holds prop |
| Renderer.RampIsBracketBlend | rust/src/lib.rs:193-207 | Inside (0, 1) the ramp is the blend of the bracket holding prop |
| Renderer.BlendChannelBetween | rust/src/lib.rs:199-204 | A blended channel lies between the two channel values it blends |
| Renderer.RampChannelsBetween | rust/src/lib.rs:193-209 | Inside (0, 1) each channel lies between the bracket colours' channels, so it is at least 15 and the result is never the initial black |
| Renderer.RampExactAtStops | rust/src/lib.rs:195-205 | At each interior control weight the ramp gives that control colour exactly |
| Renderer.RescaleInput | rust/src/lib.rs:56-67 | Dividing each position by the image size and multiplying by the box gives the input parsed with the image scale: same length and order, x and y scaled by `SURFACE_DIST / width`, attributes kept |
| Renderer.RescaleNodeIsScaleNode | rust/src/lib.rs:61-62 | For one node, `x / width * bound.x` and `y / height * bound.y` equal the node scaled by the image scale |
| Renderer.FixedPointsAreTwoPerEdge | rust/src/lib.rs:69-78 | The eight fixed points (corners and edge midpoints, clockwise) are the perimeter points with two points per edge |
| Renderer.RendererNodes | rust/src/lib.rs:80-98 | The rescaled inputs come first. They are followed by the perimeter nodes of that prefix at the eight fixed points: the k-th sits at the k-th fixed point and copies erodibility and ocean flag from the first rescaled input node nearest to it |
| Renderer.RendererNodesAreGeneratorNodes | rust/src/lib.rs:69-98 | The renderer builds exactly the sites the preview crate builds with `edge_node = 2` |
| Renderer.RenderPixels | rust/src/lib.rs:158-227 | Every pixel of the row-major image gets the shaded ramp colour of its site when both altitude samples exist, and stays black otherwise |
| Renderer.PaintPixel | rust/src/lib.rs:162-224 | One loop turn sets its own pixel and no other |
| Renderer.PackRgba | rust/src/lib.rs:229-233 | The packing loop computes the packed buffer |
| Renderer.PackedLayout | rust/src/lib.rs:229-233 | Four bytes per pixel, in order: the pixel's channels, then 255 |
| Renderer.PackedRoundTrip | rust/src/lib.rs:229-233 | Dropping every fourth byte recovers the pixels |
| Compositor.OceanColour | src/main.ts:252-262 | An ocean cell is [15, 120, 240] in the first two rows and columns and where the cell two up and two left is land, and [30, 150, 255] otherwise |
| Compositor.LandColour | src/main.ts:263-268 | A land cell is grey `floor(120 * e) + 125`, between 125 and 245, on all three channels |
| Compositor.ClampByte | src/main.ts:243 | A store into the clamped array keeps bytes and clamps other integers into [0, 255] |
| Compositor.TargetIndex | src/main.ts:273-291 | The index written for block offset (k, l) is the target pixel's slot, or lies past the end of the buffer |
| Compositor.HitsAreWrites | src/main.ts:271-293 | A cell's block offsets write exactly its own block plus, for the last cell of a row on an odd-width canvas, the first pixel of each of the next two pixel rows |
| Compositor.PaintBlock | src/main.ts:271-293 | The block loops set exactly the pixels the cell writes to its colour and leave every other pixel as it was |
| Compositor.DrawnStep | src/main.ts:250 | Drawing one more cell changes exactly the pixels that cell writes |
| Compositor.LastWriter | src/main.ts:249-250 | The raster cell that writes a pixel last is a raster cell |
| Compositor.DrawnAtEnd | src/main.ts:249-295 | After all rows, each pixel shows the colour of its last writer |
| Compositor.DrawnAtStart | src/main.ts:240-243 | Before the loops every pixel is the zeroed buffer |
| Compositor.EvenWidthShowsOwnBlock | src/main.ts:271-293 | On an even-width canvas every pixel shows the cell whose block holds it |
| Compositor.CellFillsBlock | src/main.ts:271-293 | Each pixel of a cell's block shows that cell, except a pixel overwritten by the previous row's overflow |
| Editor.SpliceStart | src/main.ts:41 | `splice`'s start: a start in range is used as is, a negative start counts back from the end, and the result is clamped to the length |
| Editor.SpliceOneRemoves | src/main.ts:40-42 | Deleting index k makes the list one shorter, keeps the nodes before k, shifts the nodes after k down one index, and loses nothing else |
| Editor.SpliceOneSubset | src/main.ts:40-42 | Every node left after a splice was in the list before |
| Editor.Nodes.constructor | src/main.ts:24-26 | A new store is empty |
| Editor.Nodes.AddNode | src/main.ts:28-30 | The node is appended at the end |
| Editor.Nodes.SetErodibility | src/main.ts:97-99 | The node at the index gets the erodibility and nothing else changes; with no node there it is a TypeError and the list is unchanged |
| Editor.Nodes.SetOcean | src/main.ts:116 | The node at the index gets the ocean flag; with no node there it is a TypeError and the list is unchanged |
| Editor.Nodes.DeleteNode | src/main.ts:40-42 | The list after `splice(index, 1)`: for an index in range, one shorter with the nodes before kept and the nodes after shifted down |
| Editor.CeilSeeds | src/main.ts:319-326 | One seed per node, in order, at `ceil(x / 2)`, `ceil(y / 2)` |
| Editor.ClickCellInRaster | src/main.ts:215-219 | Every point on the canvas lies over a raster cell |
| Editor.FloorSeedInGrid | src/main.ts:217-218 | The cell under a node on the canvas lies inside the raster |
| Editor.CeilSeedLeavesGrid | src/main.ts:321-322 | A node at x = 799 on an 800-pixel-wide canvas is seeded in column 400 of a 400-column raster |
| Editor.SliderToErodibility | src/main.ts:96-99 | Slider positions 0 to 100 give erodibilities from 0.2 to 0.8 |
| Editor.ErodibilityToSlider | src/main.ts:152-155 | Erodibilities from 0.2 to 0.8 give slider positions 0 to 100 |
| Editor.SliderRoundTrip | src/main.ts:94-155 | Setting the slider and reading it back are inverse to each other, both ways round |
| Editor.ShadeCell | src/main.ts:251-269 | The colour computed for a cell is the cell's colour under the drawing rule |
| Editor.DrawRow | src/main.ts:250-294 | A row of cells draws without fault exactly when every owner in the row exists, and then leaves every pixel as drawn through the end of the row |
| Editor.EditorCanvas.constructor | src/main.ts:57-71 | No nodes, no raster, no chosen node, not in creation mode |
| Editor.EditorCanvas.NearestNodeIndex | src/main.ts:210-223 | The raster entry under the click, or nothing without a raster or off the raster |
| Editor.EditorCanvas.ClickFindsNode | src/main.ts:210-223 | When the raster matches the nodes, a click on the canvas finds an existing node, namely the raster entry under the click |
| Editor.EditorCanvas.ClickOffRasterFindsNothing | src/main.ts:212-221 | Without a raster, or left of or above the canvas, a click finds nothing |
| Editor.EditorCanvas.SetImage | src/main.ts:305-373 | With no nodes the raster is kept as it was; otherwise the new raster is the flood from the ceil seeds with the editor's tie-break; nothing else changes |
| Editor.EditorCanvas.RebuildNearestBuffer | src/main.ts:305-373 | The corrected rebuild: no nodes give no raster; otherwise the flood from the floor seeds; afterwards the raster always matches the nodes |
| Editor.EditorCanvas.AddNode | src/main.ts:431-447 | Exactly one node is appended at the click. It inherits erodibility and ocean flag from the node under the click when there is one, and otherwise gets erodibility 0.5 on land. The new node is chosen |
| Editor.EditorCanvas.ChooseAt | src/main.ts:142-148 | The node under the click becomes the chosen node; off the raster the choice is unchanged |
| Editor.EditorCanvas.ChosenControls | src/main.ts:151-157 | The controls are empty exactly when nothing is chosen, are a TypeError exactly when the chosen index names no node, and otherwise show the chosen node's erodibility on the slider and its ocean flag |
| Editor.EditorCanvas.MouseDown | src/main.ts:128-160 | In creation mode a node is added and chosen, and the mode ends on the primary button; otherwise the node under the click is chosen; the controls then show the chosen node |
| Editor.EditorCanvas.SlideErodibility | src/main.ts:94-102 | The chosen node takes the slider's erodibility, which lies in [0.2, 0.8]; a missing node is a TypeError |
| Editor.EditorCanvas.CheckOcean | src/main.ts:114-119 | The chosen node takes the checkbox state; a missing node is a TypeError |
| Editor.EditorCanvas.StartCreation | src/main.ts:87-89 | The "New" button enters node-creation mode and changes nothing else |
| Editor.EditorCanvas.Escape | src/main.ts:169-177 | Escape leaves creation mode if in it, and otherwise drops the choice |
| Editor.EditorCanvas.DeleteChosen | src/main.ts:162-168 | With nothing chosen nothing changes. Otherwise the chosen node is spliced out and nothing is chosen. If that was the last node the old raster is kept; otherwise the raster is the flood of the remaining nodes from their ceil seeds with the editor's tie-break, and it matches the nodes |
| Editor.EditorCanvas.DeleteChosenAndRebuild | src/main.ts:162-168 | With the corrected rebuild, the raster matches the remaining nodes after a deletion |
| Editor.EditorCanvas.RemoveNodeAll | src/main.ts:449-453 | A fresh empty store and no raster; the chosen index is kept, so a kept choice reads a node that does not exist |
| Editor.EditorCanvas.RemoveNodeAllAndDeselect | src/main.ts:449-453 | The corrected reset also drops the choice, so the controls are empty |
| Editor.EditorCanvas.DrawImage | src/main.ts:234-303 | Grey exactly without a raster. Otherwise it faults exactly when some raster cell names no node, and it never faults when the raster matches the nodes. A finished image shows, at every canvas pixel, the clamped RGBA colour of that pixel's last writer |
| Editor.StaleRasterAfterDeletingLastNode | src/main.ts:306-308 | Creating one node, building the raster, then choosing and deleting the node, as written, makes the next draw fault |
| Editor.NoRasterAfterDeletingLastNode | src/main.ts:162-168 | The same steps with the corrected rebuild draw the canvas grey |
| Editor.StaleChoiceAfterRemovingAll | src/main.ts:449-453 | Creating and choosing a node, removing all nodes and then clicking reads a node that no longer exists |
| Editor.NoChoiceAfterRemovingAll | src/main.ts:449-453 | The same steps with the choice dropped leave the controls empty |
| RescaleErodibility.RescaleReal | scripts/rescale_erodibility.py:10-11 | The rescale of a number fails exactly when the old range is empty, and then with a ZeroDivisionError |
| RescaleErodibility.Rescale | scripts/rescale_erodibility.py:10-11 | A value that is neither a number nor a boolean fails with a TypeError before the division; a number or boolean fails exactly on an empty old range |
| RescaleErodibility.RescaleEndpoints | scripts/rescale_erodibility.py:10-11 | The old minimum goes to the new minimum and the old maximum to the new maximum |
| RescaleErodibility.RescaleMonotone | scripts/rescale_erodibility.py:10-11 | With ascending ranges the rescale keeps the order of values |
| RescaleErodibility.RescaleInverse | scripts/rescale_erodibility.py:10-11 | Rescaling from one non-empty range to another and back returns the value |
| RescaleErodibility.RescaleItem | scripts/rescale_erodibility.py:15-16 | A record without an erodibility is unchanged; otherwise the record fails exactly when its value does, and it keeps its keys and every other value |
| RescaleErodibility.RescalePass | scripts/rescale_erodibility.py:14-16 | The pass keeps the number of records |
| RescaleErodibility.RescalePassTouchesOnlyErodibility | scripts/rescale_erodibility.py:14-16 | Records keep their order, keys and every value but the erodibility; records without one are untouched |
| RescaleErodibility.RescalePassSucceeds | scripts/rescale_erodibility.py:14-16 | The pass raises exactly when some record fails; without an exception every record is replaced by its update |
| RescaleErodibility.RescalePassStopsAtFirstFailure | scripts/rescale_erodibility.py:14-16 | When the pass raises, it stopped at the first failing record: the records before it are updated, and it and the rest are as they were |
| RescaleErodibility.RescaleRecords | scripts/rescale_erodibility.py:14-16 | The in-place loop leaves the array as the pass leaves the list, and returns the exception that stopped it, if any |

## Left out

- DOM, canvas and event plumbing are not modelled: listeners, `updateContext`, `drawSmallRect`, `drawNodes`, `mousemove`, `putImageData` and the renderer's canvas context calls. Events become method calls with canvas coordinates, and a drawn frame is a returned value.
- EditorCanvas.MouseDown: the raster rebuild that node creation schedules with `setTimeout` is not part of the call. It is a separate call of `SetImage`, which the caller makes afterwards.
- EditorCanvas.RemoveNodeAll: the `confirm` dialog in front of it is the caller's choice and is not modelled.
- The terrain generator, the model builder, the natural-neighbour interpolator and `Terrain2D::get_altitude` are foreign crates. The terrain's altitude lookup is a parameter.
- The random sampling of interpolated nodes is not modelled. `Bridge.Outlets` applies to whatever list of nodes is sampled.
- Renderer.RenderPixels: the per-pixel brightness, which uses `atan` and `rand::random`, is a parameter.
- `serde_wasm_bindgen` deserialisation and its `unwrap` panics are not modelled. The nodes arrive already parsed.
- JSON file I/O and argparse in the Python script are not modelled. The bounds arrive as reals and the records as an array.
- RescaleErodibility.RescaleRecords: records are maps from keys to JSON values. A list element that is not an object is not modelled. Python's int and float are not told apart, so a result is always a number.
- f64 arithmetic is modelled as exact real arithmetic, so rounding in distances, scales, the colormap and the rescale is not captured.
- Node indices and u32 cell coordinates are unbounded integers. `buffer_width * buffer_height` overflowing u32 is not modelled.
- The seed cell's `as u32` cast saturates; the `as i32` casts of neighbours are taken to be exact.
- The crate's `Lerpable` for `f64` is `naturalneighbor`'s, which is not part of this model. It is taken to be `a + (b - a) * t`.
- Bridge.PerimeterCorners: the claim that each corner appears exactly once is not proved. Only that corner i is the first point of edge i is proved. For a degenerate box with a zero side, some other points coincide with corners.
- Preview.SetNearestNodeBuffer: every seed must lie inside the buffer; this is a precondition, and `Preview.RustSeedInGrid` characterises exactly when it holds. A seed outside the buffer is not modelled. In the source such a seed need not fault at the `visited` index: a seed past the last column of a row above the last can alias a cell of a later row in the flat `visited` vector, as column `buffer_width` of row `py` aliases cell (0, `py` + 1). If that cell is unvisited, the write to `nearest_buffer[py][px]` panics; if it was already visited, the entry is skipped silently. A seed below the last row panics at the `visited` index.
- Preview.RustSeed, Preview.RustSeeds, Preview.RustSeedInGrid, Preview.SetNearestNodeBuffer, Bridge.NearestNodeBuffer: a pixel scale of 0 is excluded by a requires and is not modelled. In Rust, `x / 0.0` is an infinity or NaN, and the `as u32` cast saturates it to `u32::MAX` or 0 rather than faulting.
- Bridge.BoundMax, Bridge.ImageScale, Bridge.ImageScaleIsotropic, Bridge.GeneratorNodes, Renderer.RescaleInput, Renderer.RendererNodes: an image width or height of 0 is excluded by a requires and is not modelled. In Rust, the divisions by the image size then give an infinite or NaN box and scale rather than a fault. No caller in the sources guarantees a non-zero size.
- Bridge.PerimeterNodes: the nearest-node lookup unwraps `min_by` over the input nodes, which panics when there are no input nodes and at least one perimeter point. The requires of `PerimeterNodes`, `GeneratorNodes` and `RendererNodes` exclude that case rather than model the panic.
- EditorCanvas.SetImage: as written it needs every ceil seed on the raster. A JavaScript write to `nearestBuffer[py][px]` with `py` out of range throws, and an index past a row silently extends it. Neither behaviour is modelled; see the second finding.
- The canvas's RGBA byte buffer is modelled as an array of 4-byte pixels, and the renderer's image as an array of 3-byte pixels. Every write in the source stores a whole pixel in index order, so this grouping loses no writes.
- The slider's string round trip (`toString`, `parseFloat`) is modelled on reals.
- Python dicts and JavaScript node objects are modelled as values. Aliasing between records or nodes is not captured.
- The flood's result is not claimed to give each cell its globally nearest node, because the code does not guarantee that.

## Findings

| source | as written | input that shows it | evidently intended | confidence | as-written member | corrected member |
|---|---|---|---|---|---|---|
| src/main.ts:306-308 | With no nodes, `setImage` returns and keeps the old raster, so after the last node is deleted the raster still names it, and `drawImage` reads `getNode(0).is_ocean` of `undefined` | 4 x 4 canvas, one node created at (1, 1), raster built, node chosen, Delete pressed, canvas redrawn | Drop the raster when there are no nodes, so the canvas is drawn grey | not executed | Editor.StaleRasterAfterDeletingLastNode | Editor.EditorCanvas.RebuildNearestBuffer |
| src/main.ts:321-322 | Seeds are placed at `ceil(x / 2)`, which is one column past the raster for a node with `x > 2 * (bufferWidth - 1)`, a position still on the canvas (rows likewise) | 800 x 600 canvas, a node at (799, 0): seed column 400 on a 400-column raster | Seed each node in the cell under it, `floor(x / 2)`, the cell a click on the node looks up | not executed | Editor.CeilSeedLeavesGrid | Editor.FloorSeedInGrid |
| src/main.ts:449-453 | `removeNodeAll` empties the store but keeps `nodeChoosen`, so the next click reads a node that no longer exists | One node created and chosen, Remove all confirmed, then a click off creation mode | Drop the choice together with the nodes | not executed | Editor.StaleChoiceAfterRemovingAll | Editor.EditorCanvas.RemoveNodeAllAndDeselect |

=== FILE: bridge.dfy ===
/**
 * The wasm entry points of src/rust/src/lib.rs: the flattened preview
 * buffer, the sites handed to the terrain generator (input nodes rescaled to
 * the model's bounding box, followed by nodes spaced along its perimeter),
 * the outlet list, and the altitude lookup with its -1 sentinel. The terrain
 * generator, the natural-neighbour interpolator and the random sampling are
 * not part of this model; the altitude of the finished terrain is a
 * parameter.
 */
module Bridge {
  import opened Wrappers
  import opened Grid
  import opened NodeModel
  import opened PixelQueue
  import opened VoronoiFlood
  import opened Preview

  // ---------------------------------------------------------------------
  // nearest_node_buffer

  /** Rows laid end to end, first row first. */
  function Flatten(g: seq<seq<int>>): seq<int>
  {
    if |g| == 0 then [] else g[0] + Flatten(g[1..])
  }

  /** Flattening `height` rows of `width` entries gives width * height entries. */
  lemma {:induction false} FlattenLength(g: seq<seq<int>>, width: nat, height: nat)
    requires IsGrid(g, width, height)
    ensures |Flatten(g)| == width * height
  {
    if height > 0 {
      FlattenLength(g[1..], width, height - 1);
      MulDistributes(height - 1, 1, width);
    }
  }

  /** Entry x of row y sits at x + y * width of the flattened grid. */
  lemma {:induction false} FlattenAt(g: seq<seq<int>>, width: nat, height: nat, x: nat, y: nat)
    requires IsGrid(g, width, height) && x < width && y < height
    ensures x + y * width < |Flatten(g)| && Flatten(g)[x + y * width] == g[y][x]
  {
    FlattenLength(g, width, height);
    FlattenLength(g[1..], width, height - 1);
    if y > 0 {
      FlattenAt(g[1..], width, height - 1, x, y - 1);
      MulDistributes(y - 1, 1, width);
      assert Flatten(g)[x + y * width] == Flatten(g[1..])[x + (y - 1) * width];
    }
  }

  /** Flattening a grid puts cell (x, y) at index x + y * width. */
  lemma FlattenRowMajor(g: seq<seq<int>>, width: nat, height: nat)
    requires IsGrid(g, width, height)
    ensures |Flatten(g)| == width * height
    ensures forall c :: InGrid(c, width, height) ==>
      0 <= FlatIndex(c, width) < |Flatten(g)| && Flatten(g)[FlatIndex(c, width)] == At(g, c)
  {
    FlattenLength(g, width, height);
    forall c | InGrid(c, width, height)
      ensures 0 <= FlatIndex(c, width) < |Flatten(g)| && Flatten(g)[FlatIndex(c, width)] == At(g, c)
    {
      FlattenAt(g, width, height, c.x, c.y);
      MulNonNegative(c.y, width);
    }
  }

  /**
   * `nearest_node_buffer`: the preview buffer of the nodes (parsed at unit
   * scale), flattened row by row; empty when there are no nodes.
   */
  method NearestNodeBuffer(bufferWidth: nat, bufferHeight: nat, pixelScale: nat, nodes: seq<Node>)
    returns (out: seq<int>)
    requires pixelScale > 0
    requires forall i :: 0 <= i < |nodes| ==> InGrid(RustSeed(nodes[i], pixelScale), bufferWidth, bufferHeight)
    ensures |nodes| == 0 ==> out == []
    ensures |nodes| > 0 ==> (|out| == bufferWidth * bufferHeight &&
      exists grid :: FlattenedBufferOf(out, grid, Setup(nodes, RustSeeds(nodes, pixelScale), bufferWidth, bufferHeight, pixelScale, DistanceOnly)))
  {
    var parsed := ParseNodes(nodes, 1.0, 1.0);
    ParseNodesUnitScale(nodes);
    var grid := SetNearestNodeBuffer(bufferWidth, bufferHeight, pixelScale, parsed);
    out := Flatten(grid);
    if |nodes| > 0 {
      FlattenRowMajor(grid, bufferWidth, bufferHeight);
      assert FlattenedBufferOf(out, grid, Setup(nodes, RustSeeds(nodes, pixelScale), bufferWidth, bufferHeight, pixelScale, DistanceOnly));
    }
  }

  /** `out` is the finished flood `grid` for setup `s`, laid out row by row. */
  ghost predicate FlattenedBufferOf(out: seq<int>, grid: seq<seq<int>>, s: Setup)
  {
    Admissible(s) && IsNearestBuffer(s, grid) &&
    forall c :: InGrid(c, s.width, s.height) ==> 0 <= FlatIndex(c, s.width) < |out| && out[FlatIndex(c, s.width)] == At(grid, c)
  }

  // ---------------------------------------------------------------------
  // Bounding box and scale

  /** SURFACE_DIST: the model's width in metres. */
  const SurfaceDist: real := 200.0 * 1000.0

  /** The model's far corner: SURFACE_DIST wide, with the image's aspect ratio. */
  function BoundMax(imageWidth: nat, imageHeight: nat): Point
    requires imageWidth > 0
  {
    Point(SurfaceDist, SurfaceDist * (imageHeight as real / imageWidth as real))
  }

  /** Model units per image pixel on each axis. */
  function ImageScale(imageWidth: nat, imageHeight: nat): Point
    requires imageWidth > 0 && imageHeight > 0
  {
    var b := BoundMax(imageWidth, imageHeight);
    Point(b.x / imageWidth as real, b.y / imageHeight as real)
  }

  /**
   * The two axes get the same scale, SURFACE_DIST / width, and the image's
   * far corner maps exactly onto the bounding box's.
   */
  lemma ImageScaleIsotropic(imageWidth: nat, imageHeight: nat)
    requires imageWidth > 0 && imageHeight > 0
    ensures ImageScale(imageWidth, imageHeight).x == SurfaceDist / imageWidth as real
    ensures ImageScale(imageWidth, imageHeight).y == SurfaceDist / imageWidth as real
    ensures ImageScale(imageWidth, imageHeight).x * imageWidth as real == BoundMax(imageWidth, imageHeight).x
    ensures ImageScale(imageWidth, imageHeight).y * imageHeight as real == BoundMax(imageWidth, imageHeight).y
  {
    var w := imageWidth as real;
    var h := imageHeight as real;
    assert SurfaceDist * (h / w) / h == SurfaceDist / w;
  }

  // ---------------------------------------------------------------------
  // Perimeter nodes

  /** The bounding box's corners, clockwise from the origin. */
  function Corners(bound: Point): seq<Point>
  {
    [Point(0.0, 0.0), Point(bound.x, 0.0), Point(bound.x, bound.y), Point(0.0, bound.y)]
  }

  /** The `edgeNode` points of edge i: from corner i towards corner i + 1 at t = j / edgeNode. */
  function EdgePoints(bound: Point, i: nat, edgeNode: nat): (r: seq<Point>)
    requires i < 4
    ensures |r| == edgeNode
  {
    var a := Corners(bound)[i];
    var b := Corners(bound)[(i + 1) % 4];
    seq(edgeNode, j requires 0 <= j < edgeNode =>
      Point(LerpReal(a.x, b.x, j as real / edgeNode as real), LerpReal(a.y, b.y, j as real / edgeNode as real)))
  }

  /** All perimeter points, edge by edge. */
  function PerimeterPoints(bound: Point, edgeNode: nat): (r: seq<Point>)
    ensures |r| == 4 * edgeNode
  {
    EdgePoints(bound, 0, edgeNode) + EdgePoints(bound, 1, edgeNode) +
    EdgePoints(bound, 2, edgeNode) + EdgePoints(bound, 3, edgeNode)
  }

  /** j / n for 0 <= j < n lies in [0, 1), and is 0 only for j = 0. */
  lemma FractionInUnit(j: nat, n: nat)
    requires j < n
    ensures 0.0 <= j as real / n as real < 1.0
    ensures j as real / n as real == 0.0 <==> j == 0
  {}

  /** Corner i of the box is the first point of edge i. */
  lemma PerimeterCorners(bound: Point, edgeNode: nat)
    requires edgeNode > 0
    ensures PerimeterPoints(bound, edgeNode)[0] == Corners(bound)[0]
    ensures PerimeterPoints(bound, edgeNode)[edgeNode] == Corners(bound)[1]
    ensures PerimeterPoints(bound, edgeNode)[2 * edgeNode] == Corners(bound)[2]
    ensures PerimeterPoints(bound, edgeNode)[3 * edgeNode] == Corners(bound)[3]
  {
    var r := PerimeterPoints(bound, edgeNode);
    FractionInUnit(0, edgeNode);
    LerpRealEnds(0.0, bound.x);
    LerpRealEnds(0.0, bound.y);
    LerpRealEnds(bound.x, 0.0);
    LerpRealEnds(bound.y, 0.0);
    assert r[edgeNode] == EdgePoints(bound, 1, edgeNode)[0];
    assert r[2 * edgeNode] == EdgePoints(bound, 2, edgeNode)[0];
    assert r[3 * edgeNode] == EdgePoints(bound, 3, edgeNode)[0];
  }

  /** A point inside the box that lies on one of its four sides. */
  predicate OnBoundary(p: Point, bound: Point)
  {
    0.0 <= p.x <= bound.x && 0.0 <= p.y <= bound.y &&
    (p.x == 0.0 || p.x == bound.x || p.y == 0.0 || p.y == bound.y)
  }

  /** Every perimeter point lies on the box's boundary. */
  lemma PerimeterOnBoundary(bound: Point, edgeNode: nat)
    requires 0.0 <= bound.x && 0.0 <= bound.y
    ensures forall k :: 0 <= k < 4 * edgeNode ==> OnBoundary(PerimeterPoints(bound, edgeNode)[k], bound)
  {
    var r := PerimeterPoints(bound, edgeNode);
    forall k | 0 <= k < 4 * edgeNode ensures OnBoundary(r[k], bound) {
      if k < edgeNode {
        EdgePointOnBoundary(bound, 0, k, edgeNode);
      } else if k < 2 * edgeNode {
        EdgePointOnBoundary(bound, 1, k - edgeNode, edgeNode);
      } else if k < 3 * edgeNode {
        EdgePointOnBoundary(bound, 2, k - 2 * edgeNode, edgeNode);
      } else {
        EdgePointOnBoundary(bound, 3, k - 3 * edgeNode, edgeNode);
      }
    }
  }

  lemma EdgePointOnBoundary(bound: Point, i: nat, j: nat, edgeNode: nat)
    requires 0.0 <= bound.x && 0.0 <= bound.y && i < 4 && j < edgeNode
    ensures OnBoundary(EdgePoints(bound, i, edgeNode)[j], bound)
  {
    FractionInUnit(j, edgeNode);
    var t := j as real / edgeNode as real;
    var a := Corners(bound)[i];
    var b := Corners(bound)[(i + 1) % 4];
    LerpBetween(a.x, b.x, t);
    LerpBetween(a.y, b.y, t);
  }

  /** Squared distance between a node and a point. */
  function SqDistTo(n: Node, p: Point): real
  {
    (n.x - p.x) * (n.x - p.x) + (n.y - p.y) * (n.y - p.y)
  }

  /** Node i is at minimum squared distance from p, and no earlier node is as close. */
  predicate IsFirstNearest(nodes: seq<Node>, i: int, p: Point)
  {
    0 <= i < |nodes| &&
    (forall j :: 0 <= j < |nodes| ==> SqDistTo(nodes[i], p) <= SqDistTo(nodes[j], p)) &&
    (forall j :: 0 <= j < i ==> SqDistTo(nodes[j], p) > SqDistTo(nodes[i], p))
  }

  /** `min_by` over the first n nodes: a later node replaces the minimum only when strictly closer. */
  function NearestAmong(nodes: seq<Node>, p: Point, n: nat): (k: nat)
    requires 0 < n <= |nodes|
    ensures IsFirstNearest(nodes[..n], k, p)
  {
    if n == 1 then 0
    else
      var k := NearestAmong(nodes, p, n - 1);
      assert nodes[..n - 1] == nodes[..n][..n - 1];
      if SqDistTo(nodes[n - 1], p) < SqDistTo(nodes[k], p) then n - 1 else k
  }

  /** The index `min_by(...).unwrap()` picks: the first node at minimum squared distance. */
  function NearestIndex(nodes: seq<Node>, p: Point): (k: nat)
    requires |nodes| > 0
    ensures IsFirstNearest(nodes, k, p)
  {
    assert nodes[..|nodes|] == nodes;
    NearestAmong(nodes, p, |nodes|)
  }

  /** There is only one first-nearest node. */
  lemma FirstNearestUnique(nodes: seq<Node>, i: int, j: int, p: Point)
    requires IsFirstNearest(nodes, i, p) && IsFirstNearest(nodes, j, p)
    ensures i == j
  {
    if i < j {
      FartherThanFirst(nodes, j, i, p);
      assert false;
    } else if j < i {
      FartherThanFirst(nodes, i, j, p);
      assert false;
    }
  }

  lemma FartherThanFirst(nodes: seq<Node>, i: int, j: int, p: Point)
    requires IsFirstNearest(nodes, i, p) && 0 <= j < i
    ensures SqDistTo(nodes[j], p) > SqDistTo(nodes[i], p)
  {}

  /**
   * A node at each point, with erodibility and ocean flag copied from the
   * first input node nearest to it. With no points there is nothing to look
   * up; otherwise the lookup needs at least one node (the source unwraps).
   */
  function PerimeterNodes(nodes: seq<Node>, points: seq<Point>): (r: seq<Node>)
    requires |nodes| > 0 || |points| == 0
    ensures |r| == |points|
    ensures forall k :: 0 <= k < |points| ==> (ToPoint(r[k]) == points[k] &&
      exists i :: IsFirstNearest(nodes, i, points[k]) &&
        r[k].erodibility == nodes[i].erodibility && r[k].isOcean == nodes[i].isOcean)
  {
    seq(|points|, k requires 0 <= k < |points| =>
      var i := NearestIndex(nodes, points[k]);
      Node(points[k].x, points[k].y, nodes[i].erodibility, nodes[i].isOcean))
  }

  /**
   * The list holds `n` leading nodes followed by one node at each point,
   * each of which carries the erodibility and ocean flag of the first
   * leading node nearest to its point.
   */
  ghost predicate TailCopiesFirstNearest(r: seq<Node>, n: nat, points: seq<Point>)
  {
    n + |points| == |r| &&
    forall k :: 0 <= k < |points| ==> (ToPoint(r[n + k]) == points[k] &&
      exists i :: IsFirstNearest(r[..n], i, points[k]) &&
        r[n + k].erodibility == r[i].erodibility && r[n + k].isOcean == r[i].isOcean)
  }

  /** Appending the perimeter nodes of a list to that list gives a tail that copies the first nearest leading node. */
  lemma AppendPerimeterNodes(nodes: seq<Node>, points: seq<Point>)
    requires |nodes| > 0 || |points| == 0
    ensures (nodes + PerimeterNodes(nodes, points))[..|nodes|] == nodes
    ensures (nodes + PerimeterNodes(nodes, points))[|nodes|..] == PerimeterNodes(nodes, points)
    ensures TailCopiesFirstNearest(nodes + PerimeterNodes(nodes, points), |nodes|, points)
  {
    var perimeter := PerimeterNodes(nodes, points);
    var r := nodes + perimeter;
    assert r[..|nodes|] == nodes;
    assert r[|nodes|..] == perimeter;
    forall k | 0 <= k < |points|
      ensures ToPoint(r[|nodes| + k]) == points[k] &&
        exists i :: IsFirstNearest(r[..|nodes|], i, points[k]) &&
          r[|nodes| + k].erodibility == r[i].erodibility && r[|nodes| + k].isOcean == r[i].isOcean
    {
      assert r[|nodes| + k] == perimeter[k];
      var i :| IsFirstNearest(nodes, i, points[k]) &&
        perimeter[k].erodibility == nodes[i].erodibility && perimeter[k].isOcean == nodes[i].isOcean;
      assert r[i] == nodes[i];
    }
  }

  /**
   * The sites `run_terrain_generator` hands to the interpolator: the input
   * nodes scaled into the bounding box, followed by `4 * edgeNode` perimeter
   * nodes, each at its perimeter point and carrying the attributes of the
   * first scaled input node nearest to it.
   */
  function GeneratorNodes(input: seq<Node>, imageWidth: nat, imageHeight: nat, edgeNode: nat): (r: seq<Node>)
    requires imageWidth > 0 && imageHeight > 0
    requires |input| > 0 || edgeNode == 0
    ensures |r| == |input| + 4 * edgeNode
    ensures r[..|input|] == ParseNodes(input, ImageScale(imageWidth, imageHeight).x, ImageScale(imageWidth, imageHeight).y)
    ensures r[|input|..] == PerimeterNodes(r[..|input|], PerimeterPoints(BoundMax(imageWidth, imageHeight), edgeNode))
    ensures TailCopiesFirstNearest(r, |input|, PerimeterPoints(BoundMax(imageWidth, imageHeight), edgeNode))
    ensures forall k :: |input| <= k < |r| ==> OnBoundary(ToPoint(r[k]), BoundMax(imageWidth, imageHeight))
  {
    var scale := ImageScale(imageWidth, imageHeight);
    var bound := BoundMax(imageWidth, imageHeight);
    var parsed := ParseNodes(input, scale.x, scale.y);
    var perimeter := PerimeterNodes(parsed, PerimeterPoints(bound, edgeNode));
    PerimeterNodesOnBoundary(parsed, bound, edgeNode);
    AppendPerimeterNodes(parsed, PerimeterPoints(bound, edgeNode));
    parsed + perimeter
  }

  lemma PerimeterNodesOnBoundary(nodes: seq<Node>, bound: Point, edgeNode: nat)
    requires |nodes| > 0 || edgeNode == 0
    requires 0.0 <= bound.x && 0.0 <= bound.y
    ensures forall k :: 0 <= k < 4 * edgeNode ==>
      OnBoundary(ToPoint(PerimeterNodes(nodes, PerimeterPoints(bound, edgeNode))[k]), bound)
  {
    PerimeterOnBoundary(bound, edgeNode);
  }

  // ---------------------------------------------------------------------
  // Outlets

  /** The indices of the ocean nodes, in increasing order. */
  function Outlets(nodes: seq<Node>): (r: seq<int>)
    ensures forall a, b :: 0 <= a < b < |r| ==> r[a] < r[b]
    ensures forall k :: 0 <= k < |r| ==> 0 <= r[k] < |nodes| && nodes[r[k]].isOcean
    ensures forall i :: 0 <= i < |nodes| && nodes[i].isOcean ==> i in r
  {
    if |nodes| == 0 then []
    else
      var init := nodes[..|nodes| - 1];
      var rest := Outlets(init);
      assert forall k :: 0 <= k < |rest| ==> nodes[rest[k]] == init[rest[k]];
      rest + (if nodes[|nodes| - 1].isOcean then [|nodes| - 1] else [])
  }

  /** A strictly increasing sequence. */
  predicate Ascending(s: seq<int>)
  {
    forall a, b :: 0 <= a < b < |s| ==> s[a] < s[b]
  }

  /** Every element of a non-empty increasing sequence is at least its first. */
  lemma AscendingFirstIsLeast(s: seq<int>, v: int)
    requires Ascending(s) && |s| > 0 && v in s
    ensures s[0] <= v
    ensures v != s[0] ==> v in s[1..]
  {
    var k :| 0 <= k < |s| && s[k] == v;
    if k > 0 {
      assert s[1..][k - 1] == v;
    }
  }

  /** Two strictly increasing sequences with the same elements are equal. */
  lemma {:induction false} AscendingDetermined(s: seq<int>, t: seq<int>)
    requires Ascending(s) && Ascending(t)
    requires forall v :: v in s <==> v in t
    ensures s == t
  {
    if |s| > 0 {
      assert s[0] in s;
      assert t[0] in t;
      AscendingFirstIsLeast(s, t[0]);
      AscendingFirstIsLeast(t, s[0]);
      forall v ensures v in s[1..] <==> v in t[1..] {
        TailElement(s, t, v);
        TailElement(t, s, v);
      }
      AscendingTail(s);
      AscendingTail(t);
      AscendingDetermined(s[1..], t[1..]);
      assert s == [s[0]] + s[1..];
      assert t == [t[0]] + t[1..];
    } else if |t| > 0 {
      assert false;
    }
  }

  /** Between increasing sequences with the same elements and the same head, an element of one tail is in the other tail. */
  lemma TailElement(s: seq<int>, t: seq<int>, v: int)
    requires Ascending(s) && Ascending(t) && |s| > 0 && |t| > 0 && s[0] == t[0]
    requires forall v :: v in s <==> v in t
    ensures v in s[1..] ==> v in t[1..]
  {
    if v in s[1..] {
      var k :| 0 <= k < |s[1..]| && s[1..][k] == v;
      assert s[k + 1] == v && s[0] < v;
      AscendingFirstIsLeast(t, v);
    }
  }

  lemma AscendingTail(s: seq<int>)
    requires Ascending(s) && |s| > 0
    ensures Ascending(s[1..])
  {
    forall a, b | 0 <= a < b < |s[1..]| ensures s[1..][a] < s[1..][b] {
      assert s[1..][a] == s[a + 1] && s[1..][b] == s[b + 1];
    }
  }

  /** Any increasing list of exactly the ocean-node indices is the outlet list. */
  lemma OutletsUnique(nodes: seq<Node>, r: seq<int>)
    requires Ascending(r)
    requires forall v :: v in r <==> 0 <= v < |nodes| && nodes[v].isOcean
    ensures r == Outlets(nodes)
  {
    var o := Outlets(nodes);
    assert Ascending(o);
    forall v ensures v in r <==> v in o {
      if v in o {
        var k :| 0 <= k < |o| && o[k] == v;
      }
    }
    AscendingDetermined(r, o);
  }

  // ---------------------------------------------------------------------
  // TerrainObject.get_altitude

  /**
   * The generated terrain as the editor sees it: the altitude at a model
   * site, when the site lies in the terrain, and the model units per image
   * pixel.
   */
  datatype TerrainObject = TerrainObject(altitudeAt: Point -> Option<real>, scale: Point)

  /** The object `run_terrain_generator` returns for an image of the given size. */
  function MakeTerrainObject(altitudeAt: Point -> Option<real>, imageWidth: nat, imageHeight: nat): TerrainObject
    requires imageWidth > 0 && imageHeight > 0
  {
    TerrainObject(altitudeAt, ImageScale(imageWidth, imageHeight))
  }

  /** The model site of an image position. */
  function SiteOf(t: TerrainObject, x: real, y: real): Point
  {
    Point(x * t.scale.x, y * t.scale.y)
  }

  /** `get_altitude`: the altitude at the image position's site, or -1.0 outside the terrain. */
  function GetAltitude(t: TerrainObject, x: real, y: real): (a: real)
    ensures a == -1.0 <==> (t.altitudeAt(SiteOf(t, x, y)).None? || t.altitudeAt(SiteOf(t, x, y)) == Some(-1.0))
    ensures a != -1.0 ==> t.altitudeAt(SiteOf(t, x, y)) == Some(a)
  {
    match t.altitudeAt(SiteOf(t, x, y))
    case Some(altitude) => altitude
    case None => -1.0
  }

  /**
   * Looking up the altitude at an editor node's position reads the terrain at
   * the very site that node was given when the terrain was generated.
   */
  lemma GetAltitudeAtNodeSite(altitudeAt: Point -> Option<real>, imageWidth: nat, imageHeight: nat,
                               input: seq<Node>, edgeNode: nat, i: nat)
    requires imageWidth > 0 && imageHeight > 0 && (|input| > 0 || edgeNode == 0) && i < |input|
    ensures var t := MakeTerrainObject(altitudeAt, imageWidth, imageHeight);
      var site := ToPoint(GeneratorNodes(input, imageWidth, imageHeight, edgeNode)[i]);
      GetAltitude(t, input[i].x, input[i].y) == (if altitudeAt(site).Some? then altitudeAt(site).value else -1.0)
  {
    var t := MakeTerrainObject(altitudeAt, imageWidth, imageHeight);
    var r := GeneratorNodes(input, imageWidth, imageHeight, edgeNode);
    ParsedPrefixAt(t, input, r, i);
    SiteOfParsedNode(t, input, i);
  }

  /** A list that starts with the parsed input holds the parsed input node i at index i. */
  lemma ParsedPrefixAt(t: TerrainObject, input: seq<Node>, r: seq<Node>, i: nat)
    requires i < |input| <= |r| && r[..|input|] == ParseNodes(input, t.scale.x, t.scale.y)
    ensures r[i] == ParseNodes(input, t.scale.x, t.scale.y)[i]
  {
    SliceIndex(r, |input|, i);
  }

  /** Input node i, parsed at the terrain's scale, sits at that node's site. */
  lemma SiteOfParsedNode(t: TerrainObject, input: seq<Node>, i: nat)
    requires i < |input|
    ensures SiteOf(t, input[i].x, input[i].y) == ToPoint(ParseNodes(input, t.scale.x, t.scale.y)[i])
  {
    SiteOfIsScaledNode(t, input[i]);
    ParseNodesAt(input, t.scale.x, t.scale.y, i);
  }

  lemma SiteOfIsScaledNode(t: TerrainObject, n: Node)
    ensures SiteOf(t, n.x, n.y) == ToPoint(ScaleNode(n, t.scale.x, t.scale.y))
  {}

  lemma SliceIndex(r: seq<Node>, n: nat, i: nat)
    requires i < n <= |r|
    ensures r[..n][i] == r[i]
  {}
}

=== FILE: compositor.dfy ===
/**
 * The compositing half of `EditorCanvas.drawImage` (src/main.ts): the colour
 * of one raster cell, and where the writes of a cell's
 * pixelScale x pixelScale block land in the canvas's RGBA buffer. The buffer
 * is addressed as (x * pixelScale + k) + (y * pixelScale + l) * width pixels
 * of four bytes each, so a block that sticks out past the right edge of an
 * odd-width canvas wraps round to the start of the next canvas row, and
 * writes past the end of the buffer are dropped.
 */
module Compositor {
  import opened Grid
  import opened NodeModel

  /** The editor's `pixelScale` field: one raster cell covers PixelScale x PixelScale canvas pixels. It never changes. */
  const PixelScale: nat := 2

  /** How far up and left an ocean cell looks for land to darken itself. */
  const OceanShadow: int := 2

  /** The owner of cell c names an existing node. */
  predicate OwnerValid(nodes: seq<Node>, grid: seq<seq<int>>, c: Cell)
  {
    0 <= At(grid, c) < |nodes|
  }

  /** The grey level of a land node: floor(120 * erodibility) + 125. */
  function LandGrey(erodibility: real): int
  {
    Floor(120.0 * erodibility) + 125
  }

  /**
   * The RGB colour of a raster cell: ocean blue [30, 150, 255], or the
   * darker [15, 120, 240] when the cell lies in the first two rows or columns
   * or the cell two up and two left belongs to a land node; land grey on all
   * three channels. A cell whose owner (or shadow owner) is missing makes
   * drawImage fault before anything is shown, so the [0, 0, 0] given for it
   * here never reaches the canvas.
   */
  function CellColour(nodes: seq<Node>, grid: seq<seq<int>>, c: Cell): (rgb: seq<int>)
    ensures |rgb| == 3
  {
    if !OwnerValid(nodes, grid, c) then [0, 0, 0]
    else if nodes[At(grid, c)].isOcean then
      var shadow := Cell(c.x - OceanShadow, c.y - OceanShadow);
      if c.x < OceanShadow || c.y < OceanShadow then [15, 120, 240]
      else if !OwnerValid(nodes, grid, shadow) then [0, 0, 0]
      else if !nodes[At(grid, shadow)].isOcean then [15, 120, 240]
      else [30, 150, 255]
    else
      var grey := LandGrey(nodes[At(grid, c)].erodibility);
      [grey, grey, grey]
  }

  /** A store into a Uint8ClampedArray: integers below 0 become 0, above 255 become 255. */
  function ClampByte(v: int): (b: int)
    ensures 0 <= b <= 255
    ensures 0 <= v <= 255 ==> b == v
  {
    if v < 0 then 0 else if v > 255 then 255 else v
  }

  /** The four bytes stored for one canvas pixel: the clamped colour and an opaque alpha. */
  function Rgba(rgb: seq<int>): seq<int>
    requires |rgb| == 3
  {
    [ClampByte(rgb[0]), ClampByte(rgb[1]), ClampByte(rgb[2]), 255]
  }

  /**
   * The ocean rule: a valid ocean cell is light blue exactly when it lies at
   * least two rows and columns in and the cell two up and two left belongs to
   * an ocean node, and dark blue otherwise.
   */
  lemma OceanColour(nodes: seq<Node>, grid: seq<seq<int>>, c: Cell)
    requires OwnerValid(nodes, grid, c) && nodes[At(grid, c)].isOcean
    requires c.x >= OceanShadow && c.y >= OceanShadow ==> OwnerValid(nodes, grid, Cell(c.x - OceanShadow, c.y - OceanShadow))
    ensures var shadow := Cell(c.x - OceanShadow, c.y - OceanShadow);
      var light := c.x >= OceanShadow && c.y >= OceanShadow && nodes[At(grid, shadow)].isOcean;
      Rgba(CellColour(nodes, grid, c)) == if light then [30, 150, 255, 255] else [15, 120, 240, 255]
  {}

  /**
   * The land rule: a valid land cell is grey, and for an erodibility in
   * [0, 1] the grey lies in [125, 245], so clamping leaves it alone.
   */
  lemma LandColour(nodes: seq<Node>, grid: seq<seq<int>>, c: Cell)
    requires OwnerValid(nodes, grid, c) && !nodes[At(grid, c)].isOcean
    requires 0.0 <= nodes[At(grid, c)].erodibility <= 1.0
    ensures var g := LandGrey(nodes[At(grid, c)].erodibility);
      125 <= g <= 245 && Rgba(CellColour(nodes, grid, c)) == [g, g, g, 255]
  {
    var e := nodes[At(grid, c)].erodibility;
    assert 0.0 <= 120.0 * e <= 120.0;
    assert Floor(120.0 * e) <= 120 by {
      assert (Floor(120.0 * e) as real) <= 120.0 * e;
    }
  }

  // ---------------------------------------------------------------------
  // Where the block writes land

  /**
   * The canvas pixel that offset (k, l) of cell (x, y) writes to: flat
   * index (x * PixelScale + k) + (y * PixelScale + l) * width read back as a
   * pixel, which is the next row's first pixel when the column reaches the
   * width.
   */
  function Target(x: int, y: int, width: nat, k: int, l: int): Cell
  {
    if x * PixelScale + k < width then Cell(x * PixelScale + k, y * PixelScale + l)
    else Cell(x * PixelScale + k - width, y * PixelScale + l + 1)
  }

  /** The flat index the source computes is the target's slot, or lies past the end of the buffer. */
  lemma TargetIndex(x: nat, y: nat, width: nat, height: nat, k: nat, l: nat, index: int)
    requires x * PixelScale < width && k < PixelScale && l < PixelScale
    requires index == (x * PixelScale + k) + (y * PixelScale + l) * width
    ensures InGrid(Target(x, y, width, k, l), width, height) ==> index == FlatIndex(Target(x, y, width, k, l), width)
    ensures !InGrid(Target(x, y, width, k, l), width, height) ==> index >= width * height
  {
    var row := y * PixelScale + l;
    if x * PixelScale + k < width {
      if row >= height {
        MulMonotone(height, row, width);
      }
    } else {
      MulDistributes(row, 1, width);
      if row + 1 >= height {
        MulMonotone(height, row + 1, width);
      }
    }
  }

  /** Offset (k, l) comes before (k0, l0) in the block loops (k outer, l inner). */
  predicate OffsetBefore(k: int, l: int, k0: int, l0: int)
  {
    0 <= k < PixelScale && 0 <= l < PixelScale && (k < k0 || (k == k0 && l < l0))
  }

  /** Pixel p has been written by one of cell (x, y)'s block offsets before (k0, l0). */
  ghost predicate HitBefore(p: Cell, x: int, y: int, width: nat, k0: int, l0: int)
  {
    exists k, l :: OffsetBefore(k, l, k0, l0) && p == Target(x, y, width, k, l)
  }

  /** Whether pixel p gets the overflow write of a row's last cell: odd width, first column, not the first row. */
  predicate Aliased(p: Cell, width: nat)
  {
    width % 2 == 1 && p.x == 0 && p.y >= 1
  }

  /** The raster cell whose block holds p. */
  function OwnBlock(p: Cell): Cell
  {
    Cell(p.x / PixelScale, p.y / PixelScale)
  }

  /** The last cell of raster row (p.y - 1) / 2, whose block sticks out past the right edge onto p. */
  function Overflow(p: Cell, width: nat): Cell
  {
    Cell(CellCount(width, PixelScale) - 1, (p.y - 1) / PixelScale)
  }

  /** Cell (x, y) writes pixel p: p lies in its block, or p receives its overflow. */
  predicate WrittenBy(p: Cell, x: int, y: int, width: nat)
  {
    OwnBlock(p) == Cell(x, y) || (Aliased(p, width) && Overflow(p, width) == Cell(x, y))
  }

  /** The four block offsets of cell (x, y) write exactly the pixels `WrittenBy` names. */
  lemma HitsAreWrites(p: Cell, x: nat, y: nat, width: nat, height: nat)
    requires InGrid(p, width, height) && x * PixelScale < width
    ensures HitBefore(p, x, y, width, PixelScale, 0) <==> WrittenBy(p, x, y, width)
  {
    var bw := CellCount(width, PixelScale);
    if HitBefore(p, x, y, width, PixelScale, 0) {
      var k, l :| OffsetBefore(k, l, PixelScale, 0) && p == Target(x, y, width, k, l);
      if x * PixelScale + k >= width {
        assert x * PixelScale + 1 == width;
        assert bw == x + 1;
        assert Aliased(p, width) && Overflow(p, width) == Cell(x, y);
      }
    }
    if OwnBlock(p) == Cell(x, y) {
      var k := p.x - x * PixelScale;
      var l := p.y - y * PixelScale;
      assert OffsetBefore(k, l, PixelScale, 0) && p == Target(x, y, width, k, l);
    } else if Aliased(p, width) && Overflow(p, width) == Cell(x, y) {
      assert x * PixelScale + 1 == width;
      var l := p.y - 1 - y * PixelScale;
      assert OffsetBefore(1, l, PixelScale, 0) && p == Target(x, y, width, 1, l);
    }
  }

  /**
   * The two block loops of one cell: every canvas pixel the cell writes
   * holds `rgba` afterwards, every other pixel keeps its value. Writes past
   * the end of the buffer are dropped, as a typed array drops them.
   */
  method PaintBlock(pixels: array<seq<int>>, width: nat, height: nat, x: nat, y: nat, rgba: seq<int>)
    requires pixels.Length == width * height && x * PixelScale < width
    modifies pixels
    ensures forall p :: InGrid(p, width, height) ==>
      pixels[Slot(p, width, height)] == if WrittenBy(p, x, y, width) then rgba else old(pixels[Slot(p, width, height)])
  {
    for k := 0 to PixelScale
      invariant forall p :: InGrid(p, width, height) ==>
        pixels[Slot(p, width, height)] ==
          if HitBefore(p, x, y, width, k, 0) then rgba else old(pixels[Slot(p, width, height)])
    {
      for l := 0 to PixelScale
        invariant forall p :: InGrid(p, width, height) ==>
          pixels[Slot(p, width, height)] ==
            if HitBefore(p, x, y, width, k, l) then rgba else old(pixels[Slot(p, width, height)])
      {
        var index := (x * PixelScale + k) + (y * PixelScale + l) * width;
        TargetIndex(x, y, width, height, k, l, index);
        ghost var before := pixels[..];
        if index < pixels.Length {
          pixels[index] := rgba;
        }
        forall p | InGrid(p, width, height)
          ensures pixels[Slot(p, width, height)] ==
            if HitBefore(p, x, y, width, k, l + 1) then rgba else old(pixels[Slot(p, width, height)])
        {
          HitStep(p, x, y, width, k, l);
          if p != Target(x, y, width, k, l) && index < pixels.Length {
            if Slot(p, width, height) == index {
              FlatIndexInjective(p, Target(x, y, width, k, l), width, height);
            }
            assert pixels[Slot(p, width, height)] == before[Slot(p, width, height)];
          }
        }
      }
      forall p | InGrid(p, width, height)
        ensures HitBefore(p, x, y, width, k, PixelScale) == HitBefore(p, x, y, width, k + 1, 0)
      {
        HitRowEnd(p, x, y, width, k);
      }
    }
    forall p | InGrid(p, width, height)
      ensures HitBefore(p, x, y, width, PixelScale, 0) == WrittenBy(p, x, y, width)
    {
      HitsAreWrites(p, x, y, width, height);
    }
  }

  lemma HitStep(p: Cell, x: int, y: int, width: nat, k: int, l: int)
    requires 0 <= k < PixelScale && 0 <= l < PixelScale
    ensures HitBefore(p, x, y, width, k, l + 1) <==> HitBefore(p, x, y, width, k, l) || p == Target(x, y, width, k, l)
  {
    if p == Target(x, y, width, k, l) {
      assert OffsetBefore(k, l, k, l + 1);
    }
    if HitBefore(p, x, y, width, k, l) {
      var k', l' :| OffsetBefore(k', l', k, l) && p == Target(x, y, width, k', l');
      assert OffsetBefore(k', l', k, l + 1);
    }
  }

  lemma HitRowEnd(p: Cell, x: int, y: int, width: nat, k: int)
    requires 0 <= k < PixelScale
    ensures HitBefore(p, x, y, width, k, PixelScale) <==> HitBefore(p, x, y, width, k + 1, 0)
  {
    if HitBefore(p, x, y, width, k, PixelScale) {
      var k', l' :| OffsetBefore(k', l', k, PixelScale) && p == Target(x, y, width, k', l');
      assert OffsetBefore(k', l', k + 1, 0);
    }
    if HitBefore(p, x, y, width, k + 1, 0) {
      var k', l' :| OffsetBefore(k', l', k + 1, 0) && p == Target(x, y, width, k', l');
      assert OffsetBefore(k', l', k, PixelScale);
    }
  }

  // ---------------------------------------------------------------------
  // The picture after the cell loops

  /** Cell c has been drawn once the row loop is at y0 and the column loop at x0. */
  predicate Done(c: Cell, y0: int, x0: int)
  {
    c.y < y0 || (c.y == y0 && c.x < x0)
  }

  /**
   * The pixel p once the cells before (x0, y0) are drawn: the colour of the
   * later of its writers that has been drawn, transparent black while none
   * has. The overflow writer comes later than the own block's cell on odd
   * rows (same raster row, last column) and earlier on even rows.
   */
  function Drawn(nodes: seq<Node>, grid: seq<seq<int>>, width: nat, p: Cell, y0: int, x0: int): seq<int>
  {
    var own := OwnBlock(p);
    var over := Overflow(p, width);
    if Aliased(p, width) && Done(over, y0, x0) && (p.y % PixelScale == 1 || !Done(own, y0, x0)) then
      Rgba(CellColour(nodes, grid, over))
    else if Done(own, y0, x0) then Rgba(CellColour(nodes, grid, own))
    else [0, 0, 0, 0]
  }

  /** Drawing cell (x, y) sets exactly the pixels it writes to its colour. */
  lemma DrawnStep(nodes: seq<Node>, grid: seq<seq<int>>, width: nat, height: nat, p: Cell, x: int, y: int)
    requires InGrid(p, width, height)
    requires 0 <= x < CellCount(width, PixelScale) && 0 <= y
    ensures Drawn(nodes, grid, width, p, y, x + 1) ==
      if WrittenBy(p, x, y, width) then Rgba(CellColour(nodes, grid, Cell(x, y))) else Drawn(nodes, grid, width, p, y, x)
  {
    var bw := CellCount(width, PixelScale);
    var own := OwnBlock(p);
    var over := Overflow(p, width);
    if Aliased(p, width) {
      assert over.x == bw - 1;
      if p.y % PixelScale == 1 {
        assert over.y == own.y;
      } else {
        assert over.y == own.y - 1;
      }
    }
  }

  /** Finishing a raster row is starting the next one. */
  lemma DrawnRowEnd(nodes: seq<Node>, grid: seq<seq<int>>, width: nat, height: nat, p: Cell, y: int)
    requires InGrid(p, width, height)
    ensures Drawn(nodes, grid, width, p, y, CellCount(width, PixelScale)) == Drawn(nodes, grid, width, p, y + 1, 0)
  {
    var bw := CellCount(width, PixelScale);
    assert OwnBlock(p).x < bw;
  }

  /**
   * The cell whose colour a canvas pixel finally shows: its own block's
   * cell, except that on an odd-width canvas the first pixel of each odd
   * canvas row shows the last cell of the raster row above-and-including it.
   */
  function LastWriter(p: Cell, width: nat, height: nat): (c: Cell)
    requires InGrid(p, width, height)
    ensures InGrid(c, CellCount(width, PixelScale), CellCount(height, PixelScale))
  {
    var bh := CellCount(height, PixelScale);
    assert p.y / PixelScale < bh;
    if Aliased(p, width) && p.y % PixelScale == 1 then Overflow(p, width) else OwnBlock(p)
  }

  /** Once every row is drawn, each pixel shows the colour of its last writer. */
  lemma DrawnAtEnd(nodes: seq<Node>, grid: seq<seq<int>>, width: nat, height: nat, p: Cell)
    requires InGrid(p, width, height)
    ensures Drawn(nodes, grid, width, p, CellCount(height, PixelScale), 0) ==
      Rgba(CellColour(nodes, grid, LastWriter(p, width, height)))
  {
    var bh := CellCount(height, PixelScale);
    assert OwnBlock(p).y < bh;
  }

  /** Nothing is drawn before the loops start. */
  lemma DrawnAtStart(nodes: seq<Node>, grid: seq<seq<int>>, width: nat, p: Cell)
    requires 0 <= p.x && 0 <= p.y
    ensures Drawn(nodes, grid, width, p, 0, 0) == [0, 0, 0, 0]
  {
    assert !Done(OwnBlock(p), 0, 0);
    assert Aliased(p, width) ==> !Done(Overflow(p, width), 0, 0);
  }

  /** On an even-width canvas every pixel shows the cell whose block holds it. */
  lemma EvenWidthShowsOwnBlock(p: Cell, width: nat, height: nat)
    requires InGrid(p, width, height) && width % 2 == 0
    ensures LastWriter(p, width, height) == Cell(p.x / 2, p.y / 2)
  {}

  /**
   * Each raster cell fills its PixelScale x PixelScale block: every canvas
   * pixel of the block shows the cell, apart from the first pixel of an odd
   * canvas row of an odd-width canvas.
   */
  lemma CellFillsBlock(c: Cell, width: nat, height: nat, k: int, l: int)
    requires InGrid(c, CellCount(width, PixelScale), CellCount(height, PixelScale))
    requires 0 <= k < PixelScale && 0 <= l < PixelScale
    requires InGrid(Cell(c.x * PixelScale + k, c.y * PixelScale + l), width, height)
    requires !(Aliased(Cell(c.x * PixelScale + k, c.y * PixelScale + l), width) && l == 1)
    ensures LastWriter(Cell(c.x * PixelScale + k, c.y * PixelScale + l), width, height) == c
  {
    var p := Cell(c.x * PixelScale + k, c.y * PixelScale + l);
    assert p.x / PixelScale == c.x && p.y / PixelScale == c.y;
    assert p.y % PixelScale == l;
  }
}

=== FILE: editor.dfy ===
/**
 * The browser editor of src/main.ts: the `Nodes` store, and the
 * `EditorCanvas` that keeps the nearest-node raster of the Voronoi preview,
 * looks clicks up in it, creates and deletes nodes, and composites the
 * raster onto the canvas. Canvas, DOM and event plumbing are not modelled:
 * clicks arrive as canvas coordinates, and a drawn frame is returned as a
 * value instead of being put on the canvas.
 */
module Editor {
  import opened Wrappers
  import opened Grid
  import opened NodeModel
  import opened PixelQueue
  import opened VoronoiFlood
  import opened Compositor

  const MaxErodibility: real := 0.8
  const MinErodibility: real := 0.2

  // ---------------------------------------------------------------------
  // Array.prototype.splice(start, 1)

  /** Where `splice(start, 1)` starts: a negative start counts back from the end; both ends are clamped. */
  function SpliceStart(length: nat, start: int): (k: nat)
    ensures k <= length
    ensures 0 <= start <= length ==> k == start
    ensures -(length as int) <= start < 0 ==> k == length + start
  {
    if start < 0 then (if length + start < 0 then 0 else length + start)
    else if start > length then length else start
  }

  /** The array after `splice(start, 1)`: the element at the start position removed, if there is one. */
  function SpliceOne<T>(s: seq<T>, start: int): seq<T>
  {
    var k := SpliceStart(|s|, start);
    if k < |s| then s[..k] + s[k + 1..] else s
  }

  /**
   * Deleting index k of a list: one element shorter, the elements before k
   * in place, the elements after k one index down, and nothing else lost.
   */
  lemma SpliceOneRemoves<T>(s: seq<T>, k: int)
    requires 0 <= k < |s|
    ensures |SpliceOne(s, k)| == |s| - 1
    ensures forall i :: 0 <= i < k ==> SpliceOne(s, k)[i] == s[i]
    ensures forall i :: k <= i < |s| - 1 ==> SpliceOne(s, k)[i] == s[i + 1]
    ensures multiset(SpliceOne(s, k)) + multiset{s[k]} == multiset(s)
  {
    assert s == s[..k] + [s[k]] + s[k + 1..];
  }

  /** Every element left after a splice was in the list before. */
  lemma SpliceOneSubset<T>(s: seq<T>, start: int)
    ensures forall i :: 0 <= i < |SpliceOne(s, start)| ==> SpliceOne(s, start)[i] in s
  {
    var k := SpliceStart(|s|, start);
    if k < |s| {
      var r := SpliceOne(s, start);
      forall i | 0 <= i < |r| ensures r[i] in s {
        if i < k { assert r[i] == s[i]; } else { assert r[i] == s[i + 1]; }
      }
    }
  }

  // ---------------------------------------------------------------------
  // The node store

  /** The editor's list of nodes. */
  class Nodes {
    var nodes: seq<Node>

    constructor()
      ensures nodes == []
    {
      nodes := [];
    }

    /** `addNode`: push one node onto the end. */
    method AddNode(node: Node)
      modifies this
      ensures nodes == old(nodes) + [node]
    {
      nodes := nodes + [node];
    }

    /** `getNode`: the node at `index`, or nothing (JavaScript's undefined) when there is none. */
    function GetNode(index: int): Option<Node>
      reads this
    {
      if 0 <= index < |nodes| then Some(nodes[index]) else None
    }

    function Length(): nat
      reads this
    {
      |nodes|
    }

    /**
     * `getNode(index).erodibility = e`: the node at `index` gets the new
     * erodibility; with no node there the assignment is a TypeError and
     * nothing changes.
     */
    method SetErodibility(index: int, e: real) returns (ok: bool)
      modifies this
      ensures ok <==> 0 <= index < |old(nodes)|
      ensures ok ==> nodes == old(nodes)[index := old(nodes)[index].(erodibility := e)]
      ensures !ok ==> nodes == old(nodes)
    {
      ok := 0 <= index < |nodes|;
      if ok {
        nodes := nodes[index := nodes[index].(erodibility := e)];
      }
    }

    /** `getNode(index).is_ocean = b`, a TypeError when there is no node at `index`. */
    method SetOcean(index: int, b: bool) returns (ok: bool)
      modifies this
      ensures ok <==> 0 <= index < |old(nodes)|
      ensures ok ==> nodes == old(nodes)[index := old(nodes)[index].(isOcean := b)]
      ensures !ok ==> nodes == old(nodes)
    {
      ok := 0 <= index < |nodes|;
      if ok {
        nodes := nodes[index := nodes[index].(isOcean := b)];
      }
    }

    /** `deleteNode`: `splice(index, 1)` on the list. */
    method DeleteNode(index: int)
      modifies this
      ensures nodes == SpliceOne(old(nodes), index)
      ensures 0 <= index < |old(nodes)| ==>
        (|nodes| == |old(nodes)| - 1 && nodes[..index] == old(nodes)[..index] && nodes[index..] == old(nodes)[index + 1..])
    {
      nodes := SpliceOne(nodes, index);
    }
  }

  // ---------------------------------------------------------------------
  // Seeds and clicks

  /** The seed cell `setImage` gives a node: ceil(x / pixelScale), ceil(y / pixelScale). */
  function CeilSeed(n: Node): Cell
  {
    Cell(Ceil(n.x / PixelScale as real), Ceil(n.y / PixelScale as real))
  }

  function CeilSeeds(nodes: seq<Node>): (r: seq<Cell>)
    ensures |r| == |nodes| && forall i :: 0 <= i < |nodes| ==> r[i] == CeilSeed(nodes[i])
  {
    seq(|nodes|, i requires 0 <= i < |nodes| => CeilSeed(nodes[i]))
  }

  /** The raster cell under a canvas point, as `nearestNodeIndex` computes it: floor(x / pixelScale), floor(y / pixelScale). */
  function ClickCell(x: real, y: real): Cell
  {
    Cell(Floor(x / PixelScale as real), Floor(y / PixelScale as real))
  }

  /** The seed cell of the corrected rebuild: the raster cell under the node, the cell a click on the node looks up. */
  function FloorSeed(n: Node): Cell
  {
    ClickCell(n.x, n.y)
  }

  function FloorSeeds(nodes: seq<Node>): (r: seq<Cell>)
    ensures |r| == |nodes| && forall i :: 0 <= i < |nodes| ==> r[i] == FloorSeed(nodes[i])
  {
    seq(|nodes|, i requires 0 <= i < |nodes| => FloorSeed(nodes[i]))
  }

  /** A point lies on a canvas of the given size. */
  predicate InsideCanvas(x: real, y: real, width: nat, height: nat)
  {
    0.0 <= x < width as real && 0.0 <= y < height as real
  }

  /** floor(v / pixelScale) of a point inside [0, length) is a cell inside [0, ceil(length / pixelScale)). */
  lemma FloorCellInRange(v: real, length: nat)
    requires 0.0 <= v < length as real
    ensures 0 <= Floor(v / PixelScale as real) < CellCount(length, PixelScale)
  {
    var f := Floor(v / PixelScale as real);
    var n := CellCount(length, PixelScale);
    assert (f * PixelScale) as real <= v by {
      assert f as real <= v / PixelScale as real;
    }
    assert f * PixelScale < n * PixelScale;
  }

  /** Every point on the canvas lies over a cell of the raster. */
  lemma ClickCellInRaster(x: real, y: real, width: nat, height: nat)
    requires InsideCanvas(x, y, width, height)
    ensures InGrid(ClickCell(x, y), CellCount(width, PixelScale), CellCount(height, PixelScale))
  {
    FloorCellInRange(x, width);
    FloorCellInRange(y, height);
  }

  /** The floor seed of every node on the canvas lies inside the raster. */
  lemma FloorSeedInGrid(n: Node, width: nat, height: nat)
    requires InsideCanvas(n.x, n.y, width, height)
    ensures InGrid(FloorSeed(n), CellCount(width, PixelScale), CellCount(height, PixelScale))
  {
    ClickCellInRaster(n.x, n.y, width, height);
  }

  /**
   * The ceil seed of a node on the canvas can miss the raster: on an
   * 800-pixel-wide canvas the raster has 400 columns, and a node at x = 799
   * is seeded in column 400.
   */
  lemma CeilSeedLeavesGrid()
    ensures InsideCanvas(799.0, 0.0, 800, 600)
    ensures CeilSeed(Node(799.0, 0.0, 0.5, false)).x == CellCount(800, PixelScale) == 400
    ensures !InGrid(CeilSeed(Node(799.0, 0.0, 0.5, false)), CellCount(800, PixelScale), CellCount(600, PixelScale))
  {
    assert CellCount(800, PixelScale) == 400;
    assert Ceil(799.0 / 2.0) == 400;
  }

  // ---------------------------------------------------------------------
  // The erodibility slider

  /** The slider position (0 to 100) as an erodibility: MIN + value / 100 * (MAX - MIN). */
  function SliderToErodibility(value: real): (e: real)
    ensures 0.0 <= value <= 100.0 ==> MinErodibility <= e <= MaxErodibility
  {
    MinErodibility + value / 100.0 * (MaxErodibility - MinErodibility)
  }

  /** An erodibility as a slider position: (e - MIN) / (MAX - MIN) * 100. */
  function ErodibilityToSlider(e: real): (value: real)
    ensures MinErodibility <= e <= MaxErodibility ==> 0.0 <= value <= 100.0
  {
    (e - MinErodibility) / (MaxErodibility - MinErodibility) * 100.0
  }

  /** Setting the slider and reading it back are inverse to each other, both ways round. */
  lemma SliderRoundTrip(value: real, e: real)
    ensures ErodibilityToSlider(SliderToErodibility(value)) == value
    ensures SliderToErodibility(ErodibilityToSlider(e)) == e
  {}

  /** What the slider and the ocean checkbox show after a click. */
  datatype Controls =
    | NoChoice                          // no node chosen: the controls keep their state
    | Show(slider: real, ocean: bool)   // the chosen node's erodibility as a slider position, and its ocean flag
    | Broken                            // the chosen index names no node: reading it is a TypeError

  /** What drawing the editor canvas produces. */
  datatype Frame =
    | Grey                       // no raster yet: the canvas is filled with #aaa
    | Image(pixels: seq<seq<int>>) // width * height RGBA pixels, row by row
    | Fault                      // a raster cell names a node that does not exist: drawImage throws a TypeError

  /**
   * The colour `drawImage` picks for the cell (x, y) whose owner exists:
   * land grey from the owner's erodibility, ocean blue darkened in the first
   * two rows and columns and where the cell two up and two left is land.
   */
  method ShadeCell(ns: seq<Node>, grid: seq<seq<int>>, x: int, y: int) returns (color: seq<int>)
    requires OwnerValid(ns, grid, Cell(x, y))
    requires x >= OceanShadow && y >= OceanShadow ==> OwnerValid(ns, grid, Cell(x - OceanShadow, y - OceanShadow))
    ensures color == CellColour(ns, grid, Cell(x, y))
  {
    var owner := At(grid, Cell(x, y));
    if ns[owner].isOcean {
      color := [30, 150, 255];
      if x < OceanShadow || y < OceanShadow {
        color := [15, 120, 240];
      } else if !ns[At(grid, Cell(x - OceanShadow, y - OceanShadow))].isOcean {
        color := [15, 120, 240];
      }
    } else {
      var erodibility := ns[owner].erodibility;
      var pixel := Floor(120.0 * erodibility) + 125;
      color := [pixel, pixel, pixel];
    }
  }

  /**
   * One row of `drawImage`'s cell loops: the cells of raster row y from left
   * to right, each painted as its block, faulting at the first cell whose
   * node does not exist.
   */
  method DrawRow(pixels: array<seq<int>>, ns: seq<Node>, grid: seq<seq<int>>, width: nat, height: nat, y: int) returns (ok: bool)
    requires pixels.Length == width * height
    requires 0 <= y < CellCount(height, PixelScale)
    requires forall c :: InGrid(c, CellCount(width, PixelScale), CellCount(height, PixelScale)) && c.y < y ==> OwnerValid(ns, grid, c)
    requires forall p :: InGrid(p, width, height) ==> pixels[Slot(p, width, height)] == Drawn(ns, grid, width, p, y, 0)
    modifies pixels
    ensures ok <==> forall x :: 0 <= x < CellCount(width, PixelScale) ==> OwnerValid(ns, grid, Cell(x, y))
    ensures ok ==> forall p :: InGrid(p, width, height) ==> pixels[Slot(p, width, height)] == Drawn(ns, grid, width, p, y + 1, 0)
  {
    var bufferWidth := CellCount(width, PixelScale);
    var bufferHeight := CellCount(height, PixelScale);
    for x := 0 to bufferWidth
      invariant forall c :: InGrid(c, bufferWidth, bufferHeight) && Done(c, y, x) ==> OwnerValid(ns, grid, c)
      invariant forall p :: InGrid(p, width, height) ==> pixels[Slot(p, width, height)] == Drawn(ns, grid, width, p, y, x)
    {
      if !OwnerValid(ns, grid, Cell(x, y)) {
        return false;
      }
      var color := ShadeCell(ns, grid, x, y);
      assert x * PixelScale < width;
      PaintBlock(pixels, width, height, x, y, Rgba(color));
      forall p | InGrid(p, width, height)
        ensures pixels[Slot(p, width, height)] == Drawn(ns, grid, width, p, y, x + 1)
      {
        DrawnStep(ns, grid, width, height, p, x, y);
      }
    }
    forall p | InGrid(p, width, height)
      ensures pixels[Slot(p, width, height)] == Drawn(ns, grid, width, p, y + 1, 0)
    {
      DrawnRowEnd(ns, grid, width, height, p, y);
    }
    assert forall x :: 0 <= x < bufferWidth ==> Done(Cell(x, y), y, bufferWidth);
    ok := true;
  }

  // ---------------------------------------------------------------------
  // The editor canvas

  class EditorCanvas {
    /** The canvas size in pixels. */
    const width: nat
    const height: nat
    var nodes: Nodes
    var nodeCreation: bool
    var nearestBuffer: Option<seq<seq<int>>>
    var nodeChoosen: Option<int>

    constructor(width: nat, height: nat)
      ensures this.width == width && this.height == height
      ensures fresh(nodes) && nodes.nodes == []
      ensures !nodeCreation && nearestBuffer.None? && nodeChoosen.None?
    {
      this.width := width;
      this.height := height;
      nodes := new Nodes();
      nodeCreation := false;
      nearestBuffer := None;
      nodeChoosen := None;
    }

    /** The raster size: ceil(width / pixelScale) x ceil(height / pixelScale). */
    function BufferWidth(): nat
    {
      CellCount(width, PixelScale)
    }

    function BufferHeight(): nat
    {
      CellCount(height, PixelScale)
    }

    /** The raster has the raster size and names an existing node in every cell. */
    ghost predicate BufferMatchesNodes()
      reads this, nodes
    {
      nearestBuffer.Some? ==>
        IsGrid(nearestBuffer.value, BufferWidth(), BufferHeight()) &&
        forall c :: InGrid(c, BufferWidth(), BufferHeight()) ==> OwnerValid(nodes.nodes, nearestBuffer.value, c)
    }

    /** `nearestNodeIndex`: the raster entry under a canvas point; nothing without a raster or off the raster. */
    function NearestNodeIndex(x: real, y: real): Option<int>
      reads this
    {
      if nearestBuffer.None? then None
      else
        var c := ClickCell(x, y);
        if c.x < 0 || c.x >= BufferWidth() || c.y < 0 || c.y >= BufferHeight() then None
        else Some(At(nearestBuffer.value, c))
    }

    /** A click on the canvas finds an existing node when the raster matches the nodes. */
    lemma ClickFindsNode(x: real, y: real)
      requires BufferMatchesNodes() && nearestBuffer.Some?
      requires InsideCanvas(x, y, width, height)
      ensures NearestNodeIndex(x, y).Some? && 0 <= NearestNodeIndex(x, y).value < |nodes.nodes|
      ensures NearestNodeIndex(x, y).value == At(nearestBuffer.value, ClickCell(x, y))
    {
      ClickCellInRaster(x, y, width, height);
    }

    /** Without a raster, or left of or above the canvas, a click finds nothing. */
    lemma ClickOffRasterFindsNothing(x: real, y: real)
      requires nearestBuffer.None? || x < 0.0 || y < 0.0
      ensures NearestNodeIndex(x, y).None?
    {
      if nearestBuffer.Some? {
        var c := ClickCell(x, y);
        assert c.x < 0 || c.y < 0 by {
          if x < 0.0 {
            assert (c.x as real) <= x / PixelScale as real < 0.0;
          } else {
            assert (c.y as real) <= y / PixelScale as real < 0.0;
          }
        }
      }
    }

    /**
     * `setImage` as written: with no nodes it returns and keeps whatever
     * raster there was; otherwise it floods from the ceil seeds, ties broken
     * by the lower node index, and publishes the new raster. The ceil seeds
     * must lie on the raster, which a node near the right or bottom edge
     * breaks (`CeilSeedLeavesGrid`).
     */
    method SetImage()
      requires forall i :: 0 <= i < |nodes.nodes| ==> InGrid(CeilSeed(nodes.nodes[i]), BufferWidth(), BufferHeight())
      modifies this
      ensures nodes == old(nodes) && nodeCreation == old(nodeCreation) && nodeChoosen == old(nodeChoosen)
      ensures |nodes.nodes| == 0 ==> nearestBuffer == old(nearestBuffer)
      ensures |nodes.nodes| > 0 ==>
        var s := Setup(nodes.nodes, CeilSeeds(nodes.nodes), BufferWidth(), BufferHeight(), PixelScale, DistanceThenIndex);
        nearestBuffer.Some? && Admissible(s) && IsNearestBuffer(s, nearestBuffer.value) && BufferMatchesNodes()
    {
      if |nodes.nodes| == 0 {
        return;
      }
      var seeds := CeilSeeds(nodes.nodes);
      var grid := Flood(nodes.nodes, seeds, BufferWidth(), BufferHeight(), PixelScale, DistanceThenIndex);
      nearestBuffer := Some(grid);
    }

    /**
     * The corrected `setImage`: with no nodes the raster is dropped, so that
     * it never names a deleted node, and each node is seeded in the raster
     * cell under it, which lies on the raster for every node on the canvas.
     */
    method RebuildNearestBuffer()
      requires forall i :: 0 <= i < |nodes.nodes| ==> InsideCanvas(nodes.nodes[i].x, nodes.nodes[i].y, width, height)
      modifies this
      ensures nodes == old(nodes) && nodeCreation == old(nodeCreation) && nodeChoosen == old(nodeChoosen)
      ensures |nodes.nodes| == 0 ==> nearestBuffer.None?
      ensures |nodes.nodes| > 0 ==>
        var s := Setup(nodes.nodes, FloorSeeds(nodes.nodes), BufferWidth(), BufferHeight(), PixelScale, DistanceThenIndex);
        nearestBuffer.Some? && Admissible(s) && IsNearestBuffer(s, nearestBuffer.value)
      ensures BufferMatchesNodes()
    {
      if |nodes.nodes| == 0 {
        nearestBuffer := None;
        return;
      }
      var seeds := FloorSeeds(nodes.nodes);
      forall i | 0 <= i < |seeds| ensures InGrid(seeds[i], BufferWidth(), BufferHeight()) {
        FloorSeedInGrid(nodes.nodes[i], width, height);
      }
      var grid := Flood(nodes.nodes, seeds, BufferWidth(), BufferHeight(), PixelScale, DistanceThenIndex);
      nearestBuffer := Some(grid);
    }

    /**
     * `addNode`: a node at the click, inheriting erodibility and ocean flag
     * from the node whose cell was clicked when that node exists, and
     * otherwise erodibility (MAX + MIN) / 2 on land; the new node is chosen.
     */
    method AddNode(x: real, y: real)
      modifies this, nodes
      ensures nodes == old(nodes) && nodeCreation == old(nodeCreation) && nearestBuffer == old(nearestBuffer)
      ensures |nodes.nodes| == |old(nodes.nodes)| + 1 && nodes.nodes[..|old(nodes.nodes)|] == old(nodes.nodes)
      ensures var n := nodes.nodes[|nodes.nodes| - 1];
        var k := old(NearestNodeIndex(x, y));
        n.x == x && n.y == y &&
        if k.Some? && 0 <= k.value < |old(nodes.nodes)| then
          n.erodibility == old(nodes.nodes)[k.value].erodibility && n.isOcean == old(nodes.nodes)[k.value].isOcean
        else
          n.erodibility == (MaxErodibility + MinErodibility) / 2.0 && !n.isOcean
      ensures nodeChoosen == Some(|nodes.nodes| - 1)
    {
      var inearest := NearestNodeIndex(x, y);
      var nearest := if inearest.None? then None else nodes.GetNode(inearest.value);
      var erodibility := if nearest.Some? then nearest.value.erodibility else (MaxErodibility + MinErodibility) / 2.0;
      var isOcean := if nearest.Some? then nearest.value.isOcean else false;
      nodes.AddNode(Node(x, y, erodibility, isOcean));
      nodeChoosen := Some(nodes.Length() - 1);
    }

    /** A click outside node-creation mode: the raster entry under the click, if any, becomes the chosen node. */
    method ChooseAt(x: real, y: real)
      modifies this
      ensures nodes == old(nodes) && nodeCreation == old(nodeCreation) && nearestBuffer == old(nearestBuffer)
      ensures nodeChoosen == if old(NearestNodeIndex(x, y)).Some? then old(NearestNodeIndex(x, y)) else old(nodeChoosen)
    {
      var inearest := NearestNodeIndex(x, y);
      if inearest.Some? {
        nodeChoosen := inearest;
      }
    }

    /** What the controls show for the chosen node after a click. */
    function ChosenControls(): (r: Controls)
      reads this, nodes
      ensures r == NoChoice <==> nodeChoosen.None?
      ensures r == Broken <==> nodeChoosen.Some? && !(0 <= nodeChoosen.value < |nodes.nodes|)
      ensures r.Show? ==> SliderToErodibility(r.slider) == nodes.nodes[nodeChoosen.value].erodibility
      ensures r.Show? ==> r.ocean == nodes.nodes[nodeChoosen.value].isOcean
    {
      if nodeChoosen.None? then NoChoice
      else match nodes.GetNode(nodeChoosen.value)
        case None => Broken
        case Some(n) =>
          SliderRoundTrip(0.0, n.erodibility);
          Show(ErodibilityToSlider(n.erodibility), n.isOcean)
    }

    /**
     * A mouse press at (x, y): in node-creation mode a node is added there
     * (and the mode ends on the primary button); otherwise the raster entry
     * under the click is chosen. The controls then show the chosen node. The
     * raster rebuild that creation schedules with a timer is a separate call
     * of `SetImage`.
     */
    method MouseDown(x: real, y: real, primaryButton: bool) returns (controls: Controls)
      modifies this, nodes
      ensures nodes == old(nodes) && nearestBuffer == old(nearestBuffer)
      ensures old(nodeCreation) ==>
        |nodes.nodes| == |old(nodes.nodes)| + 1 && nodes.nodes[..|old(nodes.nodes)|] == old(nodes.nodes) &&
        nodes.nodes[|nodes.nodes| - 1].x == x && nodes.nodes[|nodes.nodes| - 1].y == y &&
        nodeChoosen == Some(|nodes.nodes| - 1) && nodeCreation == !primaryButton
      ensures !old(nodeCreation) ==>
        nodes.nodes == old(nodes.nodes) && !nodeCreation &&
        nodeChoosen == if old(NearestNodeIndex(x, y)).Some? then old(NearestNodeIndex(x, y)) else old(nodeChoosen)
      ensures old(nodeCreation) ==> controls.Show? && controls.ocean == nodes.nodes[|nodes.nodes| - 1].isOcean
      ensures controls == ChosenControls()
    {
      if nodeCreation {
        AddNode(x, y);
        if primaryButton {
          nodeCreation := false;
        }
      } else {
        ChooseAt(x, y);
      }
      controls := ChosenControls();
    }

    /** The slider's input event: the chosen node takes the erodibility of the slider position. */
    method SlideErodibility(value: real) returns (ok: bool)
      modifies nodes
      ensures nodeChoosen.None? ==> ok && nodes.nodes == old(nodes.nodes)
      ensures nodeChoosen.Some? ==> (ok <==> 0 <= nodeChoosen.value < |old(nodes.nodes)|)
      ensures nodeChoosen.Some? && ok ==>
        nodes.nodes == old(nodes.nodes)[nodeChoosen.value := old(nodes.nodes)[nodeChoosen.value].(erodibility := SliderToErodibility(value))]
      ensures !ok ==> nodes.nodes == old(nodes.nodes)
      ensures ok && nodeChoosen.Some? && 0.0 <= value <= 100.0 ==>
        MinErodibility <= nodes.nodes[nodeChoosen.value].erodibility <= MaxErodibility
    {
      ok := true;
      if nodeChoosen.Some? {
        var erodibilityRatio := value / 100.0;
        ok := nodes.SetErodibility(nodeChoosen.value, MinErodibility + erodibilityRatio * (MaxErodibility - MinErodibility));
      }
    }

    /** The ocean checkbox's change event: the chosen node takes the checkbox state. */
    method CheckOcean(checked: bool) returns (ok: bool)
      modifies nodes
      ensures nodeChoosen.None? ==> ok && nodes.nodes == old(nodes.nodes)
      ensures nodeChoosen.Some? ==> (ok <==> 0 <= nodeChoosen.value < |old(nodes.nodes)|)
      ensures nodeChoosen.Some? && ok ==>
        nodes.nodes == old(nodes.nodes)[nodeChoosen.value := old(nodes.nodes)[nodeChoosen.value].(isOcean := checked)]
      ensures !ok ==> nodes.nodes == old(nodes.nodes)
    {
      ok := true;
      if nodeChoosen.Some? {
        ok := nodes.SetOcean(nodeChoosen.value, checked);
      }
    }

    /** The "New" button: enter node-creation mode; nothing else changes. */
    method StartCreation()
      modifies this
      ensures nodeCreation
      ensures nodes == old(nodes) && nearestBuffer == old(nearestBuffer) && nodeChoosen == old(nodeChoosen)
    {
      nodeCreation := true;
    }

    /** The Escape key: leave node-creation mode if in it, otherwise drop the choice. */
    method Escape()
      modifies this
      ensures nodes == old(nodes) && nearestBuffer == old(nearestBuffer) && !nodeCreation
      ensures nodeChoosen == if old(nodeCreation) then old(nodeChoosen) else None
    {
      if nodeCreation {
        nodeCreation := false;
      } else if nodeChoosen.Some? {
        nodeChoosen := None;
      }
    }

    /**
     * The Delete key as written: the chosen node is spliced out, nothing is
     * chosen any more, and `setImage` runs, which keeps the old raster when
     * the last node was deleted and otherwise floods the remaining nodes from
     * their ceil seeds. Only the remaining nodes need their seeds on the
     * raster, so deleting the node whose seed is off it is allowed.
     */
    method DeleteChosen()
      requires nodeChoosen.Some? ==>
        var rest := SpliceOne(nodes.nodes, nodeChoosen.value);
        forall i :: 0 <= i < |rest| ==> InGrid(CeilSeed(rest[i]), BufferWidth(), BufferHeight())
      modifies this, nodes
      ensures nodes == old(nodes) && nodeCreation == old(nodeCreation)
      ensures old(nodeChoosen).None? ==> nodes.nodes == old(nodes.nodes) && nearestBuffer == old(nearestBuffer) && nodeChoosen.None?
      ensures old(nodeChoosen).Some? ==>
        nodes.nodes == SpliceOne(old(nodes.nodes), old(nodeChoosen).value) && nodeChoosen.None? &&
        (|nodes.nodes| == 0 ==> nearestBuffer == old(nearestBuffer)) &&
        (|nodes.nodes| > 0 ==>
          var s := Setup(nodes.nodes, CeilSeeds(nodes.nodes), BufferWidth(), BufferHeight(), PixelScale, DistanceThenIndex);
          nearestBuffer.Some? && Admissible(s) && IsNearestBuffer(s, nearestBuffer.value) && BufferMatchesNodes())
    {
      if nodeChoosen.Some? {
        nodes.DeleteNode(nodeChoosen.value);
        nodeChoosen := None;
        SetImage();
      }
    }

    /** The Delete key with the corrected rebuild: the raster always matches the remaining nodes. */
    method DeleteChosenAndRebuild()
      requires forall i :: 0 <= i < |nodes.nodes| ==> InsideCanvas(nodes.nodes[i].x, nodes.nodes[i].y, width, height)
      requires BufferMatchesNodes()
      modifies this, nodes
      ensures nodes == old(nodes) && nodeCreation == old(nodeCreation) && nodeChoosen.None?
      ensures old(nodeChoosen).Some? ==> nodes.nodes == SpliceOne(old(nodes.nodes), old(nodeChoosen).value)
      ensures old(nodeChoosen).None? ==> nodes.nodes == old(nodes.nodes)
      ensures BufferMatchesNodes()
    {
      if nodeChoosen.Some? {
        nodes.DeleteNode(nodeChoosen.value);
        nodeChoosen := None;
        SpliceOneSubset(old(nodes.nodes), old(nodeChoosen).value);
        RebuildNearestBuffer();
      }
    }

    /** `removeNodeAll`: a fresh empty store and no raster; the chosen index is left as it was. */
    method RemoveNodeAll()
      modifies this
      ensures fresh(nodes) && nodes.nodes == []
      ensures nearestBuffer.None? && nodeCreation == old(nodeCreation) && nodeChoosen == old(nodeChoosen)
      ensures BufferMatchesNodes()
      ensures nodeChoosen.Some? ==> ChosenControls() == Broken
    {
      nodes := new Nodes();
      nearestBuffer := None;
    }

    /** `removeNodeAll` that also drops the choice, so that no index outlives the nodes. */
    method RemoveNodeAllAndDeselect()
      modifies this
      ensures fresh(nodes) && nodes.nodes == []
      ensures nearestBuffer.None? && nodeCreation == old(nodeCreation) && nodeChoosen.None?
      ensures BufferMatchesNodes() && ChosenControls() == NoChoice
    {
      nodes := new Nodes();
      nearestBuffer := None;
      nodeChoosen := None;
    }

    /**
     * `drawImage`: grey without a raster; otherwise the raster cells in row
     * order, each painted as a PixelScale x PixelScale block, which faults
     * at the first cell whose node does not exist. A finished image shows at
     * every canvas pixel the colour of the pixel's last writer.
     */
    method DrawImage() returns (frame: Frame)
      ensures nearestBuffer.None? <==> frame == Grey
      ensures nearestBuffer.Some? ==>
        (frame == Fault <==>
          exists c :: InGrid(c, BufferWidth(), BufferHeight()) && !OwnerValid(nodes.nodes, nearestBuffer.value, c))
      ensures frame.Image? ==>
        (|frame.pixels| == width * height &&
         forall p :: InGrid(p, width, height) ==>
           frame.pixels[Slot(p, width, height)] ==
             Rgba(CellColour(nodes.nodes, nearestBuffer.value, LastWriter(p, width, height))))
      ensures BufferMatchesNodes() ==> frame != Fault
    {
      if nearestBuffer.None? {
        return Grey;
      }
      var grid := nearestBuffer.value;
      var ns := nodes.nodes;
      var bufferWidth := BufferWidth();
      var bufferHeight := BufferHeight();
      var pixels := new seq<int>[width * height](_ => [0, 0, 0, 0]);
      forall p | InGrid(p, width, height) ensures Drawn(ns, grid, width, p, 0, 0) == [0, 0, 0, 0] {
        DrawnAtStart(ns, grid, width, p);
      }
      for y := 0 to bufferHeight
        invariant forall c :: InGrid(c, bufferWidth, bufferHeight) && c.y < y ==> OwnerValid(ns, grid, c)
        invariant forall p :: InGrid(p, width, height) ==> pixels[Slot(p, width, height)] == Drawn(ns, grid, width, p, y, 0)
      {
        var ok := DrawRow(pixels, ns, grid, width, height, y);
        if !ok {
          var x :| 0 <= x < bufferWidth && !OwnerValid(ns, grid, Cell(x, y));
          assert InGrid(Cell(x, y), bufferWidth, bufferHeight);
          return Fault;
        }
      }
      forall p | InGrid(p, width, height)
        ensures pixels[Slot(p, width, height)] == Rgba(CellColour(ns, grid, LastWriter(p, width, height)))
      {
        DrawnAtEnd(ns, grid, width, height, p);
      }
      frame := Image(pixels[..]);
    }
  }

  // ---------------------------------------------------------------------
  // The stale raster

  /**
   * Deleting the only node, as written, leaves the raster naming it, so
   * the next drawImage faults: a 4 x 4 canvas, one node created at (1, 1),
   * the raster built, the node chosen and deleted, the canvas redrawn.
   */
  method StaleRasterAfterDeletingLastNode() returns (frame: Frame)
    ensures frame == Fault
  {
    var editor := new EditorCanvas(4, 4);
    editor.AddNode(1.0, 1.0);
    assert editor.BufferWidth() == 2 && editor.BufferHeight() == 2;
    assert Ceil(1.0 / 2.0) == 1;
    editor.SetImage();
    editor.DeleteChosen();
    assert editor.nodes.nodes == [];
    frame := editor.DrawImage();
    assert InGrid(Cell(0, 0), editor.BufferWidth(), editor.BufferHeight());
  }

  /** The same steps with the corrected rebuild leave no raster, and the canvas is drawn grey. */
  method NoRasterAfterDeletingLastNode() returns (frame: Frame)
    ensures frame == Grey
  {
    var editor := new EditorCanvas(4, 4);
    editor.AddNode(1.0, 1.0);
    editor.RebuildNearestBuffer();
    editor.DeleteChosenAndRebuild();
    frame := editor.DrawImage();
  }

  // ---------------------------------------------------------------------
  // The choice that outlives the nodes

  /**
   * `removeNodeAll` keeps the chosen index while emptying the store, so the
   * next click outside creation mode reads a node that no longer exists: a
   * canvas with one node created and chosen, everything removed, a click.
   */
  method StaleChoiceAfterRemovingAll() returns (controls: Controls)
    ensures controls == Broken
  {
    var editor := new EditorCanvas(4, 4);
    editor.StartCreation();
    var _ := editor.MouseDown(1.0, 1.0, true);
    editor.RemoveNodeAll();
    controls := editor.MouseDown(1.0, 1.0, true);
  }

  /** The same steps with the choice dropped leave the controls alone. */
  method NoChoiceAfterRemovingAll() returns (controls: Controls)
    ensures controls == NoChoice
  {
    var editor := new EditorCanvas(4, 4);
    editor.StartCreation();
    var _ := editor.MouseDown(1.0, 1.0, true);
    editor.RemoveNodeAllAndDeselect();
    controls := editor.MouseDown(1.0, 1.0, true);
  }
}

=== FILE: flood.dfy ===
/**
 * The multi-source priority flood that builds the nearest-node buffer, as
 * both the editor (src/main.ts, `setImage`) and the preview crate
 * (src/rust/src/preview.rs, `set_nearest_node_buffer`) run it. Each node
 * seeds its own cell at distance 0. The first entry dequeued for a cell
 * claims it for that entry's node. The cell's in-grid neighbours are then
 * queued for the same node, at their squared distance to that node (the
 * neighbour's corner, `cell * scale`). The two callers differ only in how
 * they place seeds and in the queue's tie-break.
 */
module VoronoiFlood {
  import opened Grid
  import opened NodeModel
  import opened PixelQueue

  /** Squared distance from the corner of cell `c` (cell * scale) to node `n`. */
  function SqDist(c: Cell, n: Node, scale: nat): (d: real)
    ensures d >= 0.0
  {
    var dx := (c.x * scale) as real - n.x;
    var dy := (c.y * scale) as real - n.y;
    SquareNonNegative(dx);
    SquareNonNegative(dy);
    dx * dx + dy * dy
  }

  lemma SquareNonNegative(r: real)
    ensures r * r >= 0.0
  {
    if r < 0.0 {
      assert r * r == (-r) * (-r);
    }
  }

  /** The seed entry of node i: its seed cell at distance 0. */
  function SeedEntry(seeds: seq<Cell>, i: nat): VoronoiPixel
    requires i < |seeds|
  {
    VoronoiPixel(seeds[i].x, seeds[i].y, i, 0.0)
  }

  /** The fixed inputs of one flood. */
  datatype Setup = Setup(nodes: seq<Node>, seeds: seq<Cell>, width: nat, height: nat, scale: nat, discipline: Discipline)

  /** What every flood demands: at least one node, one seed per node, every seed inside the grid. */
  predicate Admissible(s: Setup)
  {
    |s.nodes| > 0 && |s.seeds| == |s.nodes| &&
    forall i :: 0 <= i < |s.seeds| ==> InGrid(s.seeds[i], s.width, s.height)
  }

  /**
   * A path of 4-adjacent in-grid cells from `from` to `to` along which every
   * cell has the same owner as `to`.
   */
  ghost predicate IsRegionPath(grid: seq<seq<int>>, p: seq<Cell>, from: Cell, to: Cell, width: nat, height: nat)
  {
    |p| > 0 && p[0] == from && p[|p| - 1] == to &&
    (forall i :: 0 <= i < |p| ==> InGrid(p[i], width, height) && At(grid, p[i]) == At(grid, to)) &&
    (forall i :: 0 <= i < |p| - 1 ==> IsNeighbour(p[i], p[i + 1]))
  }

  /**
   * Who holds node i's seed cell: a node whose seed is that same cell, or one
   * whose position lies exactly on the cell's corner. On the editor's queue
   * that node is never one with a larger index than i.
   */
  ghost predicate SeedHeld(s: Setup, grid: seq<seq<int>>, i: nat)
    requires Admissible(s) && i < |s.nodes|
  {
    var o := At(grid, s.seeds[i]);
    0 <= o < |s.nodes| &&
    (s.seeds[o] == s.seeds[i] || SqDist(s.seeds[i], s.nodes[o], s.scale) == 0.0) &&
    (s.discipline == DistanceThenIndex ==> o <= i)
  }

  /**
   * What a finished flood delivers: `height` rows of `width` entries, each a
   * valid node index, each cell joined to its owner's seed by a region path,
   * and each seed cell held as `SeedHeld` says.
   */
  ghost predicate IsNearestBuffer(s: Setup, grid: seq<seq<int>>)
    requires Admissible(s)
  {
    IsGrid(grid, s.width, s.height) &&
    (forall c :: InGrid(c, s.width, s.height) ==> 0 <= At(grid, c) < |s.nodes|) &&
    (forall c :: InGrid(c, s.width, s.height) ==>
      exists p :: IsRegionPath(grid, p, s.seeds[At(grid, c)], c, s.width, s.height)) &&
    (forall i :: 0 <= i < |s.nodes| ==> SeedHeld(s, grid, i))
  }

  /** A cell that is not its owner's seed has a 4-neighbour with the same owner. */
  lemma NonSeedCellHasOwnerNeighbour(s: Setup, grid: seq<seq<int>>, c: Cell)
    requires Admissible(s) && IsNearestBuffer(s, grid)
    requires InGrid(c, s.width, s.height) && c != s.seeds[At(grid, c)]
    ensures exists n :: InGrid(n, s.width, s.height) && IsNeighbour(n, c) && At(grid, n) == At(grid, c)
  {
    var p :| IsRegionPath(grid, p, s.seeds[At(grid, c)], c, s.width, s.height);
    RegionPathLastStep(grid, p, s.seeds[At(grid, c)], c, s.width, s.height);
  }

  lemma RegionPathLastStep(grid: seq<seq<int>>, p: seq<Cell>, from: Cell, to: Cell, width: nat, height: nat)
    requires IsRegionPath(grid, p, from, to, width, height) && from != to
    ensures exists n :: InGrid(n, width, height) && IsNeighbour(n, to) && At(grid, n) == At(grid, to)
  {
    assert IsNeighbour(p[|p| - 2], p[|p| - 1]);
  }

  // ---------------------------------------------------------------------
  // Loop invariant of the flood, in parts.

  /** `visited` slot i is set (an out-of-range slot reads as unset). */
  predicate Visited(visited: seq<bool>, i: int)
  {
    0 <= i < |visited| && visited[i]
  }

  /** Cell `c` has been claimed, for node `o`. */
  ghost predicate Claimed(grid: seq<seq<int>>, done: set<Cell>, c: Cell, o: int)
  {
    c in done && At(grid, c) == o
  }

  /** A queued entry is in the grid, names a node, and is either a seed entry or was pushed by a claimed neighbour of the same node. */
  ghost predicate EntryOk(s: Setup, grid: seq<seq<int>>, done: set<Cell>, e: VoronoiPixel)
  {
    0 <= e.nodeIndex < |s.nodes| && |s.seeds| == |s.nodes| &&
    InGrid(CellOf(e), s.width, s.height) &&
    ((CellOf(e) == s.seeds[e.nodeIndex] && e.sqdistance == 0.0) ||
     (e.sqdistance == SqDist(CellOf(e), s.nodes[e.nodeIndex], s.scale) &&
      exists p :: IsNeighbour(p, CellOf(e)) && Claimed(grid, done, p, e.nodeIndex)))
  }

  /** Some entry of `q` is for cell `c`. */
  ghost predicate Queued(q: seq<VoronoiPixel>, c: Cell)
  {
    exists j :: 0 <= j < |q| && CellOf(q[j]) == c
  }

  ghost predicate ShapeInv(s: Setup, visited: seq<bool>, grid: seq<seq<int>>, done: set<Cell>)
  {
    |visited| == s.width * s.height && IsGrid(grid, s.width, s.height) &&
    (forall c :: c in done ==> InGrid(c, s.width, s.height)) &&
    (forall c :: InGrid(c, s.width, s.height) ==> (Visited(visited, FlatIndex(c, s.width)) <==> c in done)) &&
    (forall c :: InGrid(c, s.width, s.height) ==> 0 <= At(grid, c) < |s.nodes|)
  }

  ghost predicate QueueInv(s: Setup, q: seq<VoronoiPixel>, grid: seq<seq<int>>, done: set<Cell>)
  {
    forall j :: 0 <= j < |q| ==> EntryOk(s, grid, done, q[j])
  }

  /** Every unclaimed in-grid neighbour of a claimed cell is still queued. */
  ghost predicate FrontierInv(s: Setup, q: seq<VoronoiPixel>, done: set<Cell>)
  {
    forall a, b :: a in done && InGrid(b, s.width, s.height) && IsNeighbour(a, b) ==> b in done || Queued(q, b)
  }

  ghost predicate SeedInv(s: Setup, q: seq<VoronoiPixel>, grid: seq<seq<int>>, done: set<Cell>)
    requires Admissible(s)
  {
    (forall i :: 0 <= i < |s.nodes| ==> s.seeds[i] in done || SeedEntry(s.seeds, i) in q) &&
    (forall i :: 0 <= i < |s.nodes| && s.seeds[i] in done ==> SeedHeld(s, grid, i))
  }

  /** Every claimed cell is joined to its owner's seed by a path of claimed cells of that owner. */
  ghost predicate PathInv(s: Setup, grid: seq<seq<int>>, done: set<Cell>, paths: map<Cell, seq<Cell>>)
    requires Admissible(s)
  {
    forall c :: c in done ==>
      c in paths && 0 <= At(grid, c) < |s.nodes| &&
      IsRegionPath(grid, paths[c], s.seeds[At(grid, c)], c, s.width, s.height) &&
      (forall i :: 0 <= i < |paths[c]| ==> paths[c][i] in done)
  }

  ghost predicate FloodInv(s: Setup, q: seq<VoronoiPixel>, visited: seq<bool>, grid: seq<seq<int>>,
                           done: set<Cell>, paths: map<Cell, seq<Cell>>)
  {
    Admissible(s) && ShapeInv(s, visited, grid, done) && QueueInv(s, q, grid, done) &&
    FrontierInv(s, q, done) && SeedInv(s, q, grid, done) && PathInv(s, grid, done, paths)
  }

  // ---------------------------------------------------------------------
  // The algorithm.

  /**
   * Queue each in-grid 4-neighbour of `pixel`'s cell (in the order up, left,
   * right, down) for `pixel`'s node, at its squared distance to `node`.
   */
  method PushNeighbours(queue: seq<VoronoiPixel>, pixel: VoronoiPixel, node: Node, width: nat, height: nat, scale: nat)
    returns (q: seq<VoronoiPixel>)
    ensures |queue| <= |q| <= |queue| + 4 && q[..|queue|] == queue
    ensures forall j :: |queue| <= j < |q| ==>
      q[j].nodeIndex == pixel.nodeIndex && InGrid(CellOf(q[j]), width, height) &&
      IsNeighbour(CellOf(pixel), CellOf(q[j])) && q[j].sqdistance == SqDist(CellOf(q[j]), node, scale)
    ensures forall b :: InGrid(b, width, height) && IsNeighbour(CellOf(pixel), b) ==> Queued(q[|queue|..], b)
  {
    q := queue;
    ghost var pushed: seq<VoronoiPixel> := [];
    var neighbours := Neighbours(CellOf(pixel));
    for k := 0 to 4
      invariant q == queue + pushed && |pushed| <= k
      invariant forall j :: 0 <= j < |pushed| ==>
        pushed[j].nodeIndex == pixel.nodeIndex && InGrid(CellOf(pushed[j]), width, height) &&
        IsNeighbour(CellOf(pixel), CellOf(pushed[j])) && pushed[j].sqdistance == SqDist(CellOf(pushed[j]), node, scale)
      invariant forall m :: 0 <= m < k && InGrid(neighbours[m], width, height) ==> Queued(pushed, neighbours[m])
    {
      var n := neighbours[k];
      if n.x < 0 || n.x >= width || n.y < 0 || n.y >= height {
        continue;
      }
      var entry := VoronoiPixel(n.x, n.y, pixel.nodeIndex, SqDist(n, node, scale));
      assert CellOf(entry) == n;
      QueuedAppend(pushed, entry);
      pushed := pushed + [entry];
      q := q + [entry];
    }
    assert q[|queue|..] == pushed;
    forall b | InGrid(b, width, height) && IsNeighbour(CellOf(pixel), b)
      ensures Queued(pushed, b)
    {
      NeighbourListed(CellOf(pixel), b);
    }
  }

  /** Appending keeps what was queued, and queues the new entry's cell. */
  lemma QueuedAppend(q: seq<VoronoiPixel>, entry: VoronoiPixel)
    ensures forall c :: Queued(q, c) ==> Queued(q + [entry], c)
    ensures Queued(q + [entry], CellOf(entry))
  {
    assert (q + [entry])[|q|] == entry;
    forall c | Queued(q, c) ensures Queued(q + [entry], c) {
      var j :| 0 <= j < |q| && CellOf(q[j]) == c;
      assert (q + [entry])[j] == q[j];
    }
  }

  /**
   * The flood. Returns the nearest-node buffer: `height` rows of `width` node
   * indices.
   */
  method Flood(nodes: seq<Node>, seeds: seq<Cell>, width: nat, height: nat, scale: nat, discipline: Discipline)
    returns (grid: seq<seq<int>>)
    requires |nodes| > 0 && |seeds| == |nodes|
    requires forall i :: 0 <= i < |seeds| ==> InGrid(seeds[i], width, height)
    ensures IsNearestBuffer(Setup(nodes, seeds, width, height, scale, discipline), grid)
  {
    ghost var s := Setup(nodes, seeds, width, height, scale, discipline);
    var queue := SeedQueue(seeds);

    var visited := new bool[width * height](_ => false);
    grid := seq(height, _ => seq(width, _ => 0));
    ghost var done: set<Cell> := {};
    ghost var paths: map<Cell, seq<Cell>> := map[];
    InitialInv(s, queue, visited[..], grid);

    while |queue| > 0
      invariant FloodInv(s, queue, visited[..], grid, done, paths)
      decreases AllCells(width, height) - done, |queue|
    {
      var pixel;
      pixel, queue, grid, done, paths := Step(s, nodes, width, height, scale, discipline, queue, visited, grid, done, paths);
    }
    FinalState(s, visited[..], grid, done, paths);
  }

  /**
   * One turn of the flood: dequeue the next entry; discard it if its cell is
   * already visited, otherwise mark the cell, give it the entry's node and
   * queue its in-grid neighbours.
   */
  method Step(ghost s: Setup, nodes: seq<Node>, width: nat, height: nat, scale: nat, discipline: Discipline,
              queue: seq<VoronoiPixel>, visited: array<bool>, grid: seq<seq<int>>,
              ghost done: set<Cell>, ghost paths: map<Cell, seq<Cell>>)
    returns (pixel: VoronoiPixel, queue': seq<VoronoiPixel>, grid': seq<seq<int>>,
             ghost done': set<Cell>, ghost paths': map<Cell, seq<Cell>>)
    requires s.nodes == nodes && s.width == width && s.height == height && s.scale == scale && s.discipline == discipline
    requires FloodInv(s, queue, visited[..], grid, done, paths) && |queue| > 0
    modifies visited
    ensures FloodInv(s, queue', visited[..], grid', done', paths')
    ensures AllCells(s.width, s.height) - done' < AllCells(s.width, s.height) - done ||
            (done' == done && |queue'| < |queue|)
    ensures exists k :: 0 <= k < |queue| && IsNext(queue, k, discipline) && queue[k] == pixel
    ensures done <= done'
    ensures forall c :: c in done ==> At(grid', c) == At(grid, c)
    ensures CellOf(pixel) in done ==>
      grid' == grid && done' == done && visited[..] == old(visited[..]) && |queue'| == |queue| - 1
    ensures CellOf(pixel) !in done ==>
      done' == done + {CellOf(pixel)} && At(grid', CellOf(pixel)) == pixel.nodeIndex
  {
    ghost var k0 := MinIndex(queue, discipline);
    var k :| 0 <= k < |queue| && IsNext(queue, k, discipline);
    pixel := queue[k];
    queue' := queue[..k] + queue[k + 1..];
    PoppedFacts(s, queue, k, visited[..], grid, done, paths);
    var flat := pixel.px + pixel.py * width;
    assert flat == FlatIndex(CellOf(queue[k]), s.width);
    if visited[flat] {
      DiscardKeepsInv(s, queue, k, flat, visited[..], grid, done, paths);
      grid', done', paths' := grid, done, paths;
      return;
    }
    ghost var v0 := visited[..];
    visited[flat] := true;
    grid' := grid[pixel.py := grid[pixel.py][pixel.px := pixel.nodeIndex]];
    GridUpdate(grid, grid', CellOf(pixel), pixel.nodeIndex, width, height);
    done' := done + {CellOf(pixel)};
    paths' := paths[CellOf(pixel) := NewPath(s, grid, done, paths, pixel)];
    var node := nodes[pixel.nodeIndex];
    var pushed := PushNeighbours(queue', pixel, node, width, height, scale);
    VisitKeepsInv(s, queue, k, flat, queue', pushed, v0, visited[..], grid, grid', done, done', paths, paths');
    ClaimShrinksRemaining(done, CellOf(pixel), s.width, s.height);
    queue' := pushed;
  }

  /** One queue entry per node, in node order: its seed cell at distance 0. */
  method SeedQueue(seeds: seq<Cell>) returns (queue: seq<VoronoiPixel>)
    ensures |queue| == |seeds|
    ensures forall j :: 0 <= j < |seeds| ==> queue[j] == SeedEntry(seeds, j)
  {
    queue := [];
    for i := 0 to |seeds|
      invariant |queue| == i
      invariant forall j :: 0 <= j < i ==> queue[j] == SeedEntry(seeds, j)
    {
      queue := queue + [VoronoiPixel(seeds[i].x, seeds[i].y, i, 0.0)];
    }
  }

  // ---------------------------------------------------------------------
  // Proof of the flood.

  /** Claiming an unclaimed in-grid cell shrinks the set of cells still to claim. */
  lemma ClaimShrinksRemaining(done: set<Cell>, c: Cell, width: nat, height: nat)
    requires InGrid(c, width, height) && c !in done
    ensures AllCells(width, height) - (done + {c}) < AllCells(width, height) - done
  {
    AllCellsMembership(c, width, height);
  }

  /** The popped entry names a node and an in-grid cell whose visited slot and grid row exist. */
  lemma PoppedFacts(s: Setup, q: seq<VoronoiPixel>, k: int, visited: seq<bool>, grid: seq<seq<int>>,
                    done: set<Cell>, paths: map<Cell, seq<Cell>>)
    requires FloodInv(s, q, visited, grid, done, paths) && 0 <= k < |q|
    ensures EntryOk(s, grid, done, q[k]) && 0 <= q[k].nodeIndex < |s.nodes|
    ensures InGrid(CellOf(q[k]), s.width, s.height)
    ensures 0 <= q[k].px + q[k].py * s.width < |visited|
    ensures |grid| == s.height && |grid[q[k].py]| == s.width
  {
    assert EntryOk(s, grid, done, q[k]);
    FlatIndexInRange(CellOf(q[k]), s.width, s.height);
  }

  lemma InitialInv(s: Setup, q: seq<VoronoiPixel>, visited: seq<bool>, grid: seq<seq<int>>)
    requires Admissible(s)
    requires |q| == |s.nodes| && forall j :: 0 <= j < |q| ==> q[j] == SeedEntry(s.seeds, j)
    requires |visited| == s.width * s.height && forall i :: 0 <= i < |visited| ==> !visited[i]
    requires grid == seq(s.height, _ => seq(s.width, _ => 0))
    ensures FloodInv(s, q, visited, grid, {}, map[])
  {
    forall i | 0 <= i < |s.nodes| ensures SeedEntry(s.seeds, i) in q {
      assert q[i] == SeedEntry(s.seeds, i);
    }
  }

  /** The next entry has distance 0 whenever some seed entry is still queued, and on the editor's queue a node index no larger than that seed's. */
  lemma NextBeatsSeed(s: Setup, q: seq<VoronoiPixel>, k: int, grid: seq<seq<int>>, done: set<Cell>, i: nat)
    requires Admissible(s) && QueueInv(s, q, grid, done)
    requires IsNext(q, k, s.discipline) && i < |s.nodes| && SeedEntry(s.seeds, i) in q
    ensures q[k].sqdistance == 0.0
    ensures s.discipline == DistanceThenIndex ==> q[k].nodeIndex <= i
  {
    var j :| 0 <= j < |q| && q[j] == SeedEntry(s.seeds, i);
    assert MayPrecede(q[k], q[j], s.discipline);
    assert EntryOk(s, grid, done, q[k]);
  }

  lemma DiscardKeepsInv(s: Setup, q: seq<VoronoiPixel>, k: int, flat: int, visited: seq<bool>, grid: seq<seq<int>>,
                        done: set<Cell>, paths: map<Cell, seq<Cell>>)
    requires FloodInv(s, q, visited, grid, done, paths)
    requires 0 <= k < |q| && InGrid(CellOf(q[k]), s.width, s.height)
    requires flat == FlatIndex(CellOf(q[k]), s.width) && 0 <= flat < |visited| && visited[flat]
    ensures FloodInv(s, q[..k] + q[k + 1..], visited, grid, done, paths)
  {
    assert CellOf(q[k]) in done;
    DiscardQueue(s, q, k, grid, done);
    DiscardFrontier(s, q, k, done);
    DiscardSeeds(s, q, k, grid, done);
  }

  lemma DiscardQueue(s: Setup, q: seq<VoronoiPixel>, k: int, grid: seq<seq<int>>, done: set<Cell>)
    requires QueueInv(s, q, grid, done) && 0 <= k < |q|
    ensures QueueInv(s, q[..k] + q[k + 1..], grid, done)
  {
    RemovalIndices(q, k, q[..k] + q[k + 1..]);
  }

  lemma DiscardFrontier(s: Setup, q: seq<VoronoiPixel>, k: int, done: set<Cell>)
    requires FrontierInv(s, q, done) && 0 <= k < |q| && CellOf(q[k]) in done
    ensures FrontierInv(s, q[..k] + q[k + 1..], done)
  {
    forall a, b | a in done && InGrid(b, s.width, s.height) && IsNeighbour(a, b) && b !in done
      ensures Queued(q[..k] + q[k + 1..], b)
    {
      QueuedAfterRemoval(q, k, b);
    }
  }

  lemma DiscardSeeds(s: Setup, q: seq<VoronoiPixel>, k: int, grid: seq<seq<int>>, done: set<Cell>)
    requires Admissible(s) && SeedInv(s, q, grid, done) && 0 <= k < |q| && CellOf(q[k]) in done
    ensures SeedInv(s, q[..k] + q[k + 1..], grid, done)
  {
    forall i | 0 <= i < |s.nodes| && s.seeds[i] !in done ensures SeedEntry(s.seeds, i) in q[..k] + q[k + 1..] {
      InAfterRemoval(q, k, SeedEntry(s.seeds, i));
    }
  }

  lemma RemovalIndices(q: seq<VoronoiPixel>, k: int, r: seq<VoronoiPixel>)
    requires 0 <= k < |q| && r == q[..k] + q[k + 1..]
    ensures |r| == |q| - 1
    ensures forall j :: 0 <= j < |r| ==> r[j] == q[if j < k then j else j + 1]
  {}

  lemma QueuedAfterRemoval(q: seq<VoronoiPixel>, k: int, b: Cell)
    requires 0 <= k < |q| && Queued(q, b) && CellOf(q[k]) != b
    ensures Queued(q[..k] + q[k + 1..], b)
  {
    var r := q[..k] + q[k + 1..];
    RemovalIndices(q, k, r);
    var j :| 0 <= j < |q| && CellOf(q[j]) == b;
    assert r[if j < k then j else j - 1] == q[j];
  }

  /** A queued entry other than the removed one is still queued after the removal. */
  lemma InAfterRemoval(q: seq<VoronoiPixel>, k: int, e: VoronoiPixel)
    requires 0 <= k < |q| && e in q && q[k] != e
    ensures e in q[..k] + q[k + 1..]
  {
    var r := q[..k] + q[k + 1..];
    RemovalIndices(q, k, r);
    var j :| 0 <= j < |q| && q[j] == e;
    assert r[if j < k then j else j - 1] == q[j];
  }

  /** The path that claims a newly visited cell: its own seed, or a claimed neighbour's path extended by one step. */
  ghost function NewPath(s: Setup, grid: seq<seq<int>>, done: set<Cell>, paths: map<Cell, seq<Cell>>, e: VoronoiPixel): seq<Cell>
    requires Admissible(s) && PathInv(s, grid, done, paths) && EntryOk(s, grid, done, e)
  {
    if CellOf(e) == s.seeds[e.nodeIndex] then [CellOf(e)]
    else
      var p :| IsNeighbour(p, CellOf(e)) && Claimed(grid, done, p, e.nodeIndex);
      paths[p] + [CellOf(e)]
  }

  /** The update of one cell of the grid leaves every other cell as it was. */
  lemma GridUpdate(grid: seq<seq<int>>, grid': seq<seq<int>>, c: Cell, o: int, width: nat, height: nat)
    requires IsGrid(grid, width, height) && InGrid(c, width, height)
    requires grid' == grid[c.y := grid[c.y][c.x := o]]
    ensures IsGrid(grid', width, height)
    ensures At(grid', c) == o
    ensures forall d :: d != c ==> At(grid', d) == At(grid, d)
  {}

  lemma VisitKeepsInv(s: Setup, q: seq<VoronoiPixel>, k: int, flat: int, r: seq<VoronoiPixel>, pushed: seq<VoronoiPixel>,
                      visited: seq<bool>, visited': seq<bool>, grid: seq<seq<int>>, grid': seq<seq<int>>,
                      done: set<Cell>, done': set<Cell>, paths: map<Cell, seq<Cell>>, paths': map<Cell, seq<Cell>>)
    requires FloodInv(s, q, visited, grid, done, paths)
    requires IsNext(q, k, s.discipline) && r == q[..k] + q[k + 1..]
    requires InGrid(CellOf(q[k]), s.width, s.height)
    requires flat == FlatIndex(CellOf(q[k]), s.width) && 0 <= flat < |visited| && !visited[flat]
    requires visited' == visited[flat := true]
    requires grid' == grid[q[k].py := grid[q[k].py][q[k].px := q[k].nodeIndex]]
    requires done' == done + {CellOf(q[k])}
    requires paths' == paths[CellOf(q[k]) := NewPath(s, grid, done, paths, q[k])]
    requires |r| <= |pushed| && pushed[..|r|] == r
    requires forall j :: |r| <= j < |pushed| ==>
      pushed[j].nodeIndex == q[k].nodeIndex && InGrid(CellOf(pushed[j]), s.width, s.height) &&
      IsNeighbour(CellOf(q[k]), CellOf(pushed[j])) &&
      pushed[j].sqdistance == SqDist(CellOf(pushed[j]), s.nodes[pushed[j].nodeIndex], s.scale)
    requires forall b :: InGrid(b, s.width, s.height) && IsNeighbour(CellOf(q[k]), b) ==> Queued(pushed[|r|..], b)
    ensures FloodInv(s, pushed, visited', grid', done', paths')
  {
    var e := q[k];
    var c := CellOf(e);
    assert EntryOk(s, grid, done, e);
    assert c !in done;
    GridUpdate(grid, grid', c, e.nodeIndex, s.width, s.height);
    RemovalIndices(q, k, r);
    VisitShape(s, visited, visited', grid, grid', done, done', c, e.nodeIndex);
    VisitQueue(s, q, k, r, pushed, grid, grid', done, done');
    VisitFrontier(s, q, k, r, pushed, done, done');
    VisitSeeds(s, q, k, r, pushed, grid, grid', done, done');
    VisitPaths(s, e, grid, grid', done, done', paths, paths');
  }

  lemma VisitShape(s: Setup, visited: seq<bool>, visited': seq<bool>, grid: seq<seq<int>>, grid': seq<seq<int>>,
                   done: set<Cell>, done': set<Cell>, c: Cell, o: int)
    requires Admissible(s) && ShapeInv(s, visited, grid, done)
    requires InGrid(c, s.width, s.height) && c !in done && 0 <= o < |s.nodes|
    requires 0 <= FlatIndex(c, s.width) < |visited| && visited' == visited[FlatIndex(c, s.width) := true]
    requires IsGrid(grid', s.width, s.height) && At(grid', c) == o
    requires forall d :: d != c ==> At(grid', d) == At(grid, d)
    requires done' == done + {c}
    ensures ShapeInv(s, visited', grid', done')
  {
    forall d | InGrid(d, s.width, s.height)
      ensures Visited(visited', FlatIndex(d, s.width)) <==> d in done'
    {
      MarkOne(visited, visited', c, d, s.width, s.height);
    }
    forall d | InGrid(d, s.width, s.height) ensures 0 <= At(grid', d) < |s.nodes| {
      if d != c { assert At(grid', d) == At(grid, d); }
    }
  }

  /** Marking the slot of cell c changes the visited flag of c and of no other cell. */
  lemma MarkOne(visited: seq<bool>, visited': seq<bool>, c: Cell, d: Cell, width: nat, height: nat)
    requires |visited| == width * height && InGrid(c, width, height) && InGrid(d, width, height)
    requires 0 <= FlatIndex(c, width) < |visited| && visited' == visited[FlatIndex(c, width) := true]
    ensures Visited(visited', FlatIndex(d, width)) == (d == c || Visited(visited, FlatIndex(d, width)))
  {
    FlatIndexInRange(d, width, height);
    if d != c && FlatIndex(d, width) == FlatIndex(c, width) {
      FlatIndexInjective(d, c, width, height);
    }
  }

  lemma VisitQueue(s: Setup, q: seq<VoronoiPixel>, k: int, r: seq<VoronoiPixel>, pushed: seq<VoronoiPixel>,
                   grid: seq<seq<int>>, grid': seq<seq<int>>, done: set<Cell>, done': set<Cell>)
    requires Admissible(s) && QueueInv(s, q, grid, done)
    requires 0 <= k < |q| && r == q[..k] + q[k + 1..]
    requires |r| == |q| - 1 && forall j :: 0 <= j < |r| ==> r[j] == q[if j < k then j else j + 1]
    requires CellOf(q[k]) !in done && done' == done + {CellOf(q[k])}
    requires At(grid', CellOf(q[k])) == q[k].nodeIndex
    requires forall d :: d != CellOf(q[k]) ==> At(grid', d) == At(grid, d)
    requires |r| <= |pushed| && pushed[..|r|] == r
    requires forall j :: |r| <= j < |pushed| ==>
      pushed[j].nodeIndex == q[k].nodeIndex && InGrid(CellOf(pushed[j]), s.width, s.height) &&
      IsNeighbour(CellOf(q[k]), CellOf(pushed[j])) &&
      pushed[j].sqdistance == SqDist(CellOf(pushed[j]), s.nodes[pushed[j].nodeIndex], s.scale)
    ensures QueueInv(s, pushed, grid', done')
  {
    var c := CellOf(q[k]);
    assert EntryOk(s, grid, done, q[k]);
    forall j | 0 <= j < |pushed| ensures EntryOk(s, grid', done', pushed[j]) {
      if j < |r| {
        assert pushed[j] == r[j];
        EntryOkMonotone(s, grid, grid', done, done', c, r[j]);
      } else {
        var n := CellOf(pushed[j]);
        assert IsNeighbour(c, n) && Claimed(grid', done', c, pushed[j].nodeIndex);
      }
    }
  }

  /** An entry stays valid as more cells are claimed: earlier claims never change. */
  lemma EntryOkMonotone(s: Setup, grid: seq<seq<int>>, grid': seq<seq<int>>, done: set<Cell>, done': set<Cell>,
                        c: Cell, e: VoronoiPixel)
    requires EntryOk(s, grid, done, e)
    requires c !in done && done' == done + {c}
    requires forall d :: d != c ==> At(grid', d) == At(grid, d)
    ensures EntryOk(s, grid', done', e)
  {
    if !(CellOf(e) == s.seeds[e.nodeIndex] && e.sqdistance == 0.0) {
      var p :| IsNeighbour(p, CellOf(e)) && Claimed(grid, done, p, e.nodeIndex);
      assert Claimed(grid', done', p, e.nodeIndex);
    }
  }

  lemma VisitFrontier(s: Setup, q: seq<VoronoiPixel>, k: int, r: seq<VoronoiPixel>, pushed: seq<VoronoiPixel>,
                      done: set<Cell>, done': set<Cell>)
    requires FrontierInv(s, q, done)
    requires 0 <= k < |q| && r == q[..k] + q[k + 1..]
    requires done' == done + {CellOf(q[k])}
    requires |r| <= |pushed| && pushed[..|r|] == r
    requires forall b :: InGrid(b, s.width, s.height) && IsNeighbour(CellOf(q[k]), b) ==> Queued(pushed[|r|..], b)
    ensures FrontierInv(s, pushed, done')
  {
    var c := CellOf(q[k]);
    forall a, b | a in done' && InGrid(b, s.width, s.height) && IsNeighbour(a, b) && b !in done'
      ensures Queued(pushed, b)
    {
      if a == c {
        var j :| 0 <= j < |pushed[|r|..]| && CellOf(pushed[|r|..][j]) == b;
        assert pushed[|r| + j] == pushed[|r|..][j];
      } else {
        assert Queued(q, b);
        QueuedAfterRemoval(q, k, b);
        var j :| 0 <= j < |r| && CellOf(r[j]) == b;
        assert pushed[j] == r[j];
      }
    }
  }

  lemma VisitSeeds(s: Setup, q: seq<VoronoiPixel>, k: int, r: seq<VoronoiPixel>, pushed: seq<VoronoiPixel>,
                   grid: seq<seq<int>>, grid': seq<seq<int>>, done: set<Cell>, done': set<Cell>)
    requires Admissible(s) && QueueInv(s, q, grid, done) && SeedInv(s, q, grid, done)
    requires IsNext(q, k, s.discipline) && r == q[..k] + q[k + 1..]
    requires |r| == |q| - 1 && forall j :: 0 <= j < |r| ==> r[j] == q[if j < k then j else j + 1]
    requires CellOf(q[k]) !in done && done' == done + {CellOf(q[k])}
    requires At(grid', CellOf(q[k])) == q[k].nodeIndex
    requires forall d :: d != CellOf(q[k]) ==> At(grid', d) == At(grid, d)
    requires |r| <= |pushed| && pushed[..|r|] == r
    ensures SeedInv(s, pushed, grid', done')
  {
    var e := q[k];
    var c := CellOf(e);
    assert EntryOk(s, grid, done, e);
    forall i | 0 <= i < |s.nodes| && s.seeds[i] !in done' ensures SeedEntry(s.seeds, i) in pushed {
      var j :| 0 <= j < |q| && q[j] == SeedEntry(s.seeds, i);
      assert j != k;
      var j' := if j < k then j else j - 1;
      assert r[j'] == q[j];
      assert pushed[j'] == r[j'];
    }
    forall i | 0 <= i < |s.nodes| && s.seeds[i] in done' ensures SeedHeld(s, grid', i) {
      if s.seeds[i] == c {
        NextBeatsSeed(s, q, k, grid, done, i);
      } else {
        assert SeedHeld(s, grid, i);
      }
    }
  }

  lemma VisitPaths(s: Setup, e: VoronoiPixel, grid: seq<seq<int>>, grid': seq<seq<int>>,
                   done: set<Cell>, done': set<Cell>, paths: map<Cell, seq<Cell>>, paths': map<Cell, seq<Cell>>)
    requires Admissible(s) && PathInv(s, grid, done, paths) && EntryOk(s, grid, done, e)
    requires CellOf(e) !in done && done' == done + {CellOf(e)}
    requires At(grid', CellOf(e)) == e.nodeIndex
    requires forall d :: d != CellOf(e) ==> At(grid', d) == At(grid, d)
    requires paths' == paths[CellOf(e) := NewPath(s, grid, done, paths, e)]
    ensures PathInv(s, grid', done', paths')
  {
    forall d | d in done'
      ensures d in paths' && 0 <= At(grid', d) < |s.nodes|
      ensures IsRegionPath(grid', paths'[d], s.seeds[At(grid', d)], d, s.width, s.height)
      ensures forall i :: 0 <= i < |paths'[d]| ==> paths'[d][i] in done'
    {
      if d == CellOf(e) {
        NewPathOk(s, e, grid, grid', done, done', paths);
      } else {
        OldPathOk(s, grid, grid', done, done', paths, CellOf(e), d);
      }
    }
  }

  /** A claimed cell keeps its path when another cell is claimed. */
  lemma OldPathOk(s: Setup, grid: seq<seq<int>>, grid': seq<seq<int>>, done: set<Cell>, done': set<Cell>,
                  paths: map<Cell, seq<Cell>>, c: Cell, d: Cell)
    requires Admissible(s) && PathInv(s, grid, done, paths)
    requires c !in done && done' == done + {c} && d in done
    requires forall x :: x != c ==> At(grid', x) == At(grid, x)
    ensures 0 <= At(grid', d) < |s.nodes|
    ensures IsRegionPath(grid', paths[d], s.seeds[At(grid', d)], d, s.width, s.height)
    ensures forall i :: 0 <= i < |paths[d]| ==> paths[d][i] in done'
  {
    var p := paths[d];
    assert IsRegionPath(grid, p, s.seeds[At(grid, d)], d, s.width, s.height);
    forall i | 0 <= i < |p| ensures At(grid', p[i]) == At(grid, p[i]) {
      assert p[i] in done;
    }
  }

  /** The newly claimed cell gets a path: its own seed, or a claimed neighbour's path plus one step. */
  lemma NewPathOk(s: Setup, e: VoronoiPixel, grid: seq<seq<int>>, grid': seq<seq<int>>,
                  done: set<Cell>, done': set<Cell>, paths: map<Cell, seq<Cell>>)
    requires Admissible(s) && PathInv(s, grid, done, paths) && EntryOk(s, grid, done, e)
    requires CellOf(e) !in done && done' == done + {CellOf(e)}
    requires At(grid', CellOf(e)) == e.nodeIndex
    requires forall d :: d != CellOf(e) ==> At(grid', d) == At(grid, d)
    ensures IsRegionPath(grid', NewPath(s, grid, done, paths, e), s.seeds[e.nodeIndex], CellOf(e), s.width, s.height)
    ensures forall i :: 0 <= i < |NewPath(s, grid, done, paths, e)| ==> NewPath(s, grid, done, paths, e)[i] in done'
  {
    var c := CellOf(e);
    var np := NewPath(s, grid, done, paths, e);
    if c != s.seeds[e.nodeIndex] {
      var p :| IsNeighbour(p, c) && Claimed(grid, done, p, e.nodeIndex) && np == paths[p] + [c];
      var pp := paths[p];
      assert IsRegionPath(grid, pp, s.seeds[e.nodeIndex], p, s.width, s.height);
      forall i | 0 <= i < |pp| ensures At(grid', pp[i]) == e.nodeIndex && pp[i] in done {
        assert pp[i] in done;
      }
      forall i | 0 <= i < |np| - 1 ensures IsNeighbour(np[i], np[i + 1]) {
        if i < |pp| - 1 {
          assert np[i] == pp[i] && np[i + 1] == pp[i + 1];
        } else {
          assert np[i] == p && np[i + 1] == c;
        }
      }
      forall i | 0 <= i < |np| ensures InGrid(np[i], s.width, s.height) && At(grid', np[i]) == e.nodeIndex {
        if i < |pp| { assert np[i] == pp[i]; }
      }
    }
  }

  lemma FinalState(s: Setup, visited: seq<bool>, grid: seq<seq<int>>, done: set<Cell>, paths: map<Cell, seq<Cell>>)
    requires FloodInv(s, [], visited, grid, done, paths)
    ensures IsNearestBuffer(s, grid)
  {
    assert s.seeds[0] in done;
    assert ClosedUnderNeighbours(done, s.width, s.height);
    forall c | InGrid(c, s.width, s.height)
      ensures c in done
    {
      ClosedSetCoversGrid(done, s.width, s.height, s.seeds[0], c);
    }
    forall c | InGrid(c, s.width, s.height)
      ensures exists p :: IsRegionPath(grid, p, s.seeds[At(grid, c)], c, s.width, s.height)
    {
      assert IsRegionPath(grid, paths[c], s.seeds[At(grid, c)], c, s.width, s.height);
    }
  }
}

=== FILE: grid.dfy ===
/**
 * Grid geometry shared by the nearest-node flood, the editor and the
 * compositor: integer cells, 4-neighbourhood, the row-major flat index
 * used by the `visited` bitmap, and ceiling/floor of reals.
 */
module Grid {

  /** A grid cell (column x, row y). */
  datatype Cell = Cell(x: int, y: int)

  /** Math.ceil / f64::ceil over the reals. */
  function Ceil(r: real): (c: int)
    ensures c as real - 1.0 < r <= c as real
  {
    -((-r).Floor)
  }

  /** Math.floor over the reals. */
  function Floor(r: real): (f: int)
    ensures f as real <= r < f as real + 1.0
  {
    r.Floor
  }

  /** Number of cells needed to cover `length` pixels with cells of `scale` pixels: ceil(length/scale). */
  function CellCount(length: nat, scale: nat): (n: nat)
    requires scale > 0
    ensures (n - 1) * scale < length <= n * scale
  {
    var n := Ceil(length as real / scale as real);
    assert n >= 0;
    assert (n - 1) as real < length as real / scale as real <= n as real;
    CeilDivBounds(length, scale, n);
    n
  }

  lemma CeilDivBounds(length: nat, scale: nat, n: int)
    requires scale > 0
    requires (n - 1) as real < length as real / scale as real <= n as real
    ensures (n - 1) * scale < length <= n * scale
  {
    BelowQuotient(n - 1, length, scale);
    AtLeastQuotient(n, length, scale);
  }

  /** k < length / scale gives k * scale < length. */
  lemma BelowQuotient(k: int, length: nat, scale: nat)
    requires scale > 0 && k as real < length as real / scale as real
    ensures k * scale < length
  {
    var s := scale as real;
    DivTimes(length as real, s);
    MulRealStrict(k as real, length as real / s, s);
    IntMulAsReal(k, scale);
  }

  /** length / scale <= k gives length <= k * scale. */
  lemma AtLeastQuotient(k: int, length: nat, scale: nat)
    requires scale > 0 && length as real / scale as real <= k as real
    ensures length <= k * scale
  {
    var s := scale as real;
    DivTimes(length as real, s);
    MulRealWeak(length as real / s, k as real, s);
    IntMulAsReal(k, scale);
  }

  lemma DivTimes(a: real, s: real)
    requires s > 0.0
    ensures a / s * s == a
  {}

  lemma IntMulAsReal(a: int, b: int)
    ensures (a * b) as real == a as real * b as real
  {}

  lemma MulRealStrict(a: real, b: real, s: real)
    requires a < b && s > 0.0
    ensures a * s < b * s
  {}

  lemma MulRealWeak(a: real, b: real, s: real)
    requires a <= b && s > 0.0
    ensures a * s <= b * s
  {}

  predicate InGrid(c: Cell, width: int, height: int)
  {
    0 <= c.x < width && 0 <= c.y < height
  }

  /** The four axis-aligned neighbours, in the order the source visits them: up, left, right, down. */
  function Neighbours(c: Cell): (ns: seq<Cell>)
    ensures |ns| == 4
    ensures forall k :: 0 <= k < 4 ==> IsNeighbour(c, ns[k])
  {
    [Cell(c.x, c.y - 1), Cell(c.x - 1, c.y), Cell(c.x + 1, c.y), Cell(c.x, c.y + 1)]
  }

  /** Two cells are 4-adjacent: they differ by one step along exactly one axis. */
  predicate IsNeighbour(a: Cell, b: Cell)
  {
    (a.x == b.x && (a.y - b.y == 1 || b.y - a.y == 1)) ||
    (a.y == b.y && (a.x - b.x == 1 || b.x - a.x == 1))
  }

  /** Every 4-adjacent cell is one of the four listed neighbours. */
  lemma NeighbourListed(a: Cell, b: Cell)
    requires IsNeighbour(a, b)
    ensures exists k :: 0 <= k < 4 && Neighbours(a)[k] == b
  {
    var ns := Neighbours(a);
    if b == ns[0] {
    } else if b == ns[1] {
    } else if b == ns[2] {
    } else {
      assert b == ns[3];
    }
  }

  /** The flat, row-major index px + py * width of the `visited` bitmap. */
  function FlatIndex(c: Cell, width: nat): int
  {
    c.x + c.y * width
  }

  lemma FlatIndexInRange(c: Cell, width: nat, height: nat)
    requires InGrid(c, width, height)
    ensures 0 <= FlatIndex(c, width) < width * height
  {
    assert c.y * width <= (height - 1) * width;
  }

  /** The flat index of an in-grid cell, known to lie inside a width * height buffer. */
  function Slot(c: Cell, width: nat, height: nat): (i: int)
    requires InGrid(c, width, height)
    ensures 0 <= i < width * height
  {
    FlatIndexInRange(c, width, height);
    FlatIndex(c, width)
  }

  /** Distinct in-grid cells never share a bitmap slot. */
  lemma FlatIndexInjective(a: Cell, b: Cell, width: nat, height: nat)
    requires InGrid(a, width, height) && InGrid(b, width, height)
    requires FlatIndex(a, width) == FlatIndex(b, width)
    ensures a == b
  {
    if a.y < b.y {
      RowsApart(a, b, width);
    } else if b.y < a.y {
      RowsApart(b, a, width);
    }
  }

  /** A cell on a later row has a flat index at least one row further on. */
  lemma RowsApart(a: Cell, b: Cell, width: nat)
    requires a.y < b.y
    ensures a.y * width + width <= b.y * width
  {
    MulDistributes(a.y, b.y - a.y, width);
    MulAtLeastOnce(b.y - a.y, width);
  }

  lemma MulDistributes(p: int, d: int, w: int)
    ensures (p + d) * w == p * w + d * w
  {}

  lemma MulAtLeastOnce(d: int, w: nat)
    requires d >= 1
    ensures d * w >= w
  {
    MulDistributes(1, d - 1, w);
    MulNonNegative(d - 1, w);
  }

  lemma MulMonotone(a: int, b: int, w: nat)
    requires a <= b
    ensures a * w <= b * w
  {
    MulDistributes(a, b - a, w);
    MulNonNegative(b - a, w);
  }

  lemma MulNonNegative(a: nat, b: nat)
    ensures a * b >= 0
  {}

  /** The cells of a width x height grid. */
  function AllCells(width: nat, height: nat): set<Cell>
  {
    set x, y | 0 <= x < width && 0 <= y < height :: Cell(x, y)
  }

  lemma AllCellsMembership(c: Cell, width: nat, height: nat)
    ensures c in AllCells(width, height) <==> InGrid(c, width, height)
  {
    if InGrid(c, width, height) {
      assert Cell(c.x, c.y) in AllCells(width, height);
    }
  }

  /** A set of cells that contains every in-grid neighbour of each of its members. */
  ghost predicate ClosedUnderNeighbours(s: set<Cell>, width: nat, height: nat)
  {
    forall a, b :: a in s && InGrid(b, width, height) && IsNeighbour(a, b) ==> b in s
  }

  /**
   * A neighbour-closed set of cells that contains one cell of the grid
   * contains the whole grid: the grid is 4-connected.
   */
  lemma {:induction false} ClosedSetCoversGrid(s: set<Cell>, width: nat, height: nat, start: Cell, c: Cell)
    requires ClosedUnderNeighbours(s, width, height)
    requires start in s && InGrid(start, width, height)
    requires InGrid(c, width, height)
    ensures c in s
  {
    WalkRow(s, width, height, start, c.x);
    WalkColumn(s, width, height, Cell(c.x, start.y), c.y);
  }

  lemma {:induction false} WalkRow(s: set<Cell>, width: nat, height: nat, a: Cell, x: int)
    requires ClosedUnderNeighbours(s, width, height)
    requires a in s && InGrid(a, width, height) && 0 <= x < width
    ensures Cell(x, a.y) in s
    decreases if x < a.x then a.x - x else x - a.x
  {
    if x < a.x {
      var b := Cell(a.x - 1, a.y);
      assert IsNeighbour(a, b) && InGrid(b, width, height);
      WalkRow(s, width, height, b, x);
    } else if a.x < x {
      var b := Cell(a.x + 1, a.y);
      assert IsNeighbour(a, b) && InGrid(b, width, height);
      WalkRow(s, width, height, b, x);
    }
  }

  lemma {:induction false} WalkColumn(s: set<Cell>, width: nat, height: nat, a: Cell, y: int)
    requires ClosedUnderNeighbours(s, width, height)
    requires a in s && InGrid(a, width, height) && 0 <= y < height
    ensures Cell(a.x, y) in s
    decreases if y < a.y then a.y - y else y - a.y
  {
    if y < a.y {
      var b := Cell(a.x, a.y - 1);
      assert IsNeighbour(a, b) && InGrid(b, width, height);
      WalkColumn(s, width, height, b, y);
    } else if a.y < y {
      var b := Cell(a.x, a.y + 1);
      assert IsNeighbour(a, b) && InGrid(b, width, height);
      WalkColumn(s, width, height, b, y);
    }
  }

  /** A row-major grid of `height` rows of `width` entries. */
  predicate IsGrid<T>(g: seq<seq<T>>, width: nat, height: nat)
  {
    |g| == height && forall y :: 0 <= y < height ==> |g[y]| == width
  }

  /** The entry of `g` at cell `c` (a default when `c` lies outside the rows). */
  function At(g: seq<seq<int>>, c: Cell): int
  {
    if 0 <= c.y < |g| && 0 <= c.x < |g[c.y]| then g[c.y][c.x] else -1
  }
}

=== FILE: node.dfy ===
/**
 * The site record shared by the editor and both Rust crates
 * (rust/src/node.rs): position, erodibility and the ocean flag, with its
 * interpolation, its projection to a point, and the scaling applied when a
 * list of nodes crosses from the editor into Rust.
 */
module NodeModel {

  /** A site: position in surface coordinates, erodibility and the ocean flag. */
  datatype Node = Node(x: real, y: real, erodibility: real, isOcean: bool)

  /** The interpolator's point type. */
  datatype Point = Point(x: real, y: real)

  /** `From<Node> for Point`: the position of a node, nothing else. */
  function ToPoint(n: Node): Point
  {
    Point(n.x, n.y)
  }

  /**
   * Linear interpolation of one scalar, a + (b - a) * t: the interpolator
   * crate's f64 `lerp` is not part of this model and is taken to be this.
   */
  function LerpReal(a: real, b: real, t: real): real
  {
    a + Scaled(b - a, t)
  }

  /** The step b - a scaled by t. */
  function Scaled(d: real, t: real): real
  {
    d * t
  }

  /** At t = 0 the interpolation gives a, at t = 1 it gives b. */
  lemma LerpRealEnds(a: real, b: real)
    ensures LerpReal(a, b, 0.0) == a && LerpReal(a, b, 1.0) == b
  {}

  /** For t in [0, 1] the interpolated value stays between a and b, whichever is larger. */
  lemma LerpBetween(a: real, b: real, t: real)
    requires 0.0 <= t <= 1.0
    ensures a <= b ==> a <= LerpReal(a, b, t) <= b
    ensures b <= a ==> b <= LerpReal(a, b, t) <= a
  {
    ScaledBetween(b - a, t);
  }

  /** Scaling by t in [0, 1] moves a step towards zero without changing its sign. */
  lemma ScaledBetween(d: real, t: real)
    requires 0.0 <= t <= 1.0
    ensures 0.0 <= d ==> 0.0 <= Scaled(d, t) <= d
    ensures d <= 0.0 ==> d <= Scaled(d, t) <= 0.0
  {
    MulSigns(d, t);
    MulSigns(d, 1.0 - t);
    MulDistribute(d, t);
  }

  lemma MulSigns(d: real, u: real)
    requires 0.0 <= u
    ensures 0.0 <= d ==> 0.0 <= d * u
    ensures d <= 0.0 ==> d * u <= 0.0
  {}

  lemma MulDistribute(d: real, t: real)
    ensures d * (1.0 - t) == d - d * t
  {}

  /**
   * `Lerpable for Node`: x, y and erodibility interpolate independently with
   * the same t; the ocean flag is taken from `a` below t = 0.5 and from `b`
   * from 0.5 on.
   */
  function Lerp(a: Node, b: Node, t: real): Node
  {
    Node(LerpReal(a.x, b.x, t), LerpReal(a.y, b.y, t),
         LerpReal(a.erodibility, b.erodibility, t),
         if t < 0.5 then a.isOcean else b.isOcean)
  }

  /**
   * Interpolating from b to a at 1 - t gives the position and erodibility of
   * interpolating from a to b at t. The ocean flag agrees too, except at
   * t = 0.5 exactly, where each direction takes the flag of its second node.
   */
  lemma LerpReversed(a: Node, b: Node, t: real)
    ensures ToPoint(Lerp(b, a, 1.0 - t)) == ToPoint(Lerp(a, b, t))
    ensures Lerp(b, a, 1.0 - t).erodibility == Lerp(a, b, t).erodibility
    ensures t != 0.5 ==> Lerp(b, a, 1.0 - t).isOcean == Lerp(a, b, t).isOcean
    ensures t == 0.5 ==> Lerp(b, a, 1.0 - t).isOcean == a.isOcean && Lerp(a, b, t).isOcean == b.isOcean
  {
    LerpRealReversed(a.x, b.x, t);
    LerpRealReversed(a.y, b.y, t);
    LerpRealReversed(a.erodibility, b.erodibility, t);
  }

  /** Interpolating a scalar backwards from the far end gives the same value. */
  lemma LerpRealReversed(a: real, b: real, t: real)
    ensures LerpReal(b, a, 1.0 - t) == LerpReal(a, b, t)
  {
    MulDistribute(a - b, t);
    NegatedScale(b - a, t);
  }

  lemma NegatedScale(d: real, t: real)
    ensures Scaled(-d, t) == -Scaled(d, t)
  {}

  /** Interpolating from t = 0 to t = 1 moves from one node to the other. */
  lemma LerpEndpoints(a: Node, b: Node)
    ensures Lerp(a, b, 0.0) == a
    ensures Lerp(a, b, 1.0) == b
  {
    LerpRealEnds(a.x, b.x);
    LerpRealEnds(a.y, b.y);
    LerpRealEnds(a.erodibility, b.erodibility);
  }

  /** For t in [0, 1] the interpolated erodibility stays within the two nodes' values. */
  lemma LerpErodibilityBetween(a: Node, b: Node, t: real)
    requires 0.0 <= t <= 1.0
    ensures var e := Lerp(a, b, t).erodibility;
      (a.erodibility <= b.erodibility ==> a.erodibility <= e <= b.erodibility) &&
      (b.erodibility <= a.erodibility ==> b.erodibility <= e <= a.erodibility)
  {
    LerpBetween(a.erodibility, b.erodibility, t);
  }

  /** `ToPoint` forgets the attributes, so it commutes with interpolation. */
  lemma ToPointOfLerp(a: Node, b: Node, t: real)
    ensures ToPoint(Lerp(a, b, t)) == Point(LerpReal(ToPoint(a).x, ToPoint(b).x, t), LerpReal(ToPoint(a).y, ToPoint(b).y, t))
  {}

  /** One node scaled as `parse_nodes` does: position scaled per axis, attributes copied. */
  function ScaleNode(n: Node, scaleX: real, scaleY: real): Node
  {
    Node(n.x * scaleX, n.y * scaleY, n.erodibility, n.isOcean)
  }

  /**
   * `parse_nodes`: every node, in order, with x multiplied by `scaleX`, y by
   * `scaleY` and the attributes unchanged (deserialisation is taken as done).
   */
  function ParseNodes(nodes: seq<Node>, scaleX: real, scaleY: real): (r: seq<Node>)
    ensures |r| == |nodes|
    ensures forall i :: 0 <= i < |r| ==>
      r[i].x == nodes[i].x * scaleX && r[i].y == nodes[i].y * scaleY &&
      r[i].erodibility == nodes[i].erodibility && r[i].isOcean == nodes[i].isOcean
  {
    if nodes == [] then []
    else [ScaleNode(nodes[0], scaleX, scaleY)] + ParseNodes(nodes[1..], scaleX, scaleY)
  }

  /** Element i of the parsed list is input node i, scaled. */
  lemma ParseNodesAt(nodes: seq<Node>, scaleX: real, scaleY: real, i: nat)
    requires i < |nodes|
    ensures ParseNodes(nodes, scaleX, scaleY)[i] == ScaleNode(nodes[i], scaleX, scaleY)
  {}

  /** With unit scales `parse_nodes` returns its input (the preview path). */
  lemma ParseNodesUnitScale(nodes: seq<Node>)
    ensures ParseNodes(nodes, 1.0, 1.0) == nodes
  {
    var r := ParseNodes(nodes, 1.0, 1.0);
    assert forall i :: 0 <= i < |r| ==> r[i] == nodes[i];
  }

  /** Scaling by non-zero factors and then by their reciprocals restores the list. */
  lemma ParseNodesRoundTrip(nodes: seq<Node>, scaleX: real, scaleY: real)
    requires scaleX != 0.0 && scaleY != 0.0
    ensures ParseNodes(ParseNodes(nodes, scaleX, scaleY), 1.0 / scaleX, 1.0 / scaleY) == nodes
  {
    var m := ParseNodes(nodes, scaleX, scaleY);
    var r := ParseNodes(m, 1.0 / scaleX, 1.0 / scaleY);
    forall i | 0 <= i < |nodes| ensures r[i] == nodes[i] {
      ParseNodesAt(nodes, scaleX, scaleY, i);
      ParseNodesAt(m, 1.0 / scaleX, 1.0 / scaleY, i);
      ScaleNodeRoundTrip(nodes[i], scaleX, scaleY);
    }
  }

  lemma ScaleNodeRoundTrip(n: Node, scaleX: real, scaleY: real)
    requires scaleX != 0.0 && scaleY != 0.0
    ensures ScaleNode(ScaleNode(n, scaleX, scaleY), 1.0 / scaleX, 1.0 / scaleY) == n
  {
    ScaleBack(n.x, scaleX);
    ScaleBack(n.y, scaleY);
  }

  lemma ScaleBack(v: real, scale: real)
    requires scale != 0.0
    ensures v * scale * (1.0 / scale) == v
  {}
}

=== FILE: pixel_queue.dfy ===
/**
 * The flood's queue entries and the two orders they are dequeued in:
 * the editor's comparator (src/main.ts), which breaks distance ties by node
 * index, and the preview crate's reversed `Ord` (src/rust/src/preview.rs),
 * which makes `BinaryHeap` a min-heap on distance with no tie-break.
 */
module PixelQueue {
  import opened Grid

  /** A candidate assignment: cell (px, py) claimed by node `nodeIndex` at squared distance `sqdistance`. */
  datatype VoronoiPixel = VoronoiPixel(px: int, py: int, nodeIndex: int, sqdistance: real)

  function CellOf(p: VoronoiPixel): Cell
  {
    Cell(p.px, p.py)
  }

  /** The editor's comparator: negative when `a` is to be dequeued before `b`. */
  function TsComparator(a: VoronoiPixel, b: VoronoiPixel): real
  {
    if a.sqdistance == b.sqdistance then (a.nodeIndex - b.nodeIndex) as real
    else a.sqdistance - b.sqdistance
  }

  /** The comparator orders by distance first and by node index among equal distances. */
  lemma TsComparatorIsLexicographic(a: VoronoiPixel, b: VoronoiPixel)
    ensures TsComparator(a, b) < 0.0 <==>
      a.sqdistance < b.sqdistance || (a.sqdistance == b.sqdistance && a.nodeIndex < b.nodeIndex)
    ensures TsComparator(a, b) == 0.0 <==> a.sqdistance == b.sqdistance && a.nodeIndex == b.nodeIndex
    ensures TsComparator(a, b) == -TsComparator(b, a)
  {}

  datatype Ordering = Less | Equal | Greater

  /** The preview crate's `Ord::cmp`: reversed on distance, blind to the node index. */
  function Cmp(a: VoronoiPixel, b: VoronoiPixel): Ordering
  {
    if a.sqdistance == b.sqdistance then Equal
    else if a.sqdistance < b.sqdistance then Greater
    else Less
  }

  /** The reversed order: a smaller distance compares Greater, so a max-heap pops it first. */
  lemma CmpIsReversedDistance(a: VoronoiPixel, b: VoronoiPixel)
    ensures Cmp(a, b) == Greater <==> a.sqdistance < b.sqdistance
    ensures Cmp(a, b) == Less <==> b.sqdistance < a.sqdistance
    ensures Cmp(a, b) == Equal <==> a.sqdistance == b.sqdistance
    ensures Cmp(a, b) == Greater <==> Cmp(b, a) == Less
  {}

  /** No tie-break: entries of different nodes at the same distance compare Equal. */
  lemma CmpIgnoresNodeIndex(a: VoronoiPixel, b: VoronoiPixel, i: int, j: int)
    ensures Cmp(a.(nodeIndex := i), b.(nodeIndex := j)) == Cmp(a, b)
  {}

  /** The preview crate's `PartialEq`: equal node index, whatever the distance. */
  function PixelEq(a: VoronoiPixel, b: VoronoiPixel): bool
  {
    a.nodeIndex == b.nodeIndex
  }

  /** `PartialEq` and `Ord` disagree: two entries can be `==` and still compare Less. */
  lemma PixelEqDisagreesWithCmp()
    ensures exists a, b :: PixelEq(a, b) && Cmp(a, b) == Less
  {
    var a := VoronoiPixel(0, 0, 0, 1.0);
    var b := VoronoiPixel(0, 0, 0, 0.0);
    assert PixelEq(a, b) && Cmp(a, b) == Less;
  }

  /** Which of the two queues a flood runs with. */
  datatype Discipline = DistanceThenIndex | DistanceOnly

  /** `a` may leave the queue while `b` is still in it. */
  predicate MayPrecede(a: VoronoiPixel, b: VoronoiPixel, d: Discipline)
  {
    match d
    case DistanceThenIndex => TsComparator(a, b) <= 0.0
    case DistanceOnly => Cmp(a, b) != Less
  }

  /** Entry k is one the queue may hand out next: nothing in the queue must come before it. */
  predicate IsNext(q: seq<VoronoiPixel>, k: int, d: Discipline)
  {
    0 <= k < |q| && forall j :: 0 <= j < |q| ==> MayPrecede(q[k], q[j], d)
  }

  lemma MayPrecedeTotal(a: VoronoiPixel, b: VoronoiPixel, d: Discipline)
    ensures MayPrecede(a, b, d) || MayPrecede(b, a, d)
  {}

  lemma MayPrecedeTransitive(a: VoronoiPixel, b: VoronoiPixel, c: VoronoiPixel, d: Discipline)
    requires MayPrecede(a, b, d) && MayPrecede(b, c, d)
    ensures MayPrecede(a, c, d)
  {}

  /** A non-empty queue always has an entry it may hand out next. */
  function MinIndex(q: seq<VoronoiPixel>, d: Discipline): (k: nat)
    requires |q| > 0
    ensures IsNext(q, k, d)
  {
    if |q| == 1 then 0
    else
      var front := q[..|q| - 1];
      var k := MinIndex(front, d);
      assert forall j :: 0 <= j < |front| ==> front[j] == q[j];
      if MayPrecede(q[k], q[|q| - 1], d) then k
      else
        MayPrecedeTotal(q[k], q[|q| - 1], d);
        forall j | 0 <= j < |q| ensures MayPrecede(q[|q| - 1], q[j], d) {
          if j < |q| - 1 {
            MayPrecedeTransitive(q[|q| - 1], q[k], q[j], d);
          }
        }
        |q| - 1
  }

  /**
   * What the next entry is under each discipline: the smallest distance in the
   * queue, and for the editor's queue also the smallest node index among the
   * entries at that distance.
   */
  lemma NextIsNearest(q: seq<VoronoiPixel>, k: int, d: Discipline)
    requires IsNext(q, k, d)
    ensures forall j :: 0 <= j < |q| ==> q[k].sqdistance <= q[j].sqdistance
    ensures d == DistanceThenIndex ==>
      forall j :: 0 <= j < |q| && q[j].sqdistance == q[k].sqdistance ==> q[k].nodeIndex <= q[j].nodeIndex
  {
    forall j | 0 <= j < |q| ensures q[k].sqdistance <= q[j].sqdistance {
      assert MayPrecede(q[k], q[j], d);
    }
  }
}

=== FILE: preview.dfy ===
/**
 * The Rust preview (src/rust/src/preview.rs): `set_nearest_node_buffer` runs
 * the flood over a binary max-heap whose reversed ordering compares distances
 * only. Node indices are returned as integers; the source stores them as f64.
 */
module Preview {
  import opened Grid
  import opened NodeModel
  import opened PixelQueue
  import opened VoronoiFlood

  const U32Max: int := 0xFFFF_FFFF

  /** Rust's float-to-u32 `as` cast of an integral value: it saturates at both ends. */
  function SaturateU32(v: int): (r: int)
  {
    if v < 0 then 0 else if v > U32Max then U32Max else v
  }

  /** The seed cell of a node: each coordinate divided by the pixel scale, rounded up, then cast to u32. */
  function RustSeed(n: Node, pixelScale: nat): Cell
    requires pixelScale > 0
  {
    Cell(SaturateU32(Ceil(n.x / pixelScale as real)), SaturateU32(Ceil(n.y / pixelScale as real)))
  }

  function RustSeeds(nodes: seq<Node>, pixelScale: nat): (seeds: seq<Cell>)
    requires pixelScale > 0
    ensures |seeds| == |nodes|
    ensures forall i :: 0 <= i < |nodes| ==> seeds[i] == RustSeed(nodes[i], pixelScale)
  {
    seq(|nodes|, i requires 0 <= i < |nodes| => RustSeed(nodes[i], pixelScale))
  }

  /**
   * The seed of a node lies in the grid exactly when the position is at most
   * (cells - 1) * scale on both axes: the seed is the first cell corner at or
   * beyond the node, and a negative position saturates to row or column 0.
   */
  lemma RustSeedInGrid(n: Node, pixelScale: nat, bufferWidth: nat, bufferHeight: nat)
    requires pixelScale > 0
    requires bufferWidth <= U32Max && bufferHeight <= U32Max
    ensures InGrid(RustSeed(n, pixelScale), bufferWidth, bufferHeight) <==>
      (bufferWidth > 0 && bufferHeight > 0 &&
       n.x <= ((bufferWidth - 1) * pixelScale) as real && n.y <= ((bufferHeight - 1) * pixelScale) as real)
  {
    CeilWithin(n.x, pixelScale, bufferWidth);
    CeilWithin(n.y, pixelScale, bufferHeight);
  }

  /** For a u32 cell count: the saturated ceil(v / s) is below cells iff cells > 0 and v <= (cells - 1) * s. */
  lemma CeilWithin(v: real, s: nat, cells: nat)
    requires s > 0 && cells <= U32Max
    ensures SaturateU32(Ceil(v / s as real)) < cells <==> (cells > 0 && v <= ((cells - 1) * s) as real)
  {
    var c := Ceil(v / s as real);
    var sr := s as real;
    if v < 0.0 {
      assert v / sr < 0.0;
      assert SaturateU32(c) == 0;
      if cells > 0 {
        assert ((cells - 1) * s) as real >= 0.0;
      }
    } else {
      assert v / sr >= 0.0;
      if cells > 0 {
        var m := (cells - 1) as real;
        assert ((cells - 1) * s) as real == m * sr;
        if v <= m * sr {
          assert v / sr <= m;
        } else {
          assert v / sr > m;
        }
      }
      if c > U32Max && cells > 0 {
        var m := (cells - 1) as real;
        assert v / sr > m;
        assert v > m * sr by {
          assert v == (v / sr) * sr;
          assert (v / sr) * sr > m * sr;
        }
      }
    }
  }

  /**
   * `set_nearest_node_buffer`: no nodes gives an empty buffer; otherwise a
   * buffer of `bufferHeight` rows of `bufferWidth` node indices as the flood
   * with the distance-only queue leaves it.
   */
  method SetNearestNodeBuffer(bufferWidth: nat, bufferHeight: nat, pixelScale: nat, nodes: seq<Node>)
    returns (buffer: seq<seq<int>>)
    requires pixelScale > 0
    requires forall i :: 0 <= i < |nodes| ==> InGrid(RustSeed(nodes[i], pixelScale), bufferWidth, bufferHeight)
    ensures |nodes| == 0 ==> buffer == []
    ensures |nodes| > 0 ==>
      IsNearestBuffer(Setup(nodes, RustSeeds(nodes, pixelScale), bufferWidth, bufferHeight, pixelScale, DistanceOnly), buffer)
  {
    if |nodes| == 0 {
      return [];
    }
    var seeds := RustSeeds(nodes, pixelScale);
    buffer := Flood(nodes, seeds, bufferWidth, bufferHeight, pixelScale, DistanceOnly);
  }
}

=== FILE: renderer.dfy ===
/**
 * The standalone renderer of rust/src/lib.rs: `run_terrain_generator`
 * rescales the editor's nodes into a 200 km box, adds eight nodes on the
 * box's boundary, colours each image pixel by a piecewise-linear ramp over the
 * terrain's altitude and packs the image as RGBA bytes. Its Node type and
 * `Lerpable` implementation (rust/src/lib.rs:10-40) are the ones of
 * rust/src/node.rs, modelled once in NodeModel. The terrain itself and the
 * per-pixel brightness (arctangent shading plus random noise) are parameters.
 */
module Renderer {
  import opened Wrappers
  import opened Grid
  import opened NodeModel
  import opened Bridge

  // ---------------------------------------------------------------------
  // Colour ramp

  /** Rust's `as u8` on a float: truncation toward zero, saturating at 0 and 255. */
  function AsU8(r: real): (b: int)
    ensures 0 <= b <= 255
    ensures 0.0 <= r < 255.0 ==> b as real <= r < b as real + 1.0
  {
    if r < 0.0 then 0 else if r >= 255.0 then 255 else Floor(r)
  }

  /** An integer channel value in range survives the cast unchanged. */
  lemma AsU8OfByte(v: int)
    requires 0 <= v <= 255
    ensures AsU8(v as real) == v
  {}

  /** A control point of the ramp: an RGB colour at a weight. */
  datatype Stop = Stop(colour: seq<int>, weight: real)

  /** The six control points, from sea blue at 0 to dark green at 1. */
  const Stops: seq<Stop> := [
    Stop([50, 130, 200], 0.0),
    Stop([240, 240, 210], 0.005),
    Stop([190, 200, 120], 0.05),
    Stop([180, 200, 80], 0.2),
    Stop([25, 100, 25], 0.75),
    Stop([15, 60, 15], 1.0)
  ]

  /** The control weights increase strictly, and every colour has three channels in [15, 255]. */
  lemma StopsWellFormed()
    ensures |Stops| == 6
    ensures forall i :: 0 <= i < |Stops| - 1 ==> Stops[i].weight < Stops[i + 1].weight
    ensures forall i :: 0 <= i < |Stops| ==> |Stops[i].colour| == 3
    ensures forall i, ch :: 0 <= i < |Stops| && 0 <= ch < 3 ==> 15 <= Stops[i].colour[ch] <= 255
  {}

  /** prop lies in the half-open bracket [w_i, w_i+1). */
  predicate InBracket(prop: real, i: int)
  {
    0 <= i < |Stops| - 1 && Stops[i].weight <= prop < Stops[i + 1].weight
  }

  /** Position of prop inside bracket i, from 0 at w_i towards 1 at w_i+1. */
  function BracketFraction(prop: real, i: int): real
    requires 0 <= i < |Stops| - 1
  {
    StopsWellFormed();
    (prop - Stops[i].weight) / (Stops[i + 1].weight - Stops[i].weight)
  }

  /** One channel, high * p + low * (1 - p), cast to u8: `low` at p = 0, `high` at p = 1. */
  function BlendChannel(low: int, high: int, p: real): int
  {
    AsU8(high as real * p + low as real * (1.0 - p))
  }

  function Blend(i: int, prop: real): seq<int>
    requires 0 <= i < |Stops| - 1
  {
    StopsWellFormed();
    var p := BracketFraction(prop, i);
    var low := Stops[i].colour;
    var high := Stops[i + 1].colour;
    [BlendChannel(low[0], high[0], p), BlendChannel(low[1], high[1], p), BlendChannel(low[2], high[2], p)]
  }

  /** The colour of the first bracket from i on that holds prop; black when none does. */
  function FirstBracketFrom(prop: real, i: nat): seq<int>
    decreases |Stops| - 1 - i
  {
    if i >= |Stops| - 1 then [0, 0, 0]
    else if InBracket(prop, i) then Blend(i, prop)
    else FirstBracketFrom(prop, i + 1)
  }

  /** The ramp: clamped at both ends, blended within the bracket that holds prop. */
  function RampColour(prop: real): seq<int>
  {
    if prop >= Stops[|Stops| - 1].weight then Stops[|Stops| - 1].colour
    else if prop <= Stops[0].weight then Stops[0].colour
    else FirstBracketFrom(prop, 0)
  }

  /** The inline colormap block: a loop over the brackets that stops at the first one holding prop. */
  method Colormap(prop: real) returns (color: seq<int>)
    ensures color == RampColour(prop)
  {
    StopsWellFormed();
    color := [0, 0, 0];
    if prop >= Stops[|Stops| - 1].weight {
      color := Stops[|Stops| - 1].colour;
    } else if prop <= Stops[0].weight {
      color := Stops[0].colour;
    } else {
      for i := 0 to |Stops| - 1
        invariant color == [0, 0, 0]
        invariant FirstBracketFrom(prop, 0) == FirstBracketFrom(prop, i)
      {
        if Stops[i].weight <= prop && prop < Stops[i + 1].weight {
          var prop2 := (prop - Stops[i].weight) / (Stops[i + 1].weight - Stops[i].weight);
          var color1 := Stops[i].colour;
          var color2 := Stops[i + 1].colour;
          color := [BlendChannel(color1[0], color2[0], prop2), BlendChannel(color1[1], color2[1], prop2),
                    BlendChannel(color1[2], color2[2], prop2)];
          assert prop2 == BracketFraction(prop, i);
          break;
        }
      }
    }
  }

  /** At and beyond the ends the ramp is clamped to the end colours. */
  lemma RampClamps(prop: real)
    ensures prop >= 1.0 ==> RampColour(prop) == [15, 60, 15]
    ensures prop <= 0.0 ==> RampColour(prop) == [50, 130, 200]
  {}

  /** Strictly inside (0, 1) exactly one bracket holds prop. */
  lemma BracketExistsUnique(prop: real)
    requires 0.0 < prop < 1.0
    ensures exists i :: InBracket(prop, i)
    ensures forall i, j :: InBracket(prop, i) && InBracket(prop, j) ==> i == j
  {
    StopsWellFormed();
    if prop < Stops[1].weight { assert InBracket(prop, 0); }
    else if prop < Stops[2].weight { assert InBracket(prop, 1); }
    else if prop < Stops[3].weight { assert InBracket(prop, 2); }
    else if prop < Stops[4].weight { assert InBracket(prop, 3); }
    else { assert InBracket(prop, 4); }
  }

  /** The search from i finds bracket k when k is at or after i and holds prop. */
  lemma {:induction false} FirstBracketFinds(prop: real, i: nat, k: int)
    requires i <= k && InBracket(prop, k)
    ensures FirstBracketFrom(prop, i) == Blend(k, prop)
    decreases k - i
  {
    if i < k {
      if InBracket(prop, i) {
        BracketExistsUniqueAt(prop, i, k);
      }
      FirstBracketFinds(prop, i + 1, k);
    }
  }

  lemma BracketExistsUniqueAt(prop: real, i: int, k: int)
    requires InBracket(prop, i) && InBracket(prop, k)
    ensures i == k
  {
    if i < k {
      WeightsMonotone(i + 1, k);
      assert false;
    } else if k < i {
      WeightsMonotone(k + 1, i);
      assert false;
    }
  }

  lemma WeightsMonotone(a: int, b: int)
    requires 0 <= a <= b < |Stops|
    ensures Stops[a].weight <= Stops[b].weight
  {
    StopsWellFormed();
  }

  /** Inside (0, 1) the ramp is the blend of the bracket holding prop. */
  lemma RampIsBracketBlend(prop: real, i: int)
    requires 0.0 < prop < 1.0 && InBracket(prop, i)
    ensures RampColour(prop) == Blend(i, prop)
  {
    FirstBracketFinds(prop, 0, i);
  }

  /** Within a bracket the fraction lies in [0, 1). */
  lemma FractionInBracket(prop: real, i: int)
    requires InBracket(prop, i)
    ensures 0.0 <= BracketFraction(prop, i) < 1.0
  {
    StopsWellFormed();
    var d := Stops[i + 1].weight - Stops[i].weight;
    var n := prop - Stops[i].weight;
    assert 0.0 <= n < d;
    assert n / d < 1.0 by {
      assert n < d;
    }
  }

  /** A blended channel lies between the two channel values it blends. */
  lemma BlendChannelBetween(low: int, high: int, p: real)
    requires 0 <= low <= 255 && 0 <= high <= 255 && 0.0 <= p <= 1.0
    ensures var v := BlendChannel(low, high, p);
      (low <= high ==> low <= v <= high) && (high <= low ==> high <= v <= low)
  {
    var a := low as real;
    var b := high as real;
    var r := b * p + a * (1.0 - p);
    assert r == a + (b - a) * p;
    assert r == LerpReal(a, b, p);
    LerpBetween(a, b, p);
  }

  /**
   * Inside (0, 1) each channel of the ramp lies between the channels of the
   * two colours bounding prop's bracket; in particular no channel is below
   * 15, so the loop never leaves its initial black.
   */
  lemma RampChannelsBetween(prop: real, i: int)
    requires 0.0 < prop < 1.0 && InBracket(prop, i)
    ensures forall ch :: 0 <= ch < 3 ==>
      var a := Stops[i].colour[ch]; var b := Stops[i + 1].colour[ch];
      var v := RampColour(prop)[ch];
      (a <= b ==> a <= v <= b) && (b <= a ==> b <= v <= a)
    ensures forall ch :: 0 <= ch < 3 ==> RampColour(prop)[ch] >= 15
    ensures RampColour(prop) != [0, 0, 0]
  {
    StopsWellFormed();
    RampIsBracketBlend(prop, i);
    FractionInBracket(prop, i);
    var p := BracketFraction(prop, i);
    var low := Stops[i].colour;
    var high := Stops[i + 1].colour;
    BlendChannelBetween(low[0], high[0], p);
    BlendChannelBetween(low[1], high[1], p);
    BlendChannelBetween(low[2], high[2], p);
  }

  /** At each interior control weight the ramp gives that control colour exactly. */
  lemma RampExactAtStops(i: int)
    requires 1 <= i < |Stops| - 1
    ensures RampColour(Stops[i].weight) == Stops[i].colour
  {
    StopsWellFormed();
    var prop := Stops[i].weight;
    assert InBracket(prop, i);
    RampIsBracketBlend(prop, i);
    assert BracketFraction(prop, i) == 0.0;
    var c := Stops[i].colour;
    AsU8OfByte(c[0]);
    AsU8OfByte(c[1]);
    AsU8OfByte(c[2]);
    assert Blend(i, prop) == [c[0], c[1], c[2]];
  }

  // ---------------------------------------------------------------------
  // Input nodes and the eight boundary nodes

  /**
   * The input nodes mapped into the box: x / width * bound.x,
   * y / height * bound.y, attributes kept. Dividing by the image size and
   * multiplying by the box is `parse_nodes` with the image scale of the
   * preview crate.
   */
  function RescaleInput(nodes: seq<Node>, imageWidth: nat, imageHeight: nat): (r: seq<Node>)
    requires imageWidth > 0 && imageHeight > 0
    ensures r == ParseNodes(nodes, ImageScale(imageWidth, imageHeight).x, ImageScale(imageWidth, imageHeight).y)
  {
    var scale := ImageScale(imageWidth, imageHeight);
    var r := seq(|nodes|, i requires 0 <= i < |nodes| => RescaleNode(nodes[i], imageWidth, imageHeight));
    assert forall i :: 0 <= i < |nodes| ==> r[i] == ParseNodes(nodes, scale.x, scale.y)[i] by {
      forall i | 0 <= i < |nodes| ensures r[i] == ParseNodes(nodes, scale.x, scale.y)[i] {
        ParseNodesAt(nodes, scale.x, scale.y, i);
        RescaleNodeIsScaleNode(nodes[i], imageWidth, imageHeight);
      }
    }
    r
  }

  /** One input node mapped into the box. */
  function RescaleNode(n: Node, imageWidth: nat, imageHeight: nat): Node
    requires imageWidth > 0 && imageHeight > 0
  {
    var b := BoundMax(imageWidth, imageHeight);
    Node(n.x / imageWidth as real * b.x, n.y / imageHeight as real * b.y, n.erodibility, n.isOcean)
  }

  lemma RescaleNodeIsScaleNode(n: Node, imageWidth: nat, imageHeight: nat)
    requires imageWidth > 0 && imageHeight > 0
    ensures RescaleNode(n, imageWidth, imageHeight) ==
      ScaleNode(n, ImageScale(imageWidth, imageHeight).x, ImageScale(imageWidth, imageHeight).y)
  {
    var b := BoundMax(imageWidth, imageHeight);
    DivideThenScale(n.x, imageWidth as real, b.x);
    DivideThenScale(n.y, imageHeight as real, b.y);
  }

  lemma DivideThenScale(a: real, d: real, b: real)
    requires d != 0.0
    ensures a / d * b == a * (b / d)
  {
    var q := a / d;
    var r := b / d;
    assert q * d == a;
    assert r * d == b;
    assert (q * b) * d == (a * r) * d by {
      assert (q * b) * d == (q * d) * b;
      assert (a * r) * d == a * (r * d);
    }
    MulCancel(q * b, a * r, d);
  }

  lemma MulCancel(x: real, y: real, d: real)
    requires d != 0.0 && x * d == y * d
    ensures x == y
  {
    assert (x - y) * d == 0.0;
  }

  /** The four corners and four edge midpoints of the box, clockwise from the origin. */
  function FixedPerimeterPoints(bound: Point): (r: seq<Point>)
    ensures |r| == 8
  {
    [Point(0.0, 0.0), Point(bound.x / 2.0, 0.0), Point(bound.x, 0.0), Point(bound.x, bound.y / 2.0),
     Point(bound.x, bound.y), Point(bound.x / 2.0, bound.y), Point(0.0, bound.y), Point(0.0, bound.y / 2.0)]
  }

  /** The eight fixed points are the generator's perimeter points with two points per edge. */
  lemma FixedPointsAreTwoPerEdge(bound: Point)
    ensures FixedPerimeterPoints(bound) == PerimeterPoints(bound, 2)
  {
    TwoPerEdge(bound, 0);
    TwoPerEdge(bound, 1);
    TwoPerEdge(bound, 2);
    TwoPerEdge(bound, 3);
  }

  /** With two points per edge, edge i holds corner i and the edge's midpoint. */
  lemma TwoPerEdge(bound: Point, i: nat)
    requires i < 4
    ensures var a := Corners(bound)[i]; var b := Corners(bound)[(i + 1) % 4];
      EdgePoints(bound, i, 2) == [a, Point((a.x + b.x) / 2.0, (a.y + b.y) / 2.0)]
  {
    var a := Corners(bound)[i];
    var b := Corners(bound)[(i + 1) % 4];
    assert 0 as real / 2 as real == 0.0 && 1 as real / 2 as real == 0.5;
    LerpRealEnds(a.x, b.x);
    LerpRealEnds(a.y, b.y);
    LerpHalf(a.x, b.x);
    LerpHalf(a.y, b.y);
  }

  lemma LerpHalf(a: real, b: real)
    ensures LerpReal(a, b, 0.5) == (a + b) / 2.0
  {}

  /**
   * The renderer's interpolation sites: the rescaled input nodes followed by
   * the eight boundary nodes, each copying its attributes from the first
   * nearest rescaled input node (the lookup needs at least one node).
   */
  function RendererNodes(input: seq<Node>, imageWidth: nat, imageHeight: nat): (r: seq<Node>)
    requires imageWidth > 0 && imageHeight > 0 && |input| > 0
    ensures |r| == |input| + 8
    ensures r[..|input|] == RescaleInput(input, imageWidth, imageHeight)
    ensures r[|input|..] == PerimeterNodes(r[..|input|], FixedPerimeterPoints(BoundMax(imageWidth, imageHeight)))
    ensures TailCopiesFirstNearest(r, |input|, FixedPerimeterPoints(BoundMax(imageWidth, imageHeight)))
  {
    var rescaled := RescaleInput(input, imageWidth, imageHeight);
    AppendPerimeterNodes(rescaled, FixedPerimeterPoints(BoundMax(imageWidth, imageHeight)));
    rescaled + PerimeterNodes(rescaled, FixedPerimeterPoints(BoundMax(imageWidth, imageHeight)))
  }

  /** The renderer builds exactly the sites the preview crate's generator builds with edge_node = 2. */
  lemma RendererNodesAreGeneratorNodes(input: seq<Node>, imageWidth: nat, imageHeight: nat)
    requires imageWidth > 0 && imageHeight > 0 && |input| > 0
    ensures RendererNodes(input, imageWidth, imageHeight) == GeneratorNodes(input, imageWidth, imageHeight, 2)
  {
    FixedPointsAreTwoPerEdge(BoundMax(imageWidth, imageHeight));
  }

  // ---------------------------------------------------------------------
  // Pixels

  /** The horizontal and vertical offset of the second altitude sample, in metres. */
  const CmpDist: real := 0.5 * 1000.0
  const MaxAltitude: real := 2000.0

  /** Each channel multiplied by the brightness and cast to u8. */
  function Shade(color: seq<int>, brightness: real): (r: seq<int>)
    requires |color| == 3
  {
    [AsU8(color[0] as real * brightness), AsU8(color[1] as real * brightness), AsU8(color[2] as real * brightness)]
  }

  /** The model site of image pixel (x, y). */
  function PixelSite(imageWidth: nat, imageHeight: nat, x: nat, y: nat): Point
    requires imageWidth > 0 && imageHeight > 0
  {
    var b := BoundMax(imageWidth, imageHeight);
    Point(b.x * (x as real / imageWidth as real), b.y * (y as real / imageHeight as real))
  }

  /**
   * The colour of pixel (x, y): the ramp at altitude / 2000, shaded by the
   * pixel's brightness, when both the site and the site offset by 500 m on
   * each axis lie in the terrain; black (the image's initial value) otherwise.
   */
  function PixelColour(imageWidth: nat, imageHeight: nat, altitudeAt: Point -> Option<real>,
                       brightness: (nat, nat) -> real, x: nat, y: nat): seq<int>
    requires imageWidth > 0 && imageHeight > 0
  {
    var site := PixelSite(imageWidth, imageHeight, x, y);
    var a1 := altitudeAt(site);
    var a2 := altitudeAt(Point(site.x + CmpDist, site.y + CmpDist));
    if a1.Some? && a2.Some? then
      RampLength(a1.value / MaxAltitude);
      Shade(RampColour(a1.value / MaxAltitude), brightness(x, y))
    else [0, 0, 0]
  }

  lemma RampLength(prop: real)
    ensures |RampColour(prop)| == 3
  {
    StopsWellFormed();
    if 0.0 < prop < 1.0 {
      BracketExistsUnique(prop);
      var i :| InBracket(prop, i);
      RampIsBracketBlend(prop, i);
    }
  }

  /**
   * The pixel loop: columns outer, rows inner, filling an RGB image stored
   * row by row (pixel (x, y) at x + y * width). A pixel whose altitude
   * samples are missing keeps its initial black.
   */
  method RenderPixels(imageWidth: nat, imageHeight: nat, altitudeAt: Point -> Option<real>,
                      brightness: (nat, nat) -> real)
    returns (image: array<seq<int>>)
    requires imageWidth > 0 && imageHeight > 0
    ensures fresh(image) && image.Length == imageWidth * imageHeight
    ensures forall c :: InGrid(c, imageWidth, imageHeight) ==>
      image[Slot(c, imageWidth, imageHeight)] == PixelColour(imageWidth, imageHeight, altitudeAt, brightness, c.x, c.y)
  {
    image := new seq<int>[imageWidth * imageHeight](_ => [0, 0, 0]);
    for imgx := 0 to imageWidth
      invariant forall c :: InGrid(c, imageWidth, imageHeight) ==>
        image[Slot(c, imageWidth, imageHeight)] ==
          if c.x < imgx then PixelColour(imageWidth, imageHeight, altitudeAt, brightness, c.x, c.y) else [0, 0, 0]
    {
      for imgy := 0 to imageHeight
        invariant forall c :: InGrid(c, imageWidth, imageHeight) ==>
          image[Slot(c, imageWidth, imageHeight)] ==
            if Painted(c, imgx, imgy) then PixelColour(imageWidth, imageHeight, altitudeAt, brightness, c.x, c.y)
            else [0, 0, 0]
      {
        var here := Cell(imgx, imgy);
        ghost var before := image[..];
        PaintPixel(image, imageWidth, imageHeight, imgx, imgy, altitudeAt, brightness);
        forall c | InGrid(c, imageWidth, imageHeight)
          ensures image[Slot(c, imageWidth, imageHeight)] ==
            if Painted(c, imgx, imgy + 1) then PixelColour(imageWidth, imageHeight, altitudeAt, brightness, c.x, c.y)
            else [0, 0, 0]
        {
          if c != here {
            if Slot(c, imageWidth, imageHeight) == Slot(here, imageWidth, imageHeight) {
              FlatIndexInjective(c, here, imageWidth, imageHeight);
            }
            assert image[Slot(c, imageWidth, imageHeight)] == before[Slot(c, imageWidth, imageHeight)];
          }
        }
      }
    }
  }

  /** Pixel c is painted once the column loop is at x and the row loop at y. */
  predicate Painted(c: Cell, x: int, y: int)
  {
    c.x < x || (c.x == x && c.y < y)
  }

  /**
   * One iteration of the row loop: pixel (imgx, imgy), still black, gets its
   * colour (or stays black when an altitude sample is missing); no other
   * pixel changes.
   */
  method PaintPixel(image: array<seq<int>>, imageWidth: nat, imageHeight: nat, imgx: nat, imgy: nat,
                    altitudeAt: Point -> Option<real>, brightness: (nat, nat) -> real)
    requires imgx < imageWidth && imgy < imageHeight && image.Length == imageWidth * imageHeight
    requires image[Slot(Cell(imgx, imgy), imageWidth, imageHeight)] == [0, 0, 0]
    modifies image
    ensures image[Slot(Cell(imgx, imgy), imageWidth, imageHeight)] ==
      PixelColour(imageWidth, imageHeight, altitudeAt, brightness, imgx, imgy)
    ensures forall j :: 0 <= j < image.Length && j != Slot(Cell(imgx, imgy), imageWidth, imageHeight) ==>
      image[j] == old(image[j])
  {
    var site := PixelSite(imageWidth, imageHeight, imgx, imgy);
    var altitude := altitudeAt(site);
    var altitude2 := altitudeAt(Point(site.x + CmpDist, site.y + CmpDist));
    if altitude.Some? && altitude2.Some? {
      var prop := altitude.value / MaxAltitude;
      var color := Colormap(prop);
      RampLength(prop);
      image[Slot(Cell(imgx, imgy), imageWidth, imageHeight)] := Shade(color, brightness(imgx, imgy));
    }
  }

  // ---------------------------------------------------------------------
  // RGBA packing

  /** Each RGB pixel followed by an opaque alpha byte, in order. */
  function Packed(pixels: seq<seq<int>>): seq<int>
    requires forall i :: 0 <= i < |pixels| ==> |pixels[i]| == 3
  {
    if |pixels| == 0 then []
    else [pixels[0][0], pixels[0][1], pixels[0][2], 255] + Packed(pixels[1..])
  }

  /** The packing loop: four bytes per pixel appended to the output. */
  method PackRgba(pixels: seq<seq<int>>) returns (bytes: seq<int>)
    requires forall i :: 0 <= i < |pixels| ==> |pixels[i]| == 3
    ensures bytes == Packed(pixels)
  {
    bytes := [];
    for i := 0 to |pixels|
      invariant bytes + Packed(pixels[i..]) == Packed(pixels)
    {
      assert pixels[i..][1..] == pixels[i + 1..];
      bytes := bytes + [pixels[i][0], pixels[i][1], pixels[i][2], 255];
    }
  }

  /** The packed buffer has four bytes per pixel: the pixel's channels, then 255. */
  lemma {:induction false} PackedLayout(pixels: seq<seq<int>>)
    requires forall i :: 0 <= i < |pixels| ==> |pixels[i]| == 3
    ensures |Packed(pixels)| == 4 * |pixels|
    ensures forall i :: 0 <= i < |pixels| ==>
      Packed(pixels)[4 * i] == pixels[i][0] && Packed(pixels)[4 * i + 1] == pixels[i][1] &&
      Packed(pixels)[4 * i + 2] == pixels[i][2] && Packed(pixels)[4 * i + 3] == 255
  {
    if |pixels| > 0 {
      PackedLayout(pixels[1..]);
      forall i | 1 <= i < |pixels|
        ensures Packed(pixels)[4 * i] == pixels[i][0] && Packed(pixels)[4 * i + 1] == pixels[i][1] &&
          Packed(pixels)[4 * i + 2] == pixels[i][2] && Packed(pixels)[4 * i + 3] == 255
      {
        assert pixels[1..][i - 1] == pixels[i];
      }
    }
  }

  /** Dropping every fourth byte recovers the pixels. */
  function Unpacked(bytes: seq<int>): seq<seq<int>>
    decreases |bytes|
  {
    if |bytes| < 4 then [] else [bytes[..3]] + Unpacked(bytes[4..])
  }

  lemma {:induction false} PackedRoundTrip(pixels: seq<seq<int>>)
    requires forall i :: 0 <= i < |pixels| ==> |pixels[i]| == 3
    ensures Unpacked(Packed(pixels)) == pixels
  {
    if |pixels| > 0 {
      PackedRoundTrip(pixels[1..]);
      var b := Packed(pixels);
      assert b[4..] == Packed(pixels[1..]);
      assert b[..3] == pixels[0];
    }
  }
}

=== FILE: rescale.dfy ===
/**
 * scripts/rescale_erodibility.py: the linear map of erodibility values from
 * an old range onto a new one, and the pass that applies it to every record
 * of a node list that carries an erodibility. The range bounds are floats
 * (the command line parses them as such); record values are JSON values.
 */
module RescaleErodibility {
  import opened Wrappers

  /** A JSON value as the records hold it; arrays and objects are not told apart. */
  datatype Json = Number(n: real) | Boolean(b: bool) | Text(s: string) | Null | Composite

  /** The exceptions the rescale pass can raise. */
  datatype PyError = ZeroDivisionError | TypeError

  /** One record: a JSON object. */
  type Item = map<string, Json>

  const Key: string := "erodibility"

  /** Where `v` lies in the range from `lo` to `hi`, as a fraction of its width. */
  function Ratio(v: real, lo: real, hi: real): real
    requires hi != lo
  {
    (v - lo) / (hi - lo)
  }

  /** The numeric rescale of a number, a ZeroDivisionError for an empty old range. */
  function RescaleReal(v: real, oldMin: real, oldMax: real, newMin: real, newMax: real): (r: Result<real, PyError>)
    ensures r.Err? <==> oldMax == oldMin
    ensures r.Err? ==> r.error == ZeroDivisionError
  {
    if oldMax == oldMin then Err(ZeroDivisionError)
    else Ok(newMin + Ratio(v, oldMin, oldMax) * (newMax - newMin))
  }

  /**
   * `rescale` on a JSON value: numbers rescale, a boolean counts as 0 or 1,
   * and any other value fails the subtraction with a TypeError before the
   * division is reached.
   */
  function Rescale(value: Json, oldMin: real, oldMax: real, newMin: real, newMax: real): (r: Result<real, PyError>)
    ensures !(value.Number? || value.Boolean?) ==> r == Err(TypeError)
    ensures value.Number? || value.Boolean? ==> (r.Err? <==> oldMax == oldMin)
    ensures value.Number? || value.Boolean? ==> (r.Err? ==> r.error == ZeroDivisionError)
  {
    match value
    case Number(v) => RescaleReal(v, oldMin, oldMax, newMin, newMax)
    case Boolean(b) => RescaleReal(if b then 1.0 else 0.0, oldMin, oldMax, newMin, newMax)
    case _ => Err(TypeError)
  }

  /** Over a non-empty old range the rescale is the linear map. */
  lemma RescaleRealIsLinear(v: real, oldMin: real, oldMax: real, newMin: real, newMax: real)
    requires oldMax != oldMin
    ensures RescaleReal(v, oldMin, oldMax, newMin, newMax) == Ok(newMin + Ratio(v, oldMin, oldMax) * (newMax - newMin))
  {}

  lemma RatioAtEnds(lo: real, hi: real)
    requires lo != hi
    ensures Ratio(lo, lo, hi) == 0.0 && Ratio(hi, lo, hi) == 1.0
  {
    DivSelf(lo, hi);
  }

  lemma DivSelf(lo: real, hi: real)
    requires lo != hi
    ensures (hi - lo) / (hi - lo) == 1.0
  {}

  /** Scaling a fraction onto a range and taking its fraction again are inverse to each other. */
  lemma RatioOfScaled(q: real, lo: real, hi: real)
    requires lo != hi
    ensures Ratio(lo + q * (hi - lo), lo, hi) == q
  {}

  lemma ScaleRatio(v: real, lo: real, hi: real)
    requires lo != hi
    ensures lo + Ratio(v, lo, hi) * (hi - lo) == v
  {}

  lemma MulOne(q: real, k: real)
    requires q == 1.0
    ensures q * k == k
  {}

  lemma MulZero(q: real, k: real)
    requires q == 0.0
    ensures q * k == 0.0
  {}

  /** The ends of the old range go to the ends of the new range. */
  lemma RescaleEndpoints(oldMin: real, oldMax: real, newMin: real, newMax: real)
    requires oldMax != oldMin
    ensures RescaleReal(oldMin, oldMin, oldMax, newMin, newMax) == Ok(newMin)
    ensures RescaleReal(oldMax, oldMin, oldMax, newMin, newMax) == Ok(newMax)
  {
    RescaleRealIsLinear(oldMin, oldMin, oldMax, newMin, newMax);
    RescaleRealIsLinear(oldMax, oldMin, oldMax, newMin, newMax);
    RatioAtEnds(oldMin, oldMax);
    MulZero(Ratio(oldMin, oldMin, oldMax), newMax - newMin);
    MulOne(Ratio(oldMax, oldMin, oldMax), newMax - newMin);
    assert Ratio(oldMin, oldMin, oldMax) * (newMax - newMin) == 0.0;
    assert RescaleReal(oldMin, oldMin, oldMax, newMin, newMax).value == newMin;
    assert Ratio(oldMax, oldMin, oldMax) * (newMax - newMin) == newMax - newMin;
    assert RescaleReal(oldMax, oldMin, oldMax, newMin, newMax).value == newMax;
  }

  /** With both ranges ascending the rescale keeps the order of values. */
  lemma RescaleMonotone(v: real, w: real, oldMin: real, oldMax: real, newMin: real, newMax: real)
    requires oldMax > oldMin && newMax >= newMin && v <= w
    ensures RescaleReal(v, oldMin, oldMax, newMin, newMax).value <= RescaleReal(w, oldMin, oldMax, newMin, newMax).value
  {
    var d := oldMax - oldMin;
    assert (w - oldMin) / d - (v - oldMin) / d == (w - v) / d;
    assert Ratio(v, oldMin, oldMax) <= Ratio(w, oldMin, oldMax);
    MulMonotone(Ratio(v, oldMin, oldMax), Ratio(w, oldMin, oldMax), newMax - newMin);
  }

  lemma MulMonotone(a: real, b: real, k: real)
    requires a <= b && 0.0 <= k
    ensures a * k <= b * k
  {
    assert b * k - a * k == (b - a) * k;
  }

  /** Rescaling from one range to another and back returns the value. */
  lemma RescaleInverse(v: real, oldMin: real, oldMax: real, newMin: real, newMax: real)
    requires oldMax != oldMin && newMax != newMin
    ensures RescaleReal(RescaleReal(v, oldMin, oldMax, newMin, newMax).value, newMin, newMax, oldMin, oldMax) == Ok(v)
  {
    var q := Ratio(v, oldMin, oldMax);
    var u := newMin + q * (newMax - newMin);
    RescaleRealIsLinear(v, oldMin, oldMax, newMin, newMax);
    RescaleRealIsLinear(u, newMin, newMax, oldMin, oldMax);
    RatioOfScaled(q, newMin, newMax);
    ScaleRatio(v, oldMin, oldMax);
    assert RescaleReal(v, oldMin, oldMax, newMin, newMax).value == u;
    assert Ratio(u, newMin, newMax) == q;
    assert RescaleReal(u, newMin, newMax, oldMin, oldMax).value == oldMin + q * (oldMax - oldMin) == v;
  }

  /** One record after the update: the erodibility rescaled when there is one, the record itself otherwise. */
  function RescaleItem(item: Item, oldMin: real, oldMax: real, newMin: real, newMax: real): (r: Result<Item, PyError>)
    ensures Key !in item ==> r == Ok(item)
    ensures Key in item ==> (r.Err? <==> Rescale(item[Key], oldMin, oldMax, newMin, newMax).Err?)
    ensures r.Ok? ==> r.value.Keys == item.Keys && forall k :: k in item && k != Key ==> r.value[k] == item[k]
    ensures r.Ok? && Key in item ==> r.value[Key] == Number(Rescale(item[Key], oldMin, oldMax, newMin, newMax).value)
  {
    if Key !in item then Ok(item)
    else match Rescale(item[Key], oldMin, oldMax, newMin, newMax)
      case Ok(v) => Ok(item[Key := Number(v)])
      case Err(e) => Err(e)
  }

  /** The records after the pass, and the exception that stopped it, if one did. */
  datatype Outcome = Outcome(items: seq<Item>, error: Option<PyError>)

  /** A record fails the update. */
  predicate Fails(item: Item, oldMin: real, oldMax: real, newMin: real, newMax: real)
  {
    RescaleItem(item, oldMin, oldMax, newMin, newMax).Err?
  }

  /**
   * The pass over the list from record `from` on: records are updated in
   * order until one raises; that record and the ones after it stay as they
   * were. The whole pass is `RescalePass(items, 0, ...)`.
   */
  function RescalePass(items: seq<Item>, from: nat, oldMin: real, oldMax: real, newMin: real, newMax: real): (o: Outcome)
    requires from <= |items|
    ensures |o.items| == |items|
    decreases |items| - from
  {
    if from == |items| then Outcome(items, None)
    else match RescaleItem(items[from], oldMin, oldMax, newMin, newMax)
      case Err(e) => Outcome(items, Some(e))
      case Ok(item) => RescalePass(items[from := item], from + 1, oldMin, oldMax, newMin, newMax)
  }

  /**
   * Only the erodibility key ever changes: every record keeps its keys and
   * every other value, a record without an erodibility is untouched, and so
   * are the records before `from`.
   */
  lemma {:induction false} RescalePassTouchesOnlyErodibility(items: seq<Item>, from: nat, oldMin: real, oldMax: real, newMin: real, newMax: real)
    requires from <= |items|
    ensures var o := RescalePass(items, from, oldMin, oldMax, newMin, newMax);
      (forall i :: 0 <= i < from ==> o.items[i] == items[i]) &&
      forall i :: 0 <= i < |items| ==>
        o.items[i].Keys == items[i].Keys &&
        (forall k :: k in items[i] && k != Key ==> o.items[i][k] == items[i][k]) &&
        (Key !in items[i] ==> o.items[i] == items[i])
    decreases |items| - from
  {
    if from < |items| {
      var r := RescaleItem(items[from], oldMin, oldMax, newMin, newMax);
      if r.Ok? {
        RescalePassTouchesOnlyErodibility(items[from := r.value], from + 1, oldMin, oldMax, newMin, newMax);
      }
    }
  }

  /**
   * The pass raises exactly when some record from `from` on fails; without
   * an exception every one of those records is replaced by its update.
   */
  lemma {:induction false} RescalePassSucceeds(items: seq<Item>, from: nat, oldMin: real, oldMax: real, newMin: real, newMax: real)
    requires from <= |items|
    ensures var o := RescalePass(items, from, oldMin, oldMax, newMin, newMax);
      (o.error.None? <==> forall i :: from <= i < |items| ==> !Fails(items[i], oldMin, oldMax, newMin, newMax)) &&
      (o.error.None? ==> forall i :: from <= i < |items| ==>
        o.items[i] == RescaleItem(items[i], oldMin, oldMax, newMin, newMax).value)
    decreases |items| - from
  {
    if from < |items| {
      var r := RescaleItem(items[from], oldMin, oldMax, newMin, newMax);
      if r.Ok? {
        var next := items[from := r.value];
        RescalePassSucceeds(next, from + 1, oldMin, oldMax, newMin, newMax);
        RescalePassTouchesOnlyErodibility(next, from + 1, oldMin, oldMax, newMin, newMax);
        assert forall i :: from < i < |items| ==> next[i] == items[i];
      }
    }
  }

  /**
   * Record f is where the pass stopped: it fails with the exception the
   * pass reports, the records from `from` up to it were updated, and it and
   * the records after it are as they were.
   */
  predicate StoppedAt(items: seq<Item>, from: nat, f: nat, o: Outcome, oldMin: real, oldMax: real, newMin: real, newMax: real)
    requires from <= f < |items| == |o.items|
  {
    Fails(items[f], oldMin, oldMax, newMin, newMax) &&
    o.error == Some(RescaleItem(items[f], oldMin, oldMax, newMin, newMax).error) &&
    (forall i :: from <= i < f ==>
      (!Fails(items[i], oldMin, oldMax, newMin, newMax) &&
       o.items[i] == RescaleItem(items[i], oldMin, oldMax, newMin, newMax).value)) &&
    o.items[f..] == items[f..]
  }

  /** When the pass raises, there is a first failing record, and the pass stopped there. */
  lemma {:induction false} RescalePassStopsAtFirstFailure(items: seq<Item>, from: nat, oldMin: real, oldMax: real, newMin: real, newMax: real)
    requires from <= |items|
    requires RescalePass(items, from, oldMin, oldMax, newMin, newMax).error.Some?
    ensures exists f :: from <= f < |items| && StoppedAt(items, from, f,
      RescalePass(items, from, oldMin, oldMax, newMin, newMax), oldMin, oldMax, newMin, newMax)
    decreases |items| - from
  {
    var o := RescalePass(items, from, oldMin, oldMax, newMin, newMax);
    var r := RescaleItem(items[from], oldMin, oldMax, newMin, newMax);
    if r.Err? {
      assert StoppedAt(items, from, from, o, oldMin, oldMax, newMin, newMax);
    } else {
      var next := items[from := r.value];
      assert o == RescalePass(next, from + 1, oldMin, oldMax, newMin, newMax);
      RescalePassStopsAtFirstFailure(next, from + 1, oldMin, oldMax, newMin, newMax);
      RescalePassTouchesOnlyErodibility(next, from + 1, oldMin, oldMax, newMin, newMax);
      var f :| from + 1 <= f < |next| && StoppedAt(next, from + 1, f, o, oldMin, oldMax, newMin, newMax);
      assert next[f..] == items[f..];
      assert o.items[from] == r.value;
      forall i | from + 1 <= i < f ensures next[i] == items[i] {}
      assert StoppedAt(items, from, f, o, oldMin, oldMax, newMin, newMax);
    }
  }

  /**
   * `rescale_erodibility`'s update loop over the parsed records, in place:
   * the array ends as the pass leaves the list, and the result is the
   * exception that stopped it, if any.
   */
  method RescaleRecords(data: array<Item>, oldMin: real, oldMax: real, newMin: real, newMax: real) returns (error: Option<PyError>)
    modifies data
    ensures data[..] == RescalePass(old(data[..]), 0, oldMin, oldMax, newMin, newMax).items
    ensures error == RescalePass(old(data[..]), 0, oldMin, oldMax, newMin, newMax).error
  {
    for i := 0 to data.Length
      invariant RescalePass(data[..], i, oldMin, oldMax, newMin, newMax) == RescalePass(old(data[..]), 0, oldMin, oldMax, newMin, newMax)
    {
      ghost var before := data[..];
      var item := data[i];
      assert RescaleItem(before[i], oldMin, oldMax, newMin, newMax).Ok? ==>
        RescalePass(before, i, oldMin, oldMax, newMin, newMax) ==
        RescalePass(before[i := RescaleItem(before[i], oldMin, oldMax, newMin, newMax).value], i + 1, oldMin, oldMax, newMin, newMax);
      if Key !in item {
        assert before[i := item] == before;
      } else {
        var value := Rescale(item[Key], oldMin, oldMax, newMin, newMax);
        if value.Err? {
          return Some(value.error);
        }
        data[i] := item[Key := Number(value.value)];
        assert data[..] == before[i := item[Key := Number(value.value)]];
      }
    }
    error := None;
  }
}

=== FILE: wrappers.dfy ===
/** Option and Result values for the model's "absent" and error cases. */
module Wrappers {

  datatype Option<+T> = None | Some(value: T)

  datatype Result<+T, +E> = Ok(value: T) | Err(error: E)
}
